=== FILE: README.md ===
# Internship portal core, modelled in Dafny

This project models the decision logic of an internship-management web
application: an Express back end over a document store, plus a React intern
dashboard. Interns register, receive an offer letter, submit weekly work
(files, links and notes), and download an offer letter and a completion
certificate. Administrators keep week-by-week task plans and project
overviews.

Each source component becomes one Dafny module. Every request handler
becomes a pure function from the stored state and the request to the new
state and the reply:

- `Errors` and `ErrorHandler` model the custom error type and the global
  error handler.
- `UploadRules` models the server's upload admission: the MIME filter, the
  count and size limits, and the mapping from upload errors to messages.
- `MediaStore` models the media host as the set of public ids it holds.
- `SubmissionModel` and `SubmissionController` model the weekly submission
  record: consolidation, deletion and the weekly lookup.
- `InternPanel` models the intern dashboard: file validation, merging a
  file selection, the submit guards, the multipart form it sends, and the
  download file name.
- `TaskController` models week-indexed task plans, including the cast of
  each plan into its schema on save.
- `JsNumber` models JavaScript's conversion of a string to a number
  (section 7.1.4.1.1 of ECMAScript 2024), which the single-week lookup
  applies to its week-number field.
- `Letterhead`, `OfferLetterGenerator` and `IccGenerator` model the company
  letterhead and the text of the two documents.
- `CertificateSchema`, `IccModel` and `OfferLetterModel` model the two
  certificate schemas: setters, validators, the pre-save hook, `isValid`
  and `canBeModified`.
- `CertificateController` models issuing and downloading certificates.
- `UserController` models registration, login, password reset and password
  change.
- `ProjectController` models project overviews.
- `Wrappers`, `Js`, `Text` and `Seqs` are shared vocabulary: options and
  results, JavaScript values and truthiness, string operations, and
  order-preserving filtering and first-match search.

Several things are modelled as follows:

- Dates are integers (milliseconds).
- Every effect the program cannot decide itself is a parameter:
  - the current time;
  - the media host's answer to an upload;
  - the rendered PDF, or the rendering failure;
  - password hashing and comparison;
  - token signing and verification;
  - whether a mail was sent;
  - whether a save succeeded;
  - the email-format check;
  - the `_id` given to a new record.
- A collection is a sequence of documents in insertion order. `findOne` is
  the first match in that sequence.

The model reproduces these behaviours of the code:

- A failed upload does not trigger deletion of the uploads that succeeded
  in the same call.
- Generating a document with a missing name or department prints
  `undefined`; it raises no error.
- `createSubmission` checks only the MIME type of the files. It does not
  re-check the one-PDF/three-image limit.
- The results of media deletions are ignored.
- The weekly lookup returns every record of the user that lists the week.

`createSubmission` reads its fields from the query string, while the intern
panel puts them in the multipart body. The model takes the request fields
as the server reads them.

## Model

| member | source | states |
|---|---|---|
| Errors.CustomError | Backend/utils/errorResponse.js:8-21 | the error carries the given message and status; `details` is kept exactly when it is truthy |
| Errors.CustomErrorDefaultHasNoDetails | Backend/utils/errorResponse.js:8-17 | omitting `details`, or passing a falsy one, leaves no details; an empty object is kept |
| Errors.ValidationError | Backend/controllers/globarErrorHandler.controller.js:22-25 | a schema validation error is named "ValidationError" and carries its per-path failures in order, with no status code |
| Errors.Messages | Backend/controllers/globarErrorHandler.controller.js:23 | the list of sub-error messages has one entry per failure, in order |
| Errors.NotIterable | Backend/controllers/submission.controller.js:105-106 | spreading `undefined` throws a TypeError with a message and no status code, which the global handler therefore reports as 500 |
| ErrorHandler.StatusOrDefault | Backend/controllers/globarErrorHandler.controller.js:28 | the status is the error's own non-zero status code, otherwise 500 |
| ErrorHandler.MessageOrDefault | Backend/controllers/globarErrorHandler.controller.js:30 | the message is the error's own non-empty message, otherwise "Server Error" |
| ErrorHandler.GlobalErrorHandler | Backend/controllers/globarErrorHandler.controller.js:4-33 | the reply never reports success; a stack trace is present only in development; its status and message are chosen by the ValidationError, duplicate-key and CastError rules, with later rules overriding earlier ones |
| ErrorHandler.CustomErrorPassesThrough | Backend/controllers/globarErrorHandler.controller.js:28-32 | a CustomError thrown by a controller reaches the client with its own status and message |
| ErrorHandler.EmptyValidationFallsBack | Backend/controllers/globarErrorHandler.controller.js:22-30 | a validation error without sub-errors answers 400 "Server Error" |
| ErrorHandler.SingleValidationMessage | Backend/controllers/globarErrorHandler.controller.js:22-25 | with one sub-error, the client sees exactly that sub-error's message |
| UploadRules.FileFilter | Backend/routes/submission.routes.js:19-31 | a file is accepted iff its MIME type is PNG, JPEG or PDF; otherwise the error carries status 400 |
| UploadRules.AdmitFromCharacterised | Backend/routes/submission.routes.js:33-43 | the part-by-part pass succeeds exactly when every part meets the declarative rule: at most 4 files, at most 1 in `files`, at most 3 in `images`, each allowed and at most 3 MiB |
| UploadRules.AdmitFromContents | Backend/routes/submission.routes.js:33-43 | an admitted request hands on each field's parts in arrival order |
| UploadRules.AdmitFrom | Backend/routes/submission.routes.js:33-43 | a pass that admits a non-empty list has seen at most 4 files in all; every part it admits is in `files` or `images`, of an allowed type and at most 3 MiB; and each admitted part is handed on under exactly one field |
| UploadRules.Admit | Backend/routes/submission.routes.js:33-43 | the upload library admits a request iff it is admissible, and then hands on each field's parts in arrival order |
| UploadRules.LibraryMessage | Backend/routes/submission.routes.js:53-66 | the three known error codes map to their fixed messages; any other code keeps the library's message |
| UploadRules.HandleUploadError | Backend/routes/submission.routes.js:48-73 | no error calls `next()` with nothing; a library error becomes a 400 CustomError with the mapped message; any other error is forwarded unchanged |
| UploadRules.HandleMulterUpload | Backend/routes/submission.routes.js:46-75 | the middleware passes exactly the admissible requests, and every refusal has status 400 |
| UploadRules.StopOtherIsFilterError | Backend/routes/submission.routes.js:19-31 | a failure that is not the library's own is the file filter's 400 error |
| MediaStore.DeleteFile | Backend/services/cloudinary.service.js:147-160 | after deletion the id is gone from the store; success is reported iff the host answered "ok", which it does iff the id was stored |
| MediaStore.DeleteAll | Backend/controllers/submission.controller.js:78-82 | one delete per id leaves the store without exactly those ids |
| MediaStore.DestroyResult | Backend/services/cloudinary.service.js:149-151 | the host answers "ok" exactly for an id it stores |
| SubmissionModel.NewSubmission | Backend/models/submission.models.js:3-43 | each list field is the given value, or empty when absent; the identity fields are copied |
| SubmissionModel.Urls | Backend/models/submission.models.js:49-55 | the URL list has the length and order of the file list, and element i is entry i's url |
| SubmissionModel.ImageUrls | Backend/models/submission.models.js:49-51 | the `imageUrls` virtual lists the url of each stored image, in order |
| SubmissionModel.PdfUrls | Backend/models/submission.models.js:53-55 | the `pdfUrls` virtual lists the url of each stored PDF, in order |
| SubmissionModel.PublicIds | Backend/models/submission.models.js:22-35 | the public-id list has the length and order of the file list, and element i is entry i's publicId |
| SubmissionModel.Validate | Backend/models/submission.models.js:10-13 | a record validates iff its username is non-empty; the failure is a ValidationError |
| SubmissionController.KeptFiles | Backend/controllers/submission.controller.js:23-26 | every kept file has an allowed MIME type (the kept files are `files` then `images`, filtered in that order) |
| SubmissionController.StripExtension | Backend/controllers/submission.controller.js:47-50 | the result is a prefix of the name; it is shorter exactly when the name ends in a dot followed by a non-empty suffix without `/` or `.` |
| SubmissionController.CallFor | Backend/controllers/submission.controller.js:40-52 | images go to `submissions/{userId}/images`, PDFs to `submissions/{userId}/pdfs`; only a PDF gets a proposed public id |
| SubmissionController.Entries | Backend/controllers/submission.controller.js:61-65 | one entry per upload, carrying the host's url and id and the MIME subtype as format |
| SubmissionController.EntriesOf | Backend/controllers/submission.controller.js:36-67 | when every upload of a call succeeds, there is one entry per kept file, in order, with the host's url and id for that file's upload and the file's MIME subtype as format |
| SubmissionController.FormatOfKept | Backend/controllers/submission.controller.js:63 | among the allowed MIME types, the subtype is "pdf" exactly for `application/pdf` |
| SubmissionController.PdfEntriesArePdfFiles | Backend/controllers/submission.controller.js:63-70 | an uploaded file is routed to the PDFs exactly when it is an `application/pdf` file |
| SubmissionController.RouteOne | Backend/controllers/submission.controller.js:69-70 | an entry whose format is "pdf" goes to the PDFs only, and any other entry to the images only |
| SubmissionController.RouteConcat | Backend/controllers/submission.controller.js:69-70 | routing keeps upload order: the images and the PDFs of two runs of uploads are those of each run, concatenated |
| SubmissionController.FindByUser | Backend/controllers/submission.controller.js:73 | the first record of the user, or none when the user has no record |
| SubmissionController.MergeWeek | Backend/controllers/submission.controller.js:89-106 | the week and the new images, PDFs, links and notes are appended; every earlier entry and the record's identity are unchanged |
| SubmissionController.Consolidate | Backend/controllers/submission.controller.js:72-127 | after the uploads, a failed duplicate check or save leaves the records unchanged |
| SubmissionController.UpdateRecord | Backend/controllers/submission.controller.js:89-107 | an absent `links` fails first, then an absent `notes`; with both present the record at that index becomes the merged record exactly when it has a username, and otherwise the ValidationError is returned |
| SubmissionController.SpreadList | Backend/controllers/submission.controller.js:105-106 | `[...field]`: fails exactly when the field is absent, with the not-iterable TypeError; a lone string yields its characters one by one, in order; an array yields its elements |
| SubmissionController.InitList | Backend/controllers/submission.controller.js:123-124 | a field passed to `new Submission` is left out exactly when absent (so the schema default `[]` applies), a lone string becomes a one-element list, and an array is kept |
| SubmissionController.CreateSubmission | Backend/controllers/submission.controller.js:14-133 | a missing user id or week, and a call with no allowed file, fail with 400 before any upload; otherwise one upload per kept file, in order, to the right folder; a failure never changes the records; deletions are issued only on failure |
| SubmissionController.SplitCoversEntries | Backend/controllers/submission.controller.js:69-70 | each uploaded file becomes exactly one image reference or one PDF reference: together the two lists hold the references of all the uploads, each once |
| SubmissionController.UploadStage | Backend/controllers/submission.controller.js:36-127 | past both guards, exactly one upload per kept file is issued, in order; a failure leaves the records unchanged; deletions are issued only on failure |
| SubmissionController.UploadFailure | Backend/controllers/submission.controller.js:54-59 | a failed upload answers 500, issues no deletions, and leaves every successful upload of the call on the host |
| SubmissionController.DuplicateWeekLeavesNoTrace | Backend/controllers/submission.controller.js:74-87 | resubmitting a listed week deletes exactly this call's uploads, fails with 400, and leaves the world as it was |
| SubmissionController.NewWeekExtendsRecord | Backend/controllers/submission.controller.js:89-107 | a new week for an existing record succeeds iff both `links` and `notes` are present; then this call's uploads become live, the record gets the week appended, the references of the non-PDF uploads appended to its images and of the PDF uploads to its PDFs, in upload order, and the spread links and notes appended; no other record changes |
| SubmissionController.MissingListFailsUpdate | Backend/controllers/submission.controller.js:105-106 | on the update path an absent `links` or `notes` throws the spread's TypeError after every upload succeeded: the global handler answers 500, no record changes, nothing is deleted, and this call's uploads stay live |
| SubmissionController.FirstSubmissionCreatesRecord | Backend/controllers/submission.controller.js:108-126 | a user without a record gets one new record appended after the old ones, with the request's user id, username and department id, exactly this week, the references of this call's image uploads and of its PDF uploads in upload order, and the links and notes as the `[String]` cast stores them: `[]` when absent, a one-element list for a lone value |
| SubmissionController.LoneValueSplitsOnUpdate | Backend/controllers/submission.controller.js:105-124 | a lone `links` value of two or more characters is kept whole in a new record but appended character by character to an existing one |
| SubmissionController.FailedUploadKeepsTheOthers | Backend/controllers/submission.controller.js:36-67 | a failed upload fails the call with 500, issues no deletions, and leaves the successful uploads of the same call on the host |
| SubmissionController.InvalidRecordKeepsUploads | Backend/controllers/submission.controller.js:108-126 | a new record without a username fails validation, and this call's uploads stay on the host |
| SubmissionController.ConsolidatePreserves | Backend/controllers/submission.controller.js:72-127 | consolidation keeps the store consistent: every reference is live, users and ids are distinct, and no two records share a file |
| SubmissionController.CreatePreservesConsistency | Backend/controllers/submission.controller.js:14-133 | given fresh ids from the host, every outcome of createSubmission keeps the store consistent |
| SubmissionController.RemovePreservesConsistency | Backend/controllers/submission.controller.js:157-169 | removing a record together with its files keeps the store consistent, and no remaining record has the removed id |
| SubmissionController.FindById | Backend/controllers/submission.controller.js:150 | the first record with the given `_id`, or none |
| SubmissionController.DeleteSubmission | Backend/controllers/submission.controller.js:141-175 | a missing id gives 400 and an unknown id gives 404, both with no deletions; otherwise one delete per image and PDF id, and the record is removed |
| SubmissionController.DeleteRemovesRecordAndFiles | Backend/controllers/submission.controller.js:156-169 | deleting removes exactly that record and exactly its files from the host, keeps the other records in order, and keeps the store consistent |
| SubmissionController.GetSubmissionsByWeek | Backend/controllers/submission.controller.js:183-201 | both fields are required (400); the result is exactly the user's records that list the week |
| SubmissionController.SubmittedWeekIsListed | Backend/controllers/submission.controller.js:89-126 | after a successful submission, some record of the user lists the submitted week |
| SubmissionController.WeekLookupFindsSubmission | Backend/controllers/submission.controller.js:192-195 | after a successful submission the weekly lookup returns exactly one record |
| InternPanel.ValidateFileSize | client/src/pages/InternPanel.jsx:31-37 | a file passes iff its size is at most 3 MiB |
| InternPanel.ValidateFiles | client/src/pages/InternPanel.jsx:39-75 | more than 4 files are refused with the count message before any file is examined; every refusal carries one of the four messages |
| InternPanel.ScanFiles | client/src/pages/InternPanel.jsx:45-71 | a refusal during the scan carries the size, type or mix message, and an accepted scan saw only files small enough and of an allowed type |
| InternPanel.ScanCharacterised | client/src/pages/InternPanel.jsx:45-71 | the running scan accepts iff every file is small enough and of an allowed type, and the running counts stay within 1 PDF and 3 images |
| InternPanel.ValidateFilesCharacterised | client/src/pages/InternPanel.jsx:39-75 | a list is accepted iff it has at most 4 files, each at most 3 MiB and of an allowed type, with at most 1 PDF and at most 3 images |
| InternPanel.HandleSubmissionChange | client/src/pages/InternPanel.jsx:77-104 | chosen files are appended to the selection; a refused combination leaves the selection unchanged; an accepted one becomes the selection, cut to 4; editing a field sets only that field and clears the error |
| InternPanel.AcceptedMergeKeepsEverything | client/src/pages/InternPanel.jsx:81-97 | an accepted combination is kept whole: the cut to 4 never drops a file |
| InternPanel.ChangeKeepsSelectionAcceptable | client/src/pages/InternPanel.jsx:77-104 | no change to the panel makes an acceptable selection unacceptable |
| InternPanel.FileEntries | client/src/pages/InternPanel.jsx:211-213 | every selected file is appended under the field name `files`, in order |
| InternPanel.SubmitForm | client/src/pages/InternPanel.jsx:204-213 | the form holds the week, links, notes, department and username, then one `files` entry per file |
| InternPanel.HandleSubmit | client/src/pages/InternPanel.jsx:191-217 | no request while one is in flight, or when the trimmed links or trimmed notes are empty; otherwise the form is sent and the panel is marked as submitting |
| InternPanel.BlankLinksSendNothing | client/src/pages/InternPanel.jsx:194-197 | links made only of white space send nothing |
| InternPanel.NoSecondRequestInFlight | client/src/pages/InternPanel.jsx:192 | submitting again before the first request settles sends nothing |
| InternPanel.SubmitSettled | client/src/pages/InternPanel.jsx:232-240 | a settled request always clears the in-flight flag; success empties links, notes and files; failure sets "Error submitting task" |
| InternPanel.SubmitFormParts | client/src/pages/InternPanel.jsx:204-213 | the upload library sees exactly one `files` part per selected file, in order |
| InternPanel.TwoFilesAreRefused | client/src/pages/InternPanel.jsx:211-213 | as written, any acceptable selection of 2 or more files is refused by the server with 400 "Unexpected field name in upload" |
| InternPanel.SecondFilesPartIsRefused | Backend/routes/submission.routes.js:41 | a second part in `files` after an allowed first one is refused as an unexpected field |
| InternPanel.RoutedParts | client/src/pages/InternPanel.jsx:211-213 | the corrected form puts a PDF under `files` and an image under `images`, one part per file, in order |
| InternPanel.RoutedCounts | Backend/routes/submission.routes.js:40-43 | with corrected routing, the `files` count is the PDF count and the `images` count is the image count |
| InternPanel.RoutedSelectionIsAdmitted | Backend/routes/submission.routes.js:33-43 | with corrected routing, every selection the panel accepts is admitted by the server |
| InternPanel.DownloadName | client/src/pages/InternPanel.jsx:113-116 | no header, or no `filename=` in it, gives the fallback name; any other name is non-empty and has no `"` |
| InternPanel.DownloadNameReadsAttachment | client/src/pages/InternPanel.jsx:144-148 | for `attachment; filename=F`, the client saves the file as F when F is non-empty and has no quote and no `filename=` |
| TaskController.FindByTitle | Backend/controllers/task.controllers.js:42 | the first document whose stored title equals the lowercased title after the schema's setters, or none |
| TaskController.LookupIgnoresCase | Backend/controllers/task.controllers.js:100 | lowercasing the title first, or trimming it first, changes nothing about the lookup |
| Text.LowerTrim | Backend/models/task.models.js:49-53 | lowercasing and trimming commute, because lowercasing neither creates nor removes white space |
| TaskController.ToDoc | Backend/models/task.models.js:34-68 | a stored task document's title is the given title lowercased and trimmed, its department is kept, and each plan of each week is cast into the plan schema |
| TaskController.CastWeeks | Backend/models/task.models.js:63 | every plan of every week is cast into the plan schema, and the numbers of weeks and plans are kept |
| TaskController.AddTasks | Backend/controllers/task.controllers.js:3-28 | a non-array body is refused with 400 and nothing is inserted; an invalid document inserts none (500); otherwise every document is appended in order (201) |
| TaskController.AddedTitlesCanBeFound | Backend/controllers/task.controllers.js:13 | after an insert, each added document can be looked up by the title it was given |
| TaskController.Overlay | Backend/controllers/task.controllers.js:66-70 | in memory, a plan takes every key of the update, keeps its other keys, and gets `updatedAt` set to now |
| TaskController.CastPlan | Backend/models/task.models.js:34-45 | casting into the plan schema keeps exactly the keys it declares (`_id`, `weekNumber`, `weekTitle`, `taskList`), with their values |
| TaskController.StoredPlanFields | Backend/controllers/task.controllers.js:66-72 | the plan as saved has no `updatedAt`; each declared path takes the update's value when the update has it and keeps the old value otherwise; no other key survives |
| TaskController.StoredPlanIsStable | Backend/controllers/task.controllers.js:66-72 | overlaying a saved plan again with the same update, and saving, gives back the same plan |
| TaskController.OverlayWeek | Backend/controllers/task.controllers.js:66-72 | every plan of the week is overlaid and cast into the plan schema, as the save does, and the plan count is kept |
| TaskController.ReplaceWeek | Backend/controllers/task.controllers.js:60-66 | only week w is replaced; the title, department and other weeks are unchanged |
| TaskController.UpdateWeek | Backend/controllers/task.controllers.js:30-87 | a missing title, week or update gives 400 before lookup; an unknown title gives 404; a week outside 1..n gives 400; only a success changes the store |
| TaskController.UpdateLeavesOtherDocuments | Backend/controllers/task.controllers.js:59-72 | an update changes only the matched document, and keeps its title |
| TaskController.UpdateTouchesOnlyThatWeek | Backend/controllers/task.controllers.js:60-72 | only week n−1 changes; each of its plans becomes the overlaid plan cast into the schema, which has no `updatedAt` and only declared keys; the number of weeks is kept |
| TaskController.UpdateIsIdempotent | Backend/controllers/task.controllers.js:66-70 | applying the same update again at the same instant changes nothing |
| TaskController.DeleteWeek | Backend/controllers/task.controllers.js:89-132 | a missing title or week gives 400; an unknown title gives 404; a week outside 1..n gives 400; only a success changes the store |
| TaskController.DeleteRemovesExactlyThatWeek | Backend/controllers/task.controllers.js:117 | a delete removes exactly the element at index weekNumber−1, and the other weeks keep their order |
| TaskController.GetAllTasks | Backend/controllers/task.controllers.js:134-167 | a missing title gives 400; no document gives 404; otherwise the matched document with 200 |
| TaskController.FindByDepartment | Backend/controllers/task.controllers.js:178 | the first document with that department name, or none |
| TaskController.WeekAt | Backend/controllers/task.controllers.js:182 | week n is the element at index n−1 exactly when n is an integer from 1 to the number of weeks; any other number selects nothing |
| TaskController.GetOneWeek | Backend/controllers/task.controllers.js:169-188 | a missing title or week gives the 400 message; no document gives the null-read error; otherwise the answer is the week whose number `Number` reads from the field, when that is an integer from 1 to the number of weeks, and no week otherwise |
| TaskController.OneWeekReadsTheWeek | Backend/controllers/task.controllers.js:178-183 | for week n in range, the answer is `weeklyPlans[n-1]` of the department's document |
| TaskController.SpacedWeekNumber | Backend/controllers/task.controllers.js:182 | white space around the week number selects the same week as the number alone |
| TaskController.SignedWeekNumber | Backend/controllers/task.controllers.js:182 | a leading `+` on the week number selects the same week as the number alone |
| TaskController.FractionalWeekNumber | Backend/controllers/task.controllers.js:182 | a fraction of zeros (`2.0`, `2.`) selects the same week as the whole number |
| JsNumber.StringToNumber | Backend/controllers/task.controllers.js:182 | a string that is empty or all white space converts to 0 |
| JsNumber.IntegerValue | Backend/controllers/task.controllers.js:182 | a number denotes an integer exactly when its mantissa is a multiple of the power of ten its negative exponent divides by, and then it is the quotient |
| JsNumber.DigitsReadAsDecimal | Backend/controllers/task.controllers.js:182 | a non-empty string of digits converts to its decimal value |
| JsNumber.DecimalReadsBack | Backend/controllers/task.controllers.js:182 | converting the decimal rendering of a natural number gives the number back |
| JsNumber.SpaceIgnored | Backend/controllers/task.controllers.js:182 | white space around a string of digits does not change the number it converts to |
| JsNumber.PlusIgnored | Backend/controllers/task.controllers.js:182 | a leading `+`, with or without white space around, does not change the number a string of digits converts to |
| JsNumber.ZeroFractionIgnored | Backend/controllers/task.controllers.js:182 | digits followed by a dot and only zeros, with or without white space around, convert to the integer the digits denote |
| Letterhead.CompanyDetails | Backend/utils/offerLetterGenerator.js:6-14 | the company details are the defaults, with every caller-supplied key overriding (iccGenerator.js:6-14 is the same) |
| Letterhead.FooterOf | Backend/utils/offerLetterGenerator.js:110-116 | the footer names the company and address; contact, email and website carry the "Contact: ", "Email: " and "Website: " prefixes before the company's values |
| Letterhead.DefaultFooter | Backend/utils/iccGenerator.js:7-14 | without overrides, the footer shows the foundation's default name, address, phone, email and website |
| OfferLetterGenerator.Tenure | Backend/utils/offerLetterGenerator.js:46 | an undefined tenure defaults to 1; any other value is kept |
| OfferLetterGenerator.OfferContentFor | Backend/utils/offerLetterGenerator.js:51-117 | the subject is "Online Internship Offer", and the footer is the letterhead footer of the generator's company |
| OfferLetterGenerator.DetailsMention | Backend/utils/offerLetterGenerator.js:58-63 | the details list shows the department, start date, end date, "{tenure} months" and "100% Remote/Online", each on a bullet line |
| OfferLetterGenerator.DetailsInMain | Backend/utils/offerLetterGenerator.js:54-63 | anything the details list contains, the main content contains |
| OfferLetterGenerator.MainNamesCompany | Backend/utils/offerLetterGenerator.js:54 | the main content names the company |
| OfferLetterGenerator.MainContentMentions | Backend/utils/offerLetterGenerator.js:54-63 | the letter's main content names the company and shows every details line with the candidate's values |
| OfferLetterGenerator.GreetingNamesCandidate | Backend/utils/offerLetterGenerator.js:53 | the greeting is exactly "Congratulations, " + name + "!" |
| OfferLetterGenerator.MissingTenureIsOneMonth | Backend/utils/offerLetterGenerator.js:46 | a candidate without a tenure is offered "• Duration: 1 months" |
| OfferLetterGenerator.DisclaimerNamesCompany | Backend/utils/offerLetterGenerator.js:105 | the legal disclaimer names the company |
| OfferLetterGenerator.DefaultCompanyIsFoundation | Backend/utils/offerLetterGenerator.js:8 | without overrides, the letter names the default foundation |
| IccGenerator.CertificateFor | Backend/utils/iccGenerator.js:39-57 | the title is "Internship Completion Certificate", and the footer is the letterhead footer of the generator's company |
| IccGenerator.BodyShape | Backend/utils/iccGenerator.js:44-48 | the body opens with the certifying sentence and contains "We wish {name} all the best" |
| IccGenerator.BodyCertifiesTheIntern | Backend/utils/iccGenerator.js:44-48 | the certificate body opens by certifying this intern, department, company and period, and wishes the same intern well |
| IccGenerator.CertifiesMentions | Backend/utils/iccGenerator.js:44 | the certifying sentence names the intern, "{dept} department at {company}", and " from {start} to {end}." |
| IccGenerator.ClosingNoteNamesCompany | Backend/utils/iccGenerator.js:49 | the closing note is "Issued by " followed by exactly the company name |
| IccGenerator.MissingNamePrintsUndefined | Backend/utils/iccGenerator.js:40 | a candidate without a name is wished well as `undefined` |
| CertificateSchema.MapOption | Backend/models/icc.models.js:8 | a setter applies to a present value and leaves an absent one absent |
| CertificateSchema.Build | Backend/models/icc.models.js:5-76 | building trims `name`, lowercases and trims `email` and `departmentName`, gives a declared `status` the default "active", drops an undeclared one, and copies the rest |
| CertificateSchema.LengthCheck | Backend/models/icc.models.js:5-11 | a length-checked path passes iff it is present with 2 to 50 characters; an absent or empty value reports the required message |
| CertificateSchema.EmailCheck | Backend/models/icc.models.js:13-26 | the email passes iff it is present, non-empty and of valid format |
| CertificateSchema.EndCheck | Backend/models/icc.models.js:56-65 | the end date passes iff both dates are present and the end is after the start |
| CertificateSchema.PdfCheck | Backend/models/icc.models.js:67-70 | the buffer passes iff it is present and non-empty |
| CertificateSchema.StatusCheck | Backend/models/icc.models.js:72-76 | the status passes iff it is undeclared, absent, or one of active, expired, revoked |
| CertificateSchema.Collect | Backend/models/icc.models.js:3-77 | no failure is collected iff every path's check passed, and there is at most one failure per path |
| CertificateSchema.Failures | Backend/models/icc.models.js:3-77 | a document has no validation failure iff it is acceptable path by path; there are at most 8 failures |
| CertificateSchema.Save | Backend/models/icc.models.js:98-123 | a save succeeds iff the document is acceptable, otherwise it is the model's ValidationError; the saved document keeps every field and an end after its start; it is marked expired iff now is past the end, otherwise its status is kept |
| CertificateSchema.Persisted | Backend/models/offerLetter.models.js:3-76 | a later read returns the document, except that an undeclared status was never written |
| CertificateSchema.IsValid | Backend/models/icc.models.js:89-95 | a document can be valid only when it has a start and an end date, the start not after the end |
| CertificateSchema.CanBeModified | Backend/models/icc.models.js:125-128 | a document that can be modified now is not valid now, and one with an ordered period becomes valid on its start date |
| CertificateSchema.ValidExcludesModifiable | Backend/models/icc.models.js:90-95 | a certificate is never valid and modifiable at the same instant |
| CertificateSchema.SavedAfterEndIsExpired | Backend/models/icc.models.js:114-117 | a document saved after its end date is expired, and so is never valid or modifiable again |
| CertificateSchema.RangeErrorUnreachable | Backend/models/icc.models.js:109-111 | the pre-save hook's own range error is never raised, because validation already rejects those dates |
| CertificateSchema.MissingNameReportedFirst | Backend/models/icc.models.js:5-11 | a document without a name fails, and its first failure is "Name is required" |
| IccModel.Create | Backend/models/icc.models.js:3-123 | creation succeeds iff the built document is acceptable; the saved certificate has a status from the enum, a trimmed name of 2 to 50 characters, a normalized department and ordered dates; it is expired when now is past the end, otherwise it has the given status or "active" |
| IccModel.DefaultStatusIsActive | Backend/models/icc.models.js:72-76 | a certificate created without a status, before its end, is active and valid during its period |
| IccModel.RevokedIsInert | Backend/models/icc.models.js:90-95 | a revoked certificate is never valid and never modifiable |
| IccModel.UnknownStatusRefused | Backend/models/icc.models.js:72-76 | a status outside the enum is refused |
| OfferLetterModel.Create | Backend/models/offerLetter.models.js:3-116 | creation succeeds iff the built document is acceptable; the saved letter has a trimmed name of 2 to 50 characters and ordered dates; its status is "expired" when now is past the end and absent otherwise |
| OfferLetterModel.OfferLetterNeverValid | Backend/models/offerLetter.models.js:83-88 | as written, no saved or reloaded offer letter is ever valid or modifiable |
| OfferLetterModel.CreateCorrected | Backend/models/offerLetter.models.js:3-76 | with a declared status path, a saved letter has a status from the enum, and a reload returns it unchanged |
| OfferLetterModel.CorrectedOfferLetterIsValid | Backend/models/offerLetter.models.js:83-88 | with the status declared, a letter saved without a status before its end is valid throughout its period, and modifiable before it starts |
| OfferLetterModel.CorrectionKeepsAcceptance | Backend/models/offerLetter.models.js:3-76 | declaring the path accepts exactly the same documents, and changes nothing but the status |
| CertificateController.FindFrom | Backend/controllers/certificate.controller.js:20 | the first record from an index on whose email equals the key, or none |
| CertificateController.FindByEmail | Backend/controllers/certificate.controller.js:20 | the first record whose stored email equals the query email after the lowercase and trim setters, or none |
| CertificateController.FindAfterReplace | Backend/controllers/certificate.controller.js:28-30 | a record updated in place with its email unchanged is still the one found |
| CertificateController.FindAfterAppend | Backend/controllers/certificate.controller.js:41-50 | a new record for an unknown email is the one found afterwards |
| CertificateController.GenerateOfferLetter | Backend/controllers/certificate.controller.js:8-66 | never throws: the status is "success" or "error"; an error changes nothing and carries a message; a rendering failure is reported; "already exists" leaves the store unchanged; letters are created with the offer-letter schema as declared |
| CertificateController.ExistingLetterIsKept | Backend/controllers/certificate.controller.js:20-26 | a record that already has a letter is left alone, with "Offer letter already exists" |
| CertificateController.MissingLetterIsAttached | Backend/controllers/certificate.controller.js:28-38 | a record without a letter gets only the letter set, reads back with no status, and the other records are unchanged |
| CertificateController.UnknownEmailCreatesRecord | Backend/controllers/certificate.controller.js:40-57 | an unknown email gets a new record from the request, with tenure 3, the letter, and no status |
| CertificateController.SuccessLeavesLetter | Backend/controllers/certificate.controller.js:20-57 | after a successful call, the email's record holds a letter |
| CertificateController.GenerateIsIdempotent | Backend/controllers/certificate.controller.js:20-26 | once a call has succeeded, a later call for the same address leaves the store unchanged, and reports "already exists" when rendering succeeds |
| CertificateController.GenerateIcc | Backend/controllers/certificate.controller.js:68-104 | the answer is 200 or 500; a 500 changes nothing and carries an error; "already generated" leaves the store unchanged |
| CertificateController.IccDepartmentFromBody | Backend/controllers/certificate.controller.js:89-95 | a new certificate takes its department from `department`, with tenure 3 and the PDF; without a department the save fails with 500 |
| CertificateController.IccIsIdempotent | Backend/controllers/certificate.controller.js:78-83 | after a successful issue, issuing again for the same address changes nothing and answers "already generated" |
| CertificateController.Serve | Backend/controllers/certificate.controller.js:109-131 | 404 iff there is no record or it has no PDF; 500 with the header error iff the PDF exists but the name holds a character outside tab, printable ASCII and U+0080–U+00FF, which the header check refuses; otherwise the PDF as an attachment named `{name}{suffix}` |
| CertificateController.HeaderSafeIffName | Backend/controllers/certificate.controller.js:117-121 | the `Content-Disposition` value for `{name}{suffix}` passes the header check exactly when the name does, for a suffix that passes it |
| CertificateController.HeaderSafeExamples | Backend/controllers/certificate.controller.js:117-121 | "José" passes the header check; "Đorđe" and a name with a line break do not |
| CertificateController.DownloadOfferLetter | Backend/controllers/certificate.controller.js:109-131 | 404 "Offer letter not found" iff the record or its PDF is missing; 500 "Invalid character in header content ["Content-Disposition"]" with no body iff the letter exists but the name fails the header check; otherwise the letter named `{name}_Offer_Letter.pdf` |
| CertificateController.DownloadIcc | Backend/controllers/certificate.controller.js:134-159 | 404 "ICC not found" iff the record or its PDF is missing; 500 with the header error and no body iff the certificate exists but the name fails the header check; otherwise the certificate named `{name}_Internship_Completion_Certificate.pdf` |
| CertificateController.GeneratedLetterDownloads | Backend/controllers/certificate.controller.js:109-131 | after a successful generation, any spelling of the address that normalizes to the same email finds the letter: the answer is never 404, and it is 200 exactly when the name passes the header check, 500 otherwise |
| CertificateController.ClientKeepsServerFilename | client/src/pages/InternPanel.jsx:113-116 | when the response's `Content-Disposition` is visible to the panel, it saves a downloaded letter under the server's `{name}_Offer_Letter.pdf` if the name has no quote and no `filename=`; when the header is hidden, it uses its fallback name |
| CertificateController.VisibleDisposition | Backend/index.js:41-46 | the panel sees the server's `Content-Disposition` when the cross-origin policy exposes it, and no header otherwise |
| CertificateController.DeployedPanelUsesFallback | Backend/index.js:41-46 | with the deployed cross-origin policy, which exposes no response headers, the panel always saves the letter under its fallback name |
| Seqs.FindFirst | Backend/controllers/user.controllers.js:23 | the index of the first element satisfying the predicate; none exactly when no element does |
| UserController.FindByEmail | Backend/controllers/user.controllers.js:23 | a user whose email is exactly the given one, or none iff there is no such user |
| UserController.FindById | Backend/controllers/user.controllers.js:262 | a user with the given id, or none iff there is no such user |
| UserController.AddUser | Backend/controllers/user.controllers.js:9-86 | a known email gives 400 "Email already exists" and creates nothing; any non-201 answer changes nothing; a 201 appends one user with the password's hash, answers with the user's profile, and sets the signed cookie |
| UserController.RegistrationIgnoresLetterOutcome | Backend/controllers/user.controllers.js:47-55 | a successful registration answers 201 whatever happened to the offer letter, and the letter store is as GenerateOfferLetter left it |
| UserController.SecondRegistrationRefused | Backend/controllers/user.controllers.js:23-29 | after a registration, registering the same email again is refused and changes nothing |
| UserController.Login | Backend/controllers/user.controllers.js:89-138 | 200 iff the email exists, a password is given, and it matches the stored hash, with the profile and a signed cookie; an unknown email and a wrong password get the same 401 "Invalid credentials"; a missing password (or a missing hash) makes the comparison reject, which answers 500 "Login failed" |
| UserController.RequestReset | Backend/controllers/user.controllers.js:141-200 | an unknown email gives 404 and no change; otherwise the token sign(id, "1h") is stored with an expiry of now + 3600000; 200 iff that save succeeds and the mail is sent |
| UserController.FindRedeemable | Backend/controllers/user.controllers.js:219-223 | a user with that id and that stored token whose expiry is still in the future, or none iff no such user exists |
| UserController.ResetPassword | Backend/controllers/user.controllers.js:203-253 | a token that does not verify gives 401 "Invalid or expired token"; no matching unexpired user gives 401 "Invalid or expired reset link"; a missing `newPassword` makes hashing reject, which answers 500 "Failed to reset password" and leaves the link redeemable; success replaces the hash and clears the token and its expiry; a failure changes nothing |
| UserController.TokenIsSingleUse | Backend/controllers/user.controllers.js:236-240 | after a successful reset, the same link fails with 401 at any later time |
| UserController.TokenExpiresAfterAnHour | Backend/controllers/user.controllers.js:153-163 | a freshly issued token redeems exactly before now + one hour |
| UserController.AsDeclared | Backend/models/user.models.js:3-15 | a stored user keeps every declared field and holds no reset token or expiry |
| UserController.ResetTokenIsNotStored | Backend/controllers/user.controllers.js:160-163 | under the schema as declared, a reset request leaves the stored users exactly as they were |
| UserController.ResetLinkNeverRedeems | Backend/controllers/user.controllers.js:219-230 | under the schema as declared, every reset link whose token verifies is refused with 401 "Invalid or expired reset link" |
| UserController.ChangePassword | Backend/controllers/user.controllers.js:256-301 | an unknown user gives 404; 401 "Current password is incorrect" iff a current password is given and does not match; a missing `currentPassword`, or a missing `newPassword` after a match, makes bcrypt reject, which answers 500 "Failed to change password"; success replaces only the hash; a failure changes nothing |
| UserController.ChangedPasswordLogsIn | Backend/controllers/user.controllers.js:271-288 | after a change, the new password logs in and a different old one no longer does |
| ProjectController.ValidateFields | Backend/controllers/projectoverview.controller.js:5-7 | the gate passes iff every listed field of the body is truthy |
| ProjectController.FindByOverview | Backend/controllers/projectoverview.controller.js:44 | the first project with that overview, or none iff no project has it |
| ProjectController.NewProject | Backend/controllers/projectoverview.controller.js:19-24 | the new project has the three required fields from the body, plus `duration`, which is the body's duration when truthy and 3 otherwise |
| ProjectController.AddProject | Backend/controllers/projectoverview.controller.js:10-33 | missing required fields give 400 and no change; 201 iff the fields are present and the save succeeds, and then the new project is appended |
| ProjectController.GetProject | Backend/controllers/projectoverview.controller.js:36-56 | no overview gives 400; 404 iff none matches; otherwise the first matching project |
| ProjectController.SetPaths | Backend/controllers/projectoverview.controller.js:84-97 | the six `$set` paths take the body's values, every other path keeps its value, and the overview in particular is never changed |
| ProjectController.UpdateProject | Backend/controllers/projectoverview.controller.js:59-109 | a missing field gives 400; 404 iff no overview matches; otherwise only the first match is updated, and the updated project is returned |
| ProjectController.DeleteProject | Backend/controllers/projectoverview.controller.js:112-132 | no overview gives 400; 404 iff none matches; otherwise exactly the first match is removed |
| ProjectController.DeletedProjectIsGone | Backend/controllers/projectoverview.controller.js:112-132 | after deleting the only project with a given overview, the store is one shorter and looking that overview up answers 404 |
| ProjectController.UpdateGateImpliesAddGate | Backend/controllers/projectoverview.controller.js:72-82 | a body that passes the update gate passes the add gate |
| ProjectController.AddedProjectIsFound | Backend/controllers/projectoverview.controller.js:40-50 | a project just added is found by its overview |
| ProjectController.UpdatedProjectIsRead | Backend/controllers/projectoverview.controller.js:84-103 | a later lookup reads back exactly the updated project, since `overview` is not among the paths that are set |

## Left out

- Rendering: PDF rendering and layout are left out. The generators are modelled up to the text they compose, and the rendered buffer, or a rendering failure, is a parameter.
- Media host: the media host's SDK is left out. An upload's result is a function the caller supplies, and deletion follows the host's documented answers; transport failures are not modelled.
- Concurrency: the concurrent uploads of one call run as one sequential step. Races between requests, such as two submissions of one week or two registrations of one email, are left out.
- Type casting: the document store's casts of strings to numbers, dates and ObjectIds are left out. Dates are integers, the week numbers of updates and deletions are integers, and string dates in the pre-save hooks are not modelled. Ids are strings that the store accepts; a malformed ObjectId, which the store answers with a CastError that the global handler turns into 404 "Resource not found", is not modelled.
- SubmissionController.CreateSubmission: `userId` and `departementId` are assumed to be valid ObjectIds. A malformed one makes `findOne({ userId })` (Backend/controllers/submission.controller.js:73) throw a CastError after the uploads, which answers 404 "Resource not found" and leaves the uploads live; the model does not promise that case.
- SubmissionController.FirstSubmissionCreatesRecord: the stored user and department ids are the request's strings, assumed to be valid ObjectIds; the cast in `new Submission` is not modelled.
- SubmissionController.FindById: the id is assumed to be a valid ObjectId; a malformed one makes `findById` throw a CastError rather than find nothing.
- SubmissionController.DeleteSubmission: a malformed `submissionId` answers 404 "Resource not found" through the CastError rule, not "Submission not found."; the model assumes valid ObjectIds and does not promise that message.
- Request parsing: query strings and multipart bodies are not decoded. Each of `links` and `notes` arrives absent, as one string, or as an array of strings; a nested object (`links[a]=b`) is not modelled. The other request fields of `createSubmission` are taken as the server reads them.
- Tenure: tenure is an integer in both certificate schemas. The string path and its setters are not modelled, because no property depends on them.
- Undefined queries: a query with an undefined email (`findOne({ email: undefined })`) is left out. Emails are strings.
- String lengths: lengths count characters, not UTF-16 code units. `toLowerCase` and `trim` are modelled on ASCII letters and white space.
- Project schema: the project-overview schema cannot be loaded as written, so its validation is not modelled. Whether a save succeeds is a parameter.
- Database failures: the 500 paths of `getProject`, `updateProject`, `deleteProject`, `login` and the task handlers for a failing database are not modelled. A missing password in the body of `login`, `userPasswordReset` or `changeUserPassword` is modelled.
- Tokens and passwords: the internals of bcrypt, JWT and mail delivery are left out, except that `bcrypt.hash` and `bcrypt.compare` reject a missing argument. They are uninterpreted functions or flags, and the five-day session token is modelled as `sign(id)`.
- Unique index: the unique index on certificate emails is left out. Lookups take the first match.
- Date display: `Date` values are printed into the documents through a display function passed as a parameter.
- Task schema: validation of the nested task-plan documents is left out. Only the required `mainTitle` is checked. The stored task carries no `overview` path (Backend/models/task.models.js:56-59) and no `createdAt`/`updatedAt` timestamps (line 66), so `getAllTasks` and the department lookup answer with fewer fields than the source's documents have.
- Letterhead.CompanyDetails: the generators' style configuration and page geometry are left out.
- UserController.RequestReset: models the reset flow's intended lifecycle, in which the token and its expiry are stored; the schema as written stores neither (see "## Findings"). The query side of undeclared paths is taken as filtering on them, which is what the store does when `strictQuery` is off.
- UserController.AddUser: fields of the registration form beyond the schema's are dropped, rather than spread into the user.
- Errors.NotIterable: the message text is the engine's own and is not promised; only the error's name and its lack of a status code matter to the reply.
- SubmissionController.CreateSubmission: the controller imports a named `ErrorResponse` (Backend/controllers/submission.controller.js:3), but Backend/utils/errorResponse.js has only a default export, `CustomError`. As written, the module fails to link and no submission route loads. The model treats the errors it throws as that CustomError.
- TaskController.Overlay: `{...plan}` spreads a hydrated subdocument, which copies its internal properties rather than its fields. The model reads it as spreading the plan's stored fields, which are what the cast keeps.
- TaskController.CastPlan: the nested `taskList` and `attributes` subdocuments are not cast, values are not type-cast or checked against the required `weekNumber` and `weekTitle`, and a plan without an `_id` is not given a fresh one.
- TaskController.GetOneWeek: numbers are exact decimals, not 64-bit doubles. A numeral too long for a double, such as `2.0000000000000001`, which rounds to 2, reads here as a non-integer. A query field given twice, which arrives as an array, is not modelled.

## Findings

| source | as written | input that shows it | evidently intended | confidence | as-written member | corrected member |
|---|---|---|---|---|---|---|
| client/src/pages/InternPanel.jsx:211-213 | every selected file is appended to the form under the field `files`, but the server allows at most one file in `files` (Backend/routes/submission.routes.js:41) | a selection of one PDF and one PNG, both accepted by the panel's own validation | PDFs go under `files` and images under `images`, so that every selection the panel accepts is admitted | not executed | InternPanel.TwoFilesAreRefused | InternPanel.RoutedSelectionIsAdmitted |
| Backend/models/offerLetter.models.js:3-76 | the offer-letter schema declares no `status` path, so a saved letter never has status "active" and `isValid` / `canBeModified` (lines 83-88, 119-121) are always false; the certificate controller is modelled with the schema as declared | any offer letter saved before its end date and read back | a `status` path like the certificate schema's, with enum active/expired/revoked and default "active" | not executed | OfferLetterModel.OfferLetterNeverValid | OfferLetterModel.CorrectedOfferLetterIsValid |
| Backend/controllers/user.controllers.js:160-163 | the reset request sets `resetToken` and `resetTokenExpiry` and saves the user, but the user schema (Backend/models/user.models.js:3-15) declares neither path, so the strict schema drops both on save; the reset handler then looks up a user by those paths (lines 219-223) and finds none | any reset request followed by its mailed link, with a token that verifies, taking undeclared query paths as kept in the filter | `resetToken` and `resetTokenExpiry` declared on the user schema, so that a fresh link resets the password within the hour | not executed | UserController.ResetLinkNeverRedeems | UserController.TokenExpiresAfterAnHour |

=== FILE: certificate_controller.dfy ===
/**
 * Issuing and downloading offer letters and completion certificates
 * (controllers/certificate.controller.js). Each collection is a sequence of
 * documents, at most one per email; lookups go through the email setters, so
 * the key is the lowercased, trimmed address. Rendering the PDF is a
 * parameter: it either yields the bytes or fails with a message.
 */
module CertificateController {
  import opened Wrappers
  import opened Errors
  import Text
  import opened CertificateSchema
  import IccModel
  import OfferLetterModel
  import InternPanel

  type Store = seq<Document>

  datatype Rendering = Rendered(pdf: seq<bv8>) | RenderFailed(message: string)

  function FindFrom(store: Store, key: string, from: nat): (r: Option<nat>)
    requires from <= |store|
    ensures r.Some? ==> from <= r.value < |store| && store[r.value].email == Some(key)
    ensures r.Some? ==> forall j :: from <= j < r.value ==> store[j].email != Some(key)
    ensures r.None? ==> forall j :: from <= j < |store| ==> store[j].email != Some(key)
    decreases |store| - from
  {
    if from == |store| then None
    else if store[from].email == Some(key) then Some(from)
    else FindFrom(store, key, from + 1)
  }

  /** `Model.findOne({ email })`: the first document with the normalized address. */
  function FindByEmail(store: Store, email: string): (r: Option<nat>)
    ensures r.Some? ==> r.value < |store| && store[r.value].email == Some(Normalize(email))
    ensures r.Some? ==> forall j :: 0 <= j < r.value ==> store[j].email != Some(Normalize(email))
    ensures r.None? <==> forall j :: 0 <= j < |store| ==> store[j].email != Some(Normalize(email))
  {
    FindFrom(store, Normalize(email), 0)
  }

  /** Replacing the found document by one with the same email leaves the lookup where it was. */
  lemma FindAfterReplace(store: Store, email: string, i: nat, d: Document)
    requires FindByEmail(store, email) == Some(i)
    requires d.email == store[i].email
    ensures FindByEmail(store[i := d], email) == Some(i)
  {
    var s := store[i := d];
    var key := Some(Normalize(email));
    assert s[i].email == key;
    assert forall j :: 0 <= j < i ==> s[j] == store[j];
  }

  /** A document appended for an address nobody has is the one found for it. */
  lemma FindAfterAppend(store: Store, email: string, d: Document)
    requires FindByEmail(store, email).None?
    requires d.email == Some(Normalize(email))
    ensures FindByEmail(store + [d], email) == Some(|store|)
  {
    var s := store + [d];
    var key := Normalize(email);
    assert s[|store|].email == Some(key);
    var r := FindByEmail(s, email);
    assert r.Some?;
    assert r.value == |store|;
  }

  /** The text `${name}` gives for a field that may be missing. */
  function NameText(name: Option<string>): string {
    if name.Some? then name.value else "undefined"
  }

  // ---------------------------------------------------------------------
  // GenerateOfferLetter

  /** The fields the user controller passes when it registers an intern. */
  datatype OfferRequest = OfferRequest(
    name: Option<string>,
    email: string,
    startDate: Option<int>,
    endDate: Option<int>,
    departmentName: Option<string>)

  /** The object `GenerateOfferLetter` resolves with; it never rejects. */
  datatype OfferReply = OfferReply(message: string, status: string, error: Option<string>)

  datatype OfferOutcome = OfferOutcome(store: Store, reply: OfferReply)

  const LetterExists := "Offer letter already exists"
  const LetterUpdated := "Offer letter updated successfully"
  const LetterGenerated := "Offer letter generated successfully"
  const LetterFailed := "Error generating offer letter"

  /** The offer-letter schema as declared: it has no `status` path, so no stored letter carries a status. */
  const Offers := OfferLetterModel.OfferLetter

  function Failed(store: Store, message: string): OfferOutcome {
    OfferOutcome(store, OfferReply(LetterFailed, "error", Some(message)))
  }

  /** A new offer letter: the request's fields, a three-month tenure and the rendered letter. */
  function OfferFields(p: OfferRequest, pdf: seq<bv8>): Document {
    Document(p.name, Some(p.email), p.departmentName, Some(3), p.startDate, p.endDate, Some(pdf), None)
  }

  /**
   * `GenerateOfferLetter`: render first; then, for the request's email,
   * keep a record that has its letter, attach the letter to a record without
   * one, or create a record. Every failure is reported, never thrown.
   */
  function GenerateOfferLetter(store: Store, p: OfferRequest, rendering: Rendering, emailOk: string -> bool, now: int): (o: OfferOutcome)
    ensures o.reply.status == "success" || o.reply.status == "error"
    ensures o.reply.status == "error" ==> o.store == store && o.reply.message == LetterFailed && o.reply.error.Some?
    ensures o.reply.status == "success" ==> o.reply.error.None?
    ensures rendering.RenderFailed? ==> o == Failed(store, rendering.message)
    ensures o.reply.message == LetterExists ==> o.store == store
  {
    match rendering
    case RenderFailed(message) => Failed(store, message)
    case Rendered(pdf) =>
      match FindByEmail(store, p.email)
      case Some(i) =>
        if store[i].pdfBuffer.Some? then OfferOutcome(store, OfferReply(LetterExists, "success", None))
        else (
          match Save(Offers, store[i].(pdfBuffer := Some(pdf)), emailOk, now)
          case Err(e) => Failed(store, e.message)
          case Ok(saved) => OfferOutcome(store[i := Persisted(Offers, saved)], OfferReply(LetterUpdated, "success", None)))
      case None =>
        match OfferLetterModel.Create(OfferFields(p, pdf), emailOk, now)
        case Err(e) => Failed(store, e.message)
        case Ok(saved) => OfferOutcome(store + [Persisted(Offers, saved)], OfferReply(LetterGenerated, "success", None))
  }

  /** A record that already holds its letter is kept as it is, whatever else the request says. */
  lemma ExistingLetterIsKept(store: Store, p: OfferRequest, pdf: seq<bv8>, emailOk: string -> bool, now: int, i: nat)
    requires FindByEmail(store, p.email) == Some(i)
    requires store[i].pdfBuffer.Some?
    ensures GenerateOfferLetter(store, p, Rendered(pdf), emailOk, now) == OfferOutcome(store, OfferReply(LetterExists, "success", None))
  {
  }

  /**
   * A record without a letter gets the letter and nothing else: the other
   * records stay, and the record read back is the old one with the buffer set
   * and no status, since the schema never writes one.
   */
  lemma MissingLetterIsAttached(store: Store, p: OfferRequest, pdf: seq<bv8>, emailOk: string -> bool, now: int, i: nat)
    requires FindByEmail(store, p.email) == Some(i)
    requires store[i].pdfBuffer.None?
    ensures var o := GenerateOfferLetter(store, p, Rendered(pdf), emailOk, now);
            && (o.reply.status == "success" <==> Acceptable(Offers, store[i].(pdfBuffer := Some(pdf)), emailOk))
            && (o.reply.status == "success" ==>
                  && o.reply.message == LetterUpdated
                  && |o.store| == |store|
                  && (forall j :: 0 <= j < |store| && j != i ==> o.store[j] == store[j])
                  && o.store[i].(status := store[i].status) == store[i].(pdfBuffer := Some(pdf))
                  && o.store[i].status.None?)
  {
    var d := store[i].(pdfBuffer := Some(pdf));
    var r := Save(Offers, d, emailOk, now);
    if r.Ok? {
      var q := Persisted(Offers, r.value);
      assert q.(status := r.value.status) == r.value;
      assert r.value.(status := d.status) == d;
      assert q.(status := d.status) == d;
      assert GenerateOfferLetter(store, p, Rendered(pdf), emailOk, now).store == store[i := q];
    }
  }

  /** An unknown email gets a new record built from the request, with tenure 3. */
  lemma UnknownEmailCreatesRecord(store: Store, p: OfferRequest, pdf: seq<bv8>, emailOk: string -> bool, now: int)
    requires FindByEmail(store, p.email).None?
    ensures var o := GenerateOfferLetter(store, p, Rendered(pdf), emailOk, now);
            && (o.reply.status == "success" <==> Acceptable(Offers, Build(Offers, OfferFields(p, pdf)), emailOk))
            && (o.reply.status == "success" ==>
                  && o.reply.message == LetterGenerated
                  && |o.store| == |store| + 1 && o.store[..|store|] == store
                  && o.store[|store|].email == Some(Normalize(p.email))
                  && o.store[|store|].tenure == Some(3)
                  && o.store[|store|].pdfBuffer == Some(pdf)
                  && o.store[|store|].startDate == p.startDate && o.store[|store|].endDate == p.endDate
                  && o.store[|store|].status.None?)
  {
    var o := GenerateOfferLetter(store, p, Rendered(pdf), emailOk, now);
    if o.reply.status == "success" {
      assert (store + [o.store[|store|]])[..|store|] == store;
    }
  }

  /** After a successful call the email's record holds a letter. */
  lemma SuccessLeavesLetter(store: Store, p: OfferRequest, rendering: Rendering, emailOk: string -> bool, now: int)
    requires GenerateOfferLetter(store, p, rendering, emailOk, now).reply.status == "success"
    ensures var s := GenerateOfferLetter(store, p, rendering, emailOk, now).store;
            FindByEmail(s, p.email).Some? && s[FindByEmail(s, p.email).value].pdfBuffer.Some?
  {
    var pdf := rendering.pdf;
    match FindByEmail(store, p.email)
    case Some(i) =>
      if store[i].pdfBuffer.None? {
        var saved := Save(Offers, store[i].(pdfBuffer := Some(pdf)), emailOk, now).value;
        FindAfterReplace(store, p.email, i, Persisted(Offers, saved));
      }
    case None =>
      var saved := OfferLetterModel.Create(OfferFields(p, pdf), emailOk, now).value;
      FindAfterAppend(store, p.email, Persisted(Offers, saved));
  }

  /**
   * Generating is idempotent per email: once a call has succeeded, any later
   * call for the same address leaves the store unchanged, and reports that
   * the letter exists whenever its rendering succeeds.
   */
  lemma {:induction false} GenerateIsIdempotent(store: Store, p: OfferRequest, rendering: Rendering, emailOk: string -> bool, now: int,
                                                 q: OfferRequest, again: Rendering, emailOk2: string -> bool, later: int)
    requires GenerateOfferLetter(store, p, rendering, emailOk, now).reply.status == "success"
    requires Normalize(q.email) == Normalize(p.email)
    ensures var s := GenerateOfferLetter(store, p, rendering, emailOk, now).store;
            var o := GenerateOfferLetter(s, q, again, emailOk2, later);
            && o.store == s
            && (again.Rendered? ==> o.reply == OfferReply(LetterExists, "success", None))
  {
    SuccessLeavesLetter(store, p, rendering, emailOk, now);
  }

  // ---------------------------------------------------------------------
  // GenerateICC

  /** The request body; `departmentName` comes from its `department` field. */
  datatype IccRequest = IccRequest(
    name: Option<string>,
    email: string,
    department: Option<string>,
    startDate: Option<int>,
    endDate: Option<int>,
    status: Option<string>)

  datatype Reply = Reply(status: int, message: Option<string>, error: Option<string>)

  datatype IccOutcome = IccOutcome(store: Store, reply: Reply)

  const IccIssued := "ICC letter generation successful"

  function AlreadyIssued(name: Option<string>, email: string): string {
    "ICC is already generated for this user: " + NameText(name) + " (" + email + ")"
  }

  /** The spread body with `departmentName` from `department`, tenure 3 and the rendered certificate. */
  function IccFields(b: IccRequest, pdf: seq<bv8>): Document {
    Document(b.name, Some(b.email), b.department, Some(3), b.startDate, b.endDate, Some(pdf), b.status)
  }

  function ServerError(store: Store, message: string): IccOutcome {
    IccOutcome(store, Reply(500, None, Some(message)))
  }

  /** `GenerateICC`: the same three-way rule, answered with 200 or, on any failure, 500. */
  function GenerateIcc(store: Store, b: IccRequest, rendering: Rendering, emailOk: string -> bool, now: int): (o: IccOutcome)
    ensures o.reply.status == 200 || o.reply.status == 500
    ensures o.reply.status == 500 ==> o.store == store && o.reply.error.Some? && o.reply.message.None?
    ensures rendering.RenderFailed? ==> o == ServerError(store, rendering.message)
    ensures o.reply.message == Some(AlreadyIssued(b.name, b.email)) ==> o.store == store
  {
    match rendering
    case RenderFailed(message) => ServerError(store, message)
    case Rendered(pdf) =>
      match FindByEmail(store, b.email)
      case Some(i) =>
        if store[i].pdfBuffer.Some? then IccOutcome(store, Reply(200, Some(AlreadyIssued(b.name, b.email)), None))
        else (
          match Save(IccModel.Icc, store[i].(pdfBuffer := Some(pdf)), emailOk, now)
          case Err(e) => ServerError(store, e.message)
          case Ok(saved) => IccOutcome(store[i := saved], Reply(200, Some(IccIssued), None)))
      case None =>
        match IccModel.Create(IccFields(b, pdf), emailOk, now)
        case Err(e) => ServerError(store, e.message)
        case Ok(saved) => IccOutcome(store + [saved], Reply(200, Some(IccIssued), None))
  }

  /** A new certificate takes its department from `department`; without it the save fails as required. */
  lemma IccDepartmentFromBody(store: Store, b: IccRequest, pdf: seq<bv8>, emailOk: string -> bool, now: int)
    requires FindByEmail(store, b.email).None?
    ensures var o := GenerateIcc(store, b, Rendered(pdf), emailOk, now);
            && (b.department.None? ==> o.reply.status == 500 && o.store == store)
            && (o.reply.status == 200 ==>
                  && |o.store| == |store| + 1
                  && o.store[|store|].departmentName == Some(Normalize(b.department.value))
                  && o.store[|store|].tenure == Some(3)
                  && o.store[|store|].pdfBuffer == Some(pdf))
  {
  }

  /** Issuing a certificate twice for one email changes nothing the second time. */
  lemma {:induction false} IccIsIdempotent(store: Store, b: IccRequest, rendering: Rendering, emailOk: string -> bool, now: int,
                                            c: IccRequest, again: Rendering, emailOk2: string -> bool, later: int)
    requires GenerateIcc(store, b, rendering, emailOk, now).reply.status == 200
    requires Normalize(c.email) == Normalize(b.email)
    ensures var s := GenerateIcc(store, b, rendering, emailOk, now).store;
            var o := GenerateIcc(s, c, again, emailOk2, later);
            && o.store == s
            && (again.Rendered? ==> o.reply == Reply(200, Some(AlreadyIssued(c.name, c.email)), None))
  {
    var pdf := rendering.pdf;
    match FindByEmail(store, b.email)
    case Some(i) =>
      if store[i].pdfBuffer.None? {
        var saved := Save(IccModel.Icc, store[i].(pdfBuffer := Some(pdf)), emailOk, now).value;
        FindAfterReplace(store, b.email, i, saved);
      }
    case None =>
      var saved := IccModel.Create(IccFields(b, pdf), emailOk, now).value;
      FindAfterAppend(store, b.email, saved);
  }

  // ---------------------------------------------------------------------
  // Downloads

  datatype Download = Download(status: int, contentDisposition: Option<string>, body: Option<seq<bv8>>, error: Option<string>)

  const OfferSuffix := "_Offer_Letter.pdf"
  const IccSuffix := "_Internship_Completion_Certificate.pdf"

  /** The characters `setHeader` accepts in a header value: tab, printable ASCII and the range 0x80-0xFF. */
  predicate HeaderSafe(s: string) {
    forall k :: 0 <= k < |s| ==> s[k] == '\t' || ' ' <= s[k] <= '~' || '\U{0080}' <= s[k] <= '\U{00FF}'
  }

  /** The message of the error `setHeader` throws for any other character. */
  const InvalidDisposition := "Invalid character in header content [\"Content-Disposition\"]"

  /** The fixed parts of the header are safe, so the header is safe exactly when the name is. */
  lemma HeaderSafeIffName(name: string, suffix: string)
    requires HeaderSafe(suffix)
    ensures HeaderSafe(InternPanel.AttachmentHeader(name + suffix)) <==> HeaderSafe(name)
  {
    var prefix := "attachment; filename=";
    var h := InternPanel.AttachmentHeader(name + suffix);
    assert h == prefix + name + suffix;
    if HeaderSafe(h) {
      forall k | 0 <= k < |name| ensures name[k] == '\t' || ' ' <= name[k] <= '~' || '\U{0080}' <= name[k] <= '\U{00FF}' {
        assert name[k] == h[|prefix| + k];
      }
    }
    if HeaderSafe(name) {
      forall k | 0 <= k < |h| ensures h[k] == '\t' || ' ' <= h[k] <= '~' || '\U{0080}' <= h[k] <= '\U{00FF}' {
        if k < |prefix| {
          assert h[k] == prefix[k];
        } else if k < |prefix| + |name| {
          assert h[k] == name[k - |prefix|];
        } else {
          assert h[k] == suffix[k - |prefix| - |name|];
        }
      }
    }
  }

  /** A Latin-1 accent passes the check, a letter beyond Latin-1 or a line break does not. */
  lemma HeaderSafeExamples()
    ensures HeaderSafe("Jos\U{00E9}")
    ensures !HeaderSafe("\U{0110}or\U{0111}e")
    ensures !HeaderSafe("Ann\nLee")
  {
    assert "\U{0110}or\U{0111}e"[0] == '\U{0110}';
    assert "Ann\nLee"[3] == '\n';
  }

  /**
   * The shared body of the two downloads: 404 without a record or without a
   * PDF; a 500 carrying the thrown message when the name cannot go into the
   * `Content-Disposition` header; otherwise the PDF as an attachment.
   */
  function Serve(store: Store, email: string, suffix: string, notFound: string): (r: Download)
    requires HeaderSafe(suffix)
    ensures r.status == 200 || r.status == 404 || r.status == 500
    ensures r.status == 404 <==> FindByEmail(store, email).None? || store[FindByEmail(store, email).value].pdfBuffer.None?
    ensures r.status == 404 ==> r == Download(404, None, None, Some(notFound))
    ensures r.status == 500 <==>
      && FindByEmail(store, email).Some? && store[FindByEmail(store, email).value].pdfBuffer.Some?
      && !HeaderSafe(NameText(store[FindByEmail(store, email).value].name))
    ensures r.status == 500 ==> r == Download(500, None, None, Some(InvalidDisposition))
    ensures r.status == 200 ==>
      var d := store[FindByEmail(store, email).value];
      && r.body == d.pdfBuffer
      && r.contentDisposition == Some(InternPanel.AttachmentHeader(NameText(d.name) + suffix))
  {
    match FindByEmail(store, email)
    case None => Download(404, None, None, Some(notFound))
    case Some(i) =>
      var header := InternPanel.AttachmentHeader(NameText(store[i].name) + suffix);
      HeaderSafeIffName(NameText(store[i].name), suffix);
      if store[i].pdfBuffer.None? then Download(404, None, None, Some(notFound))
      else if !HeaderSafe(header) then Download(500, None, None, Some(InvalidDisposition))
      else Download(200, Some(header), store[i].pdfBuffer, None)
  }

  /** `downloadOfferLetter`: 404 "Offer letter not found", a 500 for a name no header can carry, or the letter named `{name}_Offer_Letter.pdf`. */
  function DownloadOfferLetter(store: Store, email: string): (r: Download)
    ensures r.status == 404 <==> FindByEmail(store, email).None? || store[FindByEmail(store, email).value].pdfBuffer.None?
    ensures r.status == 404 ==> r.error == Some("Offer letter not found") && r.body.None?
    ensures r.status == 500 <==>
      && FindByEmail(store, email).Some? && store[FindByEmail(store, email).value].pdfBuffer.Some?
      && !HeaderSafe(NameText(store[FindByEmail(store, email).value].name))
    ensures r.status == 500 ==> r.error == Some(InvalidDisposition) && r.body.None?
    ensures r.status == 200 ==>
      && r.body.Some?
      && r.contentDisposition == Some(InternPanel.AttachmentHeader(NameText(store[FindByEmail(store, email).value].name) + OfferSuffix))
  {
    Serve(store, email, OfferSuffix, "Offer letter not found")
  }

  /** `downloadICC`: 404 "ICC not found", a 500 for a name no header can carry, or the certificate named `{name}_Internship_Completion_Certificate.pdf`. */
  function DownloadIcc(store: Store, email: string): (r: Download)
    ensures r.status == 404 <==> FindByEmail(store, email).None? || store[FindByEmail(store, email).value].pdfBuffer.None?
    ensures r.status == 404 ==> r.error == Some("ICC not found") && r.body.None?
    ensures r.status == 500 <==>
      && FindByEmail(store, email).Some? && store[FindByEmail(store, email).value].pdfBuffer.Some?
      && !HeaderSafe(NameText(store[FindByEmail(store, email).value].name))
    ensures r.status == 500 ==> r.error == Some(InvalidDisposition) && r.body.None?
    ensures r.status == 200 ==>
      && r.body.Some?
      && r.contentDisposition == Some(InternPanel.AttachmentHeader(NameText(store[FindByEmail(store, email).value].name) + IccSuffix))
  {
    Serve(store, email, IccSuffix, "ICC not found")
  }

  /**
   * A letter that was generated can be downloaded, under any spelling of the
   * same address: it is found with its PDF, and it is served exactly when the
   * stored name can go into the header, and answers 500 otherwise.
   */
  lemma GeneratedLetterDownloads(store: Store, p: OfferRequest, rendering: Rendering, emailOk: string -> bool, now: int, query: string)
    requires GenerateOfferLetter(store, p, rendering, emailOk, now).reply.status == "success"
    requires Normalize(query) == Normalize(p.email)
    ensures var s := GenerateOfferLetter(store, p, rendering, emailOk, now).store;
            FindByEmail(s, query).Some? && s[FindByEmail(s, query).value].pdfBuffer.Some?
    ensures var s := GenerateOfferLetter(store, p, rendering, emailOk, now).store;
            var r := DownloadOfferLetter(s, query);
            && (r.status == 200 || r.status == 500)
            && (r.status == 200 <==> HeaderSafe(NameText(s[FindByEmail(s, query).value].name)))
  {
    SuccessLeavesLetter(store, p, rendering, emailOk, now);
  }

  /**
   * Backend/index.js:41-46 enables CORS for the panel's origin without
   * `exposedHeaders`, so a script on that origin cannot read the
   * Content-Disposition of a response from the API's origin.
   */
  const DeployedExposesDisposition := false

  /**
   * The header the panel's script sees: a cross-origin response shows
   * Content-Disposition only when the server exposes it (or both are served
   * from one origin).
   */
  function VisibleDisposition(d: Download, exposed: bool): (r: Option<string>)
    ensures exposed ==> r == d.contentDisposition
    ensures !exposed ==> r.None?
  {
    if exposed then d.contentDisposition else None
  }

  /**
   * The intern panel saves a downloaded letter under the server's name when it
   * can see the header and the intern's name has no quote and no `filename=`
   * in it; when the header is hidden it uses its own fallback name.
   */
  lemma ClientKeepsServerFilename(store: Store, email: string, fallback: string, exposed: bool)
    requires DownloadOfferLetter(store, email).status == 200
    requires var n := NameText(store[FindByEmail(store, email).value].name);
             && (forall k :: 0 <= k < |n| ==> n[k] != '"')
             && !Text.Contains(n + OfferSuffix, InternPanel.FilenameKey)
    ensures InternPanel.DownloadName(VisibleDisposition(DownloadOfferLetter(store, email), exposed), fallback)
            == if exposed then NameText(store[FindByEmail(store, email).value].name) + OfferSuffix else fallback
  {
    var n := NameText(store[FindByEmail(store, email).value].name);
    var f := n + OfferSuffix;
    assert forall k :: 0 <= k < |f| ==> f[k] != '"' by {
      forall k | 0 <= k < |f| ensures f[k] != '"' {
        if k >= |n| { assert f[k] == OfferSuffix[k - |n|]; }
      }
    }
    InternPanel.DownloadNameReadsAttachment(f, fallback);
  }

  /** With the CORS configuration as deployed, every download is saved under the panel's fallback name. */
  lemma DeployedPanelUsesFallback(store: Store, email: string, fallback: string)
    ensures InternPanel.DownloadName(VisibleDisposition(DownloadOfferLetter(store, email), DeployedExposesDisposition), fallback)
            == fallback
  {
  }
}

=== FILE: certificate_schema.dfy ===
/**
 * The rules the two certificate schemas share (models/icc.models.js and
 * models/offerLetter.models.js): the setters applied when a document is
 * built, the validators run in path order before a save, the pre-save hook
 * that checks the date range and marks an ended internship as expired, and
 * the `isValid` and `canBeModified` predicates. Dates are instants in
 * milliseconds; `now` is a parameter.
 */
module CertificateSchema {
  import opened Wrappers
  import opened Errors
  import Text

  /**
   * The two schemas differ in their model name and in whether they declare a
   * `status` path: an undeclared path is neither validated nor persisted.
   */
  datatype Schema = Schema(modelName: string, hasStatus: bool)

  /** A certificate document; every path may be absent until validation says otherwise. */
  datatype Document = Document(
    name: Option<string>,
    email: Option<string>,
    departmentName: Option<string>,
    tenure: Option<int>,
    startDate: Option<int>,
    endDate: Option<int>,
    pdfBuffer: Option<seq<bv8>>,
    status: Option<string>)

  const StatusValues: set<string> := {"active", "expired", "revoked"}

  const NameRequired := "Name is required"
  const NameTooShort := "Name must be at least 2 characters long"
  const NameTooLong := "Name cannot exceed 50 characters"
  const EmailRequired := "Email is required"
  const DepartmentRequired := "Department is required"
  const DepartmentTooShort := "Department must be at least 2 characters long"
  const DepartmentTooLong := "Department cannot exceed 50 characters"
  const TenureRequired := "Tenure is required"
  const StartRequired := "Start date is required"
  const EndRequired := "End date is required"
  const EndBeforeStart := "End date must be after start date!"
  const PdfRequired := "PDF buffer is required"
  /** The message of the pre-save hook's own date check. */
  const RangeError := "End date must be after start date"

  function InvalidEmail(email: string): string {
    email + " is not a valid email address!"
  }

  function InvalidStatus(status: string): string {
    "`" + status + "` is not a valid enum value for path `status`."
  }

  /** The `lowercase` and `trim` setters together. */
  function Normalize(s: string): string {
    Text.Trim(Text.Lower(s))
  }

  function MapOption(o: Option<string>, f: string -> string): (r: Option<string>)
    ensures r.Some? <==> o.Some?
    ensures r.Some? ==> r.value == f(o.value)
  {
    match o
    case None => None
    case Some(v) => Some(f(v))
  }

  /**
   * `new Model(fields)`: `name` is trimmed, `email` and `departmentName` are
   * lowercased and trimmed, and a declared `status` defaults to "active";
   * an undeclared `status` is dropped.
   */
  function Build(schema: Schema, fields: Document): (d: Document)
    ensures d.tenure == fields.tenure && d.pdfBuffer == fields.pdfBuffer
    ensures d.startDate == fields.startDate && d.endDate == fields.endDate
    ensures d.name.Some? <==> fields.name.Some?
    ensures d.name.Some? ==> d.name.value == Text.Trim(fields.name.value)
    ensures d.email.Some? <==> fields.email.Some?
    ensures d.email.Some? ==> d.email.value == Normalize(fields.email.value)
    ensures d.departmentName.Some? <==> fields.departmentName.Some?
    ensures d.departmentName.Some? ==> d.departmentName.value == Normalize(fields.departmentName.value)
    ensures !schema.hasStatus ==> d.status.None?
    ensures schema.hasStatus ==> d.status == Some(fields.status.GetOr("active"))
  {
    fields.(
      name := MapOption(fields.name, Text.Trim),
      email := MapOption(fields.email, Normalize),
      departmentName := MapOption(fields.departmentName, Normalize),
      status := if schema.hasStatus then Some(fields.status.GetOr("active")) else None)
  }

  // ---------------------------------------------------------------------
  // Validation: the first failing validator of each path, in path order

  function AsSeq(o: Option<PathError>): seq<PathError> {
    if o.Some? then [o.value] else []
  }

  /** A trimmed string path with `required`, `minLength: 2` and `maxLength: 50`. */
  function LengthCheck(path: string, v: Option<string>, required: string, short: string, long: string): (r: Option<PathError>)
    ensures r.None? <==> v.Some? && 2 <= |v.value| <= 50
    ensures r.Some? ==> r.value.path == path
    ensures r.Some? && (v.None? || v.value == "") ==> r.value.message == required
  {
    if v.None? || v.value == "" then Some(PathError(path, required))
    else if |v.value| < 2 then Some(PathError(path, short))
    else if |v.value| > 50 then Some(PathError(path, long))
    else None
  }

  function EmailCheck(v: Option<string>, emailOk: string -> bool): (r: Option<PathError>)
    ensures r.None? <==> v.Some? && v.value != "" && emailOk(v.value)
  {
    if v.None? || v.value == "" then Some(PathError("email", EmailRequired))
    else if !emailOk(v.value) then Some(PathError("email", InvalidEmail(v.value)))
    else None
  }

  /** `endDate`'s validator compares with `startDate`; a missing start date compares false. */
  function EndCheck(start: Option<int>, end: Option<int>): (r: Option<PathError>)
    ensures r.None? <==> end.Some? && start.Some? && start.value < end.value
  {
    if end.None? then Some(PathError("endDate", EndRequired))
    else if start.None? || end.value <= start.value then Some(PathError("endDate", EndBeforeStart))
    else None
  }

  /** A `Buffer` path is missing when absent or empty. */
  function PdfCheck(v: Option<seq<bv8>>): (r: Option<PathError>)
    ensures r.None? <==> v.Some? && |v.value| > 0
  {
    if v.None? || |v.value| == 0 then Some(PathError("pdfBuffer", PdfRequired)) else None
  }

  /** The enum validator passes an absent value. */
  function StatusCheck(schema: Schema, v: Option<string>): (r: Option<PathError>)
    ensures r.None? <==> !schema.hasStatus || v.None? || v.value in StatusValues
  {
    if schema.hasStatus && v.Some? && v.value !in StatusValues then Some(PathError("status", InvalidStatus(v.value)))
    else None
  }

  function Checks(schema: Schema, d: Document, emailOk: string -> bool): seq<Option<PathError>> {
    [ LengthCheck("name", d.name, NameRequired, NameTooShort, NameTooLong),
      EmailCheck(d.email, emailOk),
      LengthCheck("departmentName", d.departmentName, DepartmentRequired, DepartmentTooShort, DepartmentTooLong),
      if d.tenure.None? then Some(PathError("tenure", TenureRequired)) else None,
      if d.startDate.None? then Some(PathError("startDate", StartRequired)) else None,
      EndCheck(d.startDate, d.endDate),
      PdfCheck(d.pdfBuffer),
      StatusCheck(schema, d.status) ]
  }

  function Collect(checks: seq<Option<PathError>>): (r: seq<PathError>)
    ensures r == [] <==> forall i :: 0 <= i < |checks| ==> checks[i].None?
    ensures |r| <= |checks|
  {
    if |checks| == 0 then [] else AsSeq(checks[0]) + Collect(checks[1..])
  }

  /** What a document must satisfy to be saved, stated path by path. */
  predicate Acceptable(schema: Schema, d: Document, emailOk: string -> bool) {
    && d.name.Some? && 2 <= |d.name.value| <= 50
    && d.email.Some? && d.email.value != "" && emailOk(d.email.value)
    && d.departmentName.Some? && 2 <= |d.departmentName.value| <= 50
    && d.tenure.Some?
    && d.startDate.Some? && d.endDate.Some? && d.startDate.value < d.endDate.value
    && d.pdfBuffer.Some? && |d.pdfBuffer.value| > 0
    && (schema.hasStatus && d.status.Some? ==> d.status.value in StatusValues)
  }

  /** The validation failures of a document, at most one per path. */
  function Failures(schema: Schema, d: Document, emailOk: string -> bool): (r: seq<PathError>)
    ensures r == [] <==> Acceptable(schema, d, emailOk)
    ensures |r| <= 8
  {
    var checks := Checks(schema, d, emailOk);
    assert checks[0].None? && checks[1].None? && checks[2].None? && checks[3].None?
      && checks[4].None? && checks[5].None? && checks[6].None? && checks[7].None?
      <==> Acceptable(schema, d, emailOk);
    Collect(checks)
  }

  // ---------------------------------------------------------------------
  // Saving and the instance predicates

  /**
   * `doc.save()`: validation first, then the pre-save hook, which rejects an
   * end date not after the start date and marks the document expired once
   * `now` is past the end date.
   */
  function Save(schema: Schema, d: Document, emailOk: string -> bool, now: int): (r: Result<Document>)
    ensures r.Ok? <==> Acceptable(schema, d, emailOk)
    ensures r.Err? ==> r.error == ValidationError(schema.modelName, Failures(schema, d, emailOk))
    ensures r.Ok? ==> r.value.(status := d.status) == d
    ensures r.Ok? ==> r.value.name == d.name && r.value.email == d.email && r.value.departmentName == d.departmentName
    ensures r.Ok? ==> r.value.tenure == d.tenure && r.value.pdfBuffer == d.pdfBuffer
    ensures r.Ok? ==> r.value.startDate == d.startDate && r.value.endDate == d.endDate
    ensures r.Ok? ==> r.value.startDate.Some? && r.value.endDate.Some? && r.value.startDate.value < r.value.endDate.value
    ensures r.Ok? && now > d.endDate.value ==> r.value.status == Some("expired")
    ensures r.Ok? && now <= d.endDate.value ==> r.value.status == d.status
  {
    var failures := Failures(schema, d, emailOk);
    if failures != [] then Err(ValidationError(schema.modelName, failures))
    else if d.endDate.value <= d.startDate.value then Err(PlainError(RangeError))
    else if now > d.endDate.value then Ok(d.(status := Some("expired")))
    else Ok(d)
  }

  /** What a later `findOne` reads back: an undeclared `status` was never written. */
  function Persisted(schema: Schema, d: Document): (r: Document)
    ensures r.(status := d.status) == d
    ensures schema.hasStatus ==> r == d
    ensures !schema.hasStatus ==> r.status.None?
  {
    if schema.hasStatus then d else d.(status := None)
  }

  /** The `isValid` virtual: active, and `now` within the internship. */
  predicate IsValid(d: Document, now: int): (r: bool)
    ensures r ==> d.startDate.Some? && d.endDate.Some? && d.startDate.value <= d.endDate.value
  {
    d.status == Some("active") && d.startDate.Some? && d.endDate.Some?
    && d.startDate.value <= now <= d.endDate.value
  }

  /** `canBeModified`: active, and the internship not yet started. */
  predicate CanBeModified(d: Document, now: int): (r: bool)
    ensures r ==> !IsValid(d, now)
    ensures r ==> d.startDate.Some? && (d.endDate.Some? && d.startDate.value <= d.endDate.value ==> IsValid(d, d.startDate.value))
  {
    d.status == Some("active") && d.startDate.Some? && now < d.startDate.value
  }

  /** A document that is valid now cannot be modified now, and one that can be modified is not yet valid. */
  lemma ValidExcludesModifiable(d: Document, now: int)
    ensures !(IsValid(d, now) && CanBeModified(d, now))
  {
  }

  /** A document saved after its end date is expired: never valid and never modifiable again. */
  lemma SavedAfterEndIsExpired(schema: Schema, d: Document, emailOk: string -> bool, now: int, later: int)
    requires Save(schema, d, emailOk, now).Ok?
    requires now > d.endDate.value
    ensures Save(schema, d, emailOk, now).value.status == Some("expired")
    ensures !IsValid(Save(schema, d, emailOk, now).value, later)
    ensures !CanBeModified(Save(schema, d, emailOk, now).value, later)
  {
  }

  /** Validation already rejects every date range the pre-save hook would, so its error is never raised. */
  lemma RangeErrorUnreachable(schema: Schema, d: Document, emailOk: string -> bool, now: int)
    ensures Save(schema, d, emailOk, now) != Err(PlainError(RangeError))
  {
  }

  /** A document without a name reports the name first, as required. */
  lemma MissingNameReportedFirst(schema: Schema, d: Document, emailOk: string -> bool, now: int)
    requires d.name.None?
    ensures Save(schema, d, emailOk, now).Err?
    ensures Save(schema, d, emailOk, now).error.errors[0] == PathError("name", NameRequired)
  {
    var checks := Checks(schema, d, emailOk);
    assert Collect(checks) == AsSeq(checks[0]) + Collect(checks[1..]);
  }
}

=== FILE: error_handler.dfy ===
/**
 * The global error middleware (controllers/globarErrorHandler.controller.js):
 * turns any error that reached `next(err)` into a JSON response.
 */
module ErrorHandler {
  import opened Wrappers
  import opened Errors
  import Text

  /** `res.status(status).json({success, message, stack})`; `stack: None` is an omitted field. */
  datatype Response = Response(status: int, success: bool, message: string, stack: Option<string>)

  /** `error.statusCode || 500`. */
  function StatusOrDefault(e: ErrorValue): (s: int)
    ensures e.statusCode.Some? && e.statusCode.value != 0 ==> s == e.statusCode.value
    ensures e.statusCode.None? || e.statusCode.value == 0 ==> s == 500
  {
    if e.statusCode.Some? && e.statusCode.value != 0 then e.statusCode.value else 500
  }

  /** `error.message || 'Server Error'`. */
  function MessageOrDefault(e: ErrorValue): (m: string)
    ensures e.message != "" ==> m == e.message
    ensures e.message == "" ==> m == "Server Error"
  {
    if e.message != "" then e.message else "Server Error"
  }

  /**
   * The text a ValidationError is reported with. The handler passes the array
   * of sub-error messages to `new CustomError(array, 400)`, and the base
   * `Error` constructor turns the array into its comma-joined string.
   */
  function ValidationText(err: ErrorValue): string {
    Text.Join(Messages(err.errors), ",")
  }

  /**
   * `globalErrorHandler(err)`. The three recognisers run in order, each
   * replacing the error when it matches, so the last match wins. `stack` is the
   * error's trace, supplied by the runtime; it is reported only in development.
   */
  function GlobalErrorHandler(err: ErrorValue, development: bool, stack: string): (r: Response)
    ensures !r.success
    ensures r.stack.Some? <==> development
    ensures development ==> r.stack == Some(stack)
    ensures r.status != 0 && r.message != ""
    ensures err.name == "ValidationError" ==>
      r.status == 400 && r.message == (if ValidationText(err) != "" then ValidationText(err) else "Server Error")
    ensures err.name != "ValidationError" && err.code == Some(11000) ==>
      r.status == 400 && r.message == "Duplicate field value entered"
    ensures err.name == "CastError" && err.code != Some(11000) ==>
      r.status == 404 && r.message == "Resource not found"
    ensures err.name != "CastError" && err.name != "ValidationError" && err.code != Some(11000) ==>
      r.status == StatusOrDefault(err) && r.message == MessageOrDefault(err)
  {
    var afterCast := if err.name == "CastError" then CustomError("Resource not found", 404) else err;
    var afterDuplicate := if err.code == Some(11000) then CustomError("Duplicate field value entered", 400) else afterCast;
    var selected := if err.name == "ValidationError" then CustomError(ValidationText(err), 400) else afterDuplicate;
    Response(StatusOrDefault(selected), false, MessageOrDefault(selected), if development then Some(stack) else None)
  }

  /** A `CustomError` thrown by a controller reaches the client with its own status and message. */
  lemma CustomErrorPassesThrough(message: string, statusCode: int, development: bool, stack: string)
    requires message != "" && statusCode != 0
    ensures GlobalErrorHandler(CustomError(message, statusCode), development, stack).status == statusCode
    ensures GlobalErrorHandler(CustomError(message, statusCode), development, stack).message == message
  {
  }

  /** A validation error with no sub-errors falls back to 'Server Error', still with status 400. */
  lemma EmptyValidationFallsBack(model: string, development: bool, stack: string)
    ensures GlobalErrorHandler(ValidationError(model, []), development, stack) ==
      Response(400, false, "Server Error", if development then Some(stack) else None)
  {
  }

  /** The sub-error messages of one failure reach the client unchanged. */
  lemma SingleValidationMessage(model: string, failure: PathError, development: bool, stack: string)
    requires failure.message != ""
    ensures GlobalErrorHandler(ValidationError(model, [failure]), development, stack).message == failure.message
  {
  }
}

=== FILE: errors.dfy ===
/**
 * Thrown errors. `CustomError` (utils/errorResponse.js) is an `Error` with a
 * status code and optional details; the document store raises `CastError`,
 * duplicate-key (code 11000) and `ValidationError` errors, which the global
 * handler recognises by name and code.
 */
module Errors {
  import opened Wrappers
  import opened Js
  import Text

  /** One failed path of a schema validation. */
  datatype PathError = PathError(path: string, message: string)

  /** The observable parts of a thrown JavaScript error. */
  datatype ErrorValue = ErrorValue(
    name: string,              // `err.name`, inherited from the prototype
    message: string,           // `err.message`
    statusCode: Option<int>,   // own property set by CustomError
    code: Option<int>,         // driver error code, e.g. 11000
    details: Option<JsValue>,  // own property set by CustomError, when given
    errors: seq<PathError>)    // `err.errors` of a ValidationError, in path order

  /** Success with a value, or a thrown error. */
  datatype Result<+T> = Ok(value: T) | Err(error: ErrorValue)

  /**
   * `new CustomError(message, statusCode, details = null)`: the message goes to
   * the base `Error`, the status code is stored as given, and `details` is
   * attached only when it is truthy.
   */
  function CustomError(message: string, statusCode: int, details: JsValue := Null): (e: ErrorValue)
    ensures e.name == "Error" && e.message == message
    ensures e.statusCode == Some(statusCode)
    ensures e.details.Some? <==> Truthy(details)
    ensures e.details.Some? ==> e.details.value == details
    ensures e.code.None? && e.errors == []
  {
    ErrorValue("Error", message, Some(statusCode), None, if Truthy(details) then Some(details) else None, [])
  }

  /** `new Error(message)`. */
  function PlainError(message: string): ErrorValue {
    ErrorValue("Error", message, None, None, None, [])
  }

  /**
   * The `TypeError` the engine throws when a spread meets `undefined`; it has
   * no status code. The wording of the message is the engine's own.
   */
  function NotIterable(subject: string): (e: ErrorValue)
    ensures e.name == "TypeError" && e.statusCode.None? && e.code.None?
    ensures e.message != ""
  {
    ErrorValue("TypeError", subject + " is not iterable", None, None, None, [])
  }

  /** The document store's `ValidationError` for a model: "<Model> validation failed: p: m, ...". */
  function ValidationError(model: string, failures: seq<PathError>): (e: ErrorValue)
    ensures e.name == "ValidationError" && e.errors == failures
    ensures e.statusCode.None? && e.code.None?
  {
    ErrorValue("ValidationError", model + " validation failed: " + Text.Join(PathMessages(failures), ", "),
      None, None, None, failures)
  }

  /** "path: message" for each failure, in order. */
  function PathMessages(failures: seq<PathError>): (r: seq<string>)
    ensures |r| == |failures|
    ensures forall i :: 0 <= i < |r| ==> r[i] == failures[i].path + ": " + failures[i].message
  {
    seq(|failures|, i requires 0 <= i < |failures| => failures[i].path + ": " + failures[i].message)
  }

  /** The messages of the failures alone, in order: `Object.values(err.errors).map(v => v.message)`. */
  function Messages(failures: seq<PathError>): (r: seq<string>)
    ensures |r| == |failures|
    ensures forall i :: 0 <= i < |r| ==> r[i] == failures[i].message
  {
    seq(|failures|, i requires 0 <= i < |failures| => failures[i].message)
  }

  /** The lemma for the CustomError defaults: omitting `details` leaves no details field. */
  lemma CustomErrorDefaultHasNoDetails(message: string, statusCode: int)
    ensures CustomError(message, statusCode).details.None?
    ensures CustomError(message, statusCode, Str("")).details.None?
    ensures CustomError(message, statusCode, Obj(map[])).details == Some(Obj(map[]))
  {
  }
}

=== FILE: icc_generator.dfy ===
/**
 * The text of the internship completion certificate (utils/iccGenerator.js,
 * `_getCertificateContent`). The generator destructures the candidate's
 * name, department and dates without defaults, so a missing field prints as
 * `undefined`. Laying the text out as a PDF is not part of this model.
 */
module IccGenerator {
  import opened Js
  import Text
  import Letterhead

  datatype CertificateContent = CertificateContent(
    title: string,
    body: string,
    closingNote: string,
    footer: Letterhead.Footer)

  const Title := "Internship Completion Certificate"

  const Praise := "During this internship, they demonstrated exceptional dedication and professionalism, contributing significantly to the projects and learning opportunities offered. Their efforts and accomplishments have been an integral part of our organization's goals."

  const CertifyOpening := "This is to certify that "
  const CompletedIn := " has successfully completed their internship in the "
  const WishClosing := " for their future endeavors and look forward to witnessing their continued success."
  const IssuedBy := "Issued by "

  /** "{dept} department at {company}". */
  function DepartmentAt(dept: string, company: string): string {
    dept + " department at " + company
  }

  /** " from {start} to {end}.". */
  function Period(start: string, end: string): string {
    " from " + start + " to " + end + "."
  }

  /** The opening sentence, naming the intern, the department, the company and the period. */
  function Certifies(name: string, dept: string, company: string, start: string, end: string): string {
    CertifyOpening + name + CompletedIn + DepartmentAt(dept, company) + Period(start, end)
  }

  /**
   * The certifying sentence, the praise paragraph and the closing wish; the
   * blank line after the sentence keeps the template literal's six spaces of
   * indentation.
   */
  function Body(name: string, dept: string, company: string, start: string, end: string): string {
    Certifies(name, dept, company, start, end) + "\n      \n" + Praise + "\n\n"
    + Wish(name)
  }

  /** The closing wish, addressed to the intern by name. */
  function Wish(name: string): string {
    WishHead(name) + WishClosing
  }

  function WishHead(name: string): string {
    "We wish " + name + " all the best"
  }

  /** `_getCertificateContent` of a generator built with `overrides`. */
  function CertificateFor(overrides: Object, candidate: Object, showDate: int -> string): (r: CertificateContent)
    ensures r.title == Title
    ensures r.footer == Letterhead.FooterOf(Letterhead.CompanyDetails(overrides), showDate)
  {
    var company := Letterhead.CompanyDetails(overrides);
    var companyName := Letterhead.Field(company, "name", showDate);
    CertificateContent(
      Title,
      Body(Letterhead.Field(candidate, "name", showDate),
           Letterhead.Field(candidate, "departmentName", showDate),
           companyName,
           Letterhead.Field(candidate, "startDate", showDate),
           Letterhead.Field(candidate, "endDate", showDate)),
      IssuedBy + companyName,
      Letterhead.FooterOf(company, showDate))
  }

  lemma BodyShape(name: string, dept: string, company: string, start: string, end: string)
    ensures Text.StartsWith(Body(name, dept, company, start, end), Certifies(name, dept, company, start, end))
    ensures Text.Contains(Body(name, dept, company, start, end), WishHead(name))
  {
    var c := Certifies(name, dept, company, start, end);
    var mid := c + "\n      \n" + Praise + "\n\n";
    Text.StartsWithAppend(c, "\n      \n", c);
    Text.StartsWithAppend(c + "\n      \n", Praise, c);
    Text.StartsWithAppend(c + "\n      \n" + Praise, "\n\n", c);
    Text.StartsWithAppend(mid, Wish(name), c);
    Text.ContainsPrefix(WishHead(name), WishClosing);
    Text.ContainsExtend(mid, Wish(name), [], WishHead(name));
    assert mid + Wish(name) + [] == mid + Wish(name);
  }

  /**
   * The body opens with the certifying sentence for this intern and closes by
   * wishing the same intern well.
   */
  lemma BodyCertifiesTheIntern(overrides: Object, candidate: Object, showDate: int -> string)
    ensures var body := CertificateFor(overrides, candidate, showDate).body;
            var name := Letterhead.Field(candidate, "name", showDate);
            && Text.StartsWith(body, Certifies(name,
                 Letterhead.Field(candidate, "departmentName", showDate),
                 Letterhead.Field(Letterhead.CompanyDetails(overrides), "name", showDate),
                 Letterhead.Field(candidate, "startDate", showDate),
                 Letterhead.Field(candidate, "endDate", showDate)))
            && Text.Contains(body, WishHead(name))
  {
    BodyShape(Letterhead.Field(candidate, "name", showDate),
              Letterhead.Field(candidate, "departmentName", showDate),
              Letterhead.Field(Letterhead.CompanyDetails(overrides), "name", showDate),
              Letterhead.Field(candidate, "startDate", showDate),
              Letterhead.Field(candidate, "endDate", showDate));
  }

  /** The certifying sentence names the intern, the department, the company and both dates. */
  lemma CertifiesMentions(name: string, dept: string, company: string, start: string, end: string)
    ensures var c := Certifies(name, dept, company, start, end);
            && Text.Contains(c, name) && Text.Contains(c, DepartmentAt(dept, company))
            && Text.Contains(c, Period(start, end))
  {
    var a, b, d, e := CertifyOpening, CompletedIn, DepartmentAt(dept, company), Period(start, end);
    Text.ContainsMiddle(a, name, b);
    Text.ContainsAppend(a + name + b, d, name);
    Text.ContainsAppend(a + name + b + d, e, name);
    Text.ContainsMiddle(a + name + b, d, e);
    Text.ContainsSuffix(a + name + b + d, e);
  }

  /** The closing note is issued in the name of the company the generator was built for. */
  lemma ClosingNoteNamesCompany(overrides: Object, candidate: Object, showDate: int -> string)
    ensures var note := CertificateFor(overrides, candidate, showDate).closingNote;
            Text.StartsWith(note, IssuedBy)
            && note[|IssuedBy|..] == Letterhead.Field(Letterhead.CompanyDetails(overrides), "name", showDate)
  {
    var company := Letterhead.Field(Letterhead.CompanyDetails(overrides), "name", showDate);
    assert (IssuedBy + company)[|IssuedBy|..] == company;
  }

  /** A candidate record without a name is certified as `undefined`. */
  lemma MissingNamePrintsUndefined(overrides: Object, candidate: Object, showDate: int -> string)
    requires "name" !in candidate
    ensures Text.Contains(CertificateFor(overrides, candidate, showDate).body, WishHead("undefined"))
  {
    assert Letterhead.Field(candidate, "name", showDate) == "undefined";
    BodyCertifiesTheIntern(overrides, candidate, showDate);
  }
}

=== FILE: icc_model.dfy ===
/**
 * The completion-certificate schema (models/icc.models.js): the shared
 * certificate rules with a declared `status` path, whose values are
 * "active", "expired" and "revoked" and whose default is "active".
 */
module IccModel {
  import opened Wrappers
  import opened Errors
  import Text
  import opened CertificateSchema

  const Icc := Schema("Icc", true)

  /** `new iccModel(fields).save()`. */
  function Create(fields: Document, emailOk: string -> bool, now: int): (r: Result<Document>)
    ensures r.Ok? <==> Acceptable(Icc, Build(Icc, fields), emailOk)
    ensures r.Err? ==> r.error.name == "ValidationError" && r.error.errors != []
    ensures r.Ok? ==> r.value.status.Some? && r.value.status.value in StatusValues
    ensures r.Ok? ==> r.value.name == Some(Text.Trim(fields.name.value)) && 2 <= |r.value.name.value| <= 50
    ensures r.Ok? ==> r.value.departmentName == Some(Normalize(fields.departmentName.value))
    ensures r.Ok? ==> r.value.startDate.Some? && r.value.endDate.Some? && r.value.startDate.value < r.value.endDate.value
    ensures r.Ok? && now > fields.endDate.value ==> r.value.status == Some("expired")
    ensures r.Ok? && now <= fields.endDate.value ==> r.value.status == Some(fields.status.GetOr("active"))
  {
    Save(Icc, Build(Icc, fields), emailOk, now)
  }

  /**
   * A certificate created without a status during the internship is valid;
   * one created before the internship starts can still be modified.
   */
  lemma DefaultStatusIsActive(fields: Document, emailOk: string -> bool, now: int)
    requires fields.status.None?
    requires Create(fields, emailOk, now).Ok?
    ensures var c := Create(fields, emailOk, now).value;
            && (c.startDate.value <= now <= c.endDate.value ==> IsValid(c, now))
            && (now < c.startDate.value ==> CanBeModified(c, now))
  {
  }

  /** A revoked certificate is never valid and never modifiable. */
  lemma RevokedIsInert(fields: Document, emailOk: string -> bool, now: int, later: int)
    requires fields.status == Some("revoked")
    requires Create(fields, emailOk, now).Ok?
    ensures !IsValid(Create(fields, emailOk, now).value, later)
    ensures !CanBeModified(Create(fields, emailOk, now).value, later)
  {
  }

  /** A status outside the enumeration is refused. */
  lemma UnknownStatusRefused(fields: Document, emailOk: string -> bool, now: int)
    requires fields.status.Some? && fields.status.value !in StatusValues
    ensures Create(fields, emailOk, now).Err?
  {
  }
}

=== FILE: intern_panel.dfy ===
/**
 * The intern's submission panel (client/src/pages/InternPanel.jsx): the
 * client-side checks on the chosen files, the merge of a new choice into the
 * current selection, the guards in front of the submit request, the form it
 * sends, and the name a downloaded certificate is saved under.
 *
 * React state is one immutable `Panel` value; each handler maps a panel to the
 * next one. The error banner is the last value given to `setError`.
 */
module InternPanel {
  import opened Wrappers
  import Text
  import Seqs
  import UploadRules
  import Errors

  const MaxFileSize: nat := 3 * 1024 * 1024
  const MaxFiles: nat := 4
  const PdfType := "application/pdf"
  const ImageTypes: seq<string> := ["image/jpeg", "image/png"]

  const SizeMessage := "File size must be 3MB or less"
  const CountMessage := "Maximum 4 files allowed"
  const TypeMessage := "Only PDF, JPEG, and PNG files are allowed"
  const MixMessage := "Maximum 1 PDF and 3 images allowed"
  const LinksMessage := "Please provide at least one project link"
  const NotesMessage := "Please provide some notes about your submission"
  const SubmitFailedMessage := "Error submitting task"

  /** A browser `File`: its name, size in bytes and MIME type. */
  datatype ClientFile = ClientFile(name: string, size: nat, fileType: string)

  /** A validator's verdict; a rejection carries the text it put in the error banner. */
  datatype Check = Accepted | Rejected(message: string)

  // ---------------------------------------------------------------------
  // validateFileSize and validateFiles

  function ValidateFileSize(f: ClientFile): (r: Check)
    ensures r.Accepted? <==> f.size <= MaxFileSize
    ensures r.Rejected? ==> r.message == SizeMessage
  {
    if f.size > MaxFileSize then Rejected(SizeMessage) else Accepted
  }

  function IsPdfFile(f: ClientFile): bool {
    f.fileType == PdfType
  }

  function IsImageFile(f: ClientFile): bool {
    f.fileType in ImageTypes
  }

  /** A file every per-file rule accepts: small enough, and a PDF, JPEG or PNG. */
  predicate FileOk(f: ClientFile) {
    f.size <= MaxFileSize && (IsPdfFile(f) || IsImageFile(f))
  }

  /** The loop of `validateFiles`, with the PDFs and images counted so far. */
  function ScanFiles(files: seq<ClientFile>, pdfs: nat, images: nat): (r: Check)
    ensures r.Rejected? ==> r.message in {SizeMessage, TypeMessage, MixMessage}
    ensures r.Accepted? ==> forall i :: 0 <= i < |files| ==> FileOk(files[i])
  {
    if |files| == 0 then Accepted
    else
      var f := files[0];
      if ValidateFileSize(f).Rejected? then ValidateFileSize(f)
      else if !IsPdfFile(f) && !IsImageFile(f) then Rejected(TypeMessage)
      else
        var p := if IsPdfFile(f) then pdfs + 1 else pdfs;
        var i := if IsPdfFile(f) then images else images + 1;
        if p > 1 || i > 3 then Rejected(MixMessage)
        else
          assert FileOk(f) && forall j :: 1 <= j < |files| ==> files[j] == files[1..][j - 1];
          ScanFiles(files[1..], p, i)
  }

  /**
   * `validateFiles`: more than four files are refused before any file is
   * looked at; otherwise the files are checked in order and the first failure
   * decides the message.
   */
  function ValidateFiles(files: seq<ClientFile>): (r: Check)
    ensures |files| > MaxFiles ==> r == Rejected(CountMessage)
    ensures r.Rejected? ==> r.message in {SizeMessage, CountMessage, TypeMessage, MixMessage}
  {
    if |files| > MaxFiles then Rejected(CountMessage) else ScanFiles(files, 0, 0)
  }


  /** The selections `validateFiles` accepts, stated without the loop. */
  predicate AcceptableSelection(files: seq<ClientFile>) {
    && |files| <= MaxFiles
    && (forall i :: 0 <= i < |files| ==> FileOk(files[i]))
    && Seqs.Count(files, IsPdfFile) <= 1
    && Seqs.Count(files, IsImageFile) <= 3
  }

  lemma CountUnfold(files: seq<ClientFile>, p: ClientFile -> bool)
    requires |files| > 0
    ensures Seqs.Count(files, p) == (if p(files[0]) then 1 else 0) + Seqs.Count(files[1..], p)
  {
  }

  /** The running counts exceed their bounds at some step exactly when the totals do. */
  lemma {:induction false} ScanCharacterised(files: seq<ClientFile>, pdfs: nat, images: nat)
    requires pdfs <= 1 && images <= 3
    ensures ScanFiles(files, pdfs, images).Accepted? <==>
      && (forall i :: 0 <= i < |files| ==> FileOk(files[i]))
      && pdfs + Seqs.Count(files, IsPdfFile) <= 1
      && images + Seqs.Count(files, IsImageFile) <= 3
  {
    if |files| > 0 {
      var f := files[0];
      CountUnfold(files, IsPdfFile);
      CountUnfold(files, IsImageFile);
      var p := if IsPdfFile(f) then pdfs + 1 else pdfs;
      var i := if IsPdfFile(f) then images else images + 1;
      if FileOk(f) && p <= 1 && i <= 3 {
        ScanCharacterised(files[1..], p, i);
        assert (forall j :: 0 <= j < |files| ==> FileOk(files[j])) <==>
               (forall j :: 0 <= j < |files[1..]| ==> FileOk(files[1..][j])) by {
          forall j | 0 <= j < |files[1..]| ensures files[1..][j] == files[j + 1] { }
        }
      }
    }
  }

  /** A selection passes `validateFiles` exactly when it has at most 4 allowed, small files, at most 1 PDF and at most 3 images. */
  lemma ValidateFilesCharacterised(files: seq<ClientFile>)
    ensures ValidateFiles(files).Accepted? <==> AcceptableSelection(files)
  {
    ScanCharacterised(files, 0, 0);
  }

  // ---------------------------------------------------------------------
  // handleSubmissionChange

  /** The panel's state: the chosen week, the error banner, the in-flight flag and the draft submission. */
  datatype Panel = Panel(weekNumber: nat, error: string, isSubmitting: bool,
                         links: string, notes: string, files: seq<ClientFile>)

  /** A change event: files picked in the `files` input, or a text input edited. */
  datatype Change = ChooseFiles(chosen: seq<ClientFile>) | EditField(name: string, value: string)

  function Min(a: nat, b: nat): nat {
    if a <= b then a else b
  }

  /**
   * `handleSubmissionChange`: the banner is cleared; picked files are appended
   * to the selection and the whole list validated, an invalid list leaving the
   * selection as it was; an edit of `links` or `notes` replaces that text.
   */
  function HandleSubmissionChange(st: Panel, ev: Change): (r: Panel)
    ensures r.weekNumber == st.weekNumber && r.isSubmitting == st.isSubmitting
    ensures ev.ChooseFiles? && ValidateFiles(st.files + ev.chosen).Rejected? ==>
      r == st.(error := ValidateFiles(st.files + ev.chosen).message)
    ensures ev.ChooseFiles? && ValidateFiles(st.files + ev.chosen).Accepted? ==>
      r.error == "" && r.links == st.links && r.notes == st.notes &&
      r.files == (st.files + ev.chosen)[..Min(MaxFiles, |st.files + ev.chosen|)]
    ensures ev.EditField? ==> r.error == "" && r.files == st.files
    ensures ev.EditField? && ev.name == "links" ==> r.links == ev.value && r.notes == st.notes
    ensures ev.EditField? && ev.name == "notes" ==> r.notes == ev.value && r.links == st.links
  {
    match ev
    case ChooseFiles(chosen) =>
      var all := st.files + chosen;
      (match ValidateFiles(all)
       case Rejected(m) => st.(error := m)
       case Accepted => st.(error := "", files := all[..Min(MaxFiles, |all|)]))
    case EditField(name, value) =>
      if name == "links" then st.(error := "", links := value)
      else if name == "notes" then st.(error := "", notes := value)
      else st.(error := "")
  }

  /** The truncation to four files never cuts anything: an accepted merge keeps every picked file. */
  lemma AcceptedMergeKeepsEverything(st: Panel, chosen: seq<ClientFile>)
    requires ValidateFiles(st.files + chosen).Accepted?
    ensures HandleSubmissionChange(st, ChooseFiles(chosen)).files == st.files + chosen
  {
  }

  /** Whatever the event, a selection `validateFiles` accepts stays acceptable. */
  lemma ChangeKeepsSelectionAcceptable(st: Panel, ev: Change)
    requires AcceptableSelection(st.files)
    ensures AcceptableSelection(HandleSubmissionChange(st, ev).files)
  {
    if ev.ChooseFiles? {
      ValidateFilesCharacterised(st.files + ev.chosen);
      if ValidateFiles(st.files + ev.chosen).Accepted? {
        AcceptedMergeKeepsEverything(st, ev.chosen);
      }
    }
  }

  // ---------------------------------------------------------------------
  // handleSubmit

  /** One `FormData` entry: a text field or a file. */
  datatype FormEntry = Field(name: string, value: string) | Attachment(name: string, file: ClientFile)

  /** The panel after the click and the form posted, if one was. */
  datatype SubmitStep = SubmitStep(panel: Panel, form: Option<seq<FormEntry>>)

  /** Every file of the selection, in order, each appended under the field name `files`. */
  function FileEntries(files: seq<ClientFile>): (r: seq<FormEntry>)
    ensures |r| == |files|
    ensures forall i :: 0 <= i < |r| ==> r[i] == Attachment("files", files[i])
  {
    seq(|files|, i requires 0 <= i < |files| => Attachment("files", files[i]))
  }

  /** The form `handleSubmit` builds: five text fields, then the files. */
  function SubmitForm(st: Panel, department: string, username: string): (r: seq<FormEntry>)
    ensures |r| == 5 + |st.files|
    ensures r[1] == Field("links", st.links) && r[2] == Field("notes", st.notes)
    ensures r[3] == Field("departmentName", department) && r[4] == Field("username", username)
    ensures forall i :: 0 <= i < |st.files| ==> r[5 + i] == Attachment("files", st.files[i])
  {
    [Field("weekNumber", Text.NatToString(st.weekNumber)), Field("links", st.links), Field("notes", st.notes),
     Field("departmentName", department), Field("username", username)] + FileEntries(st.files)
  }

  /**
   * `handleSubmit`: a click while a request is in flight does nothing; blank
   * links or blank notes (only white space) only set the banner; otherwise the
   * form is posted and the panel marked as submitting.
   */
  function HandleSubmit(st: Panel, department: string, username: string): (r: SubmitStep)
    ensures st.isSubmitting ==> r == SubmitStep(st, None)
    ensures r.form.Some? <==> !st.isSubmitting && Text.Trim(st.links) != "" && Text.Trim(st.notes) != ""
    ensures !st.isSubmitting && Text.Trim(st.links) == "" ==> r == SubmitStep(st.(error := LinksMessage), None)
    ensures !st.isSubmitting && Text.Trim(st.links) != "" && Text.Trim(st.notes) == "" ==>
      r == SubmitStep(st.(error := NotesMessage), None)
    ensures r.form.Some? ==> r.form.value == SubmitForm(st, department, username)
    ensures r.form.Some? ==> r.panel == st.(isSubmitting := true, error := "")
  {
    if st.isSubmitting then SubmitStep(st, None)
    else if Text.Trim(st.links) == "" then SubmitStep(st.(error := LinksMessage), None)
    else if Text.Trim(st.notes) == "" then SubmitStep(st.(error := NotesMessage), None)
    else SubmitStep(st.(isSubmitting := true, error := ""), Some(SubmitForm(st, department, username)))
  }

  /** Links made only of white space never reach the server. */
  lemma BlankLinksSendNothing(st: Panel, department: string, username: string)
    requires forall i :: 0 <= i < |st.links| ==> Text.IsWhitespace(st.links[i])
    ensures HandleSubmit(st, department, username).form.None?
  {
    Text.TrimEmptyIffBlank(st.links);
  }

  /** A second click before the first request settles sends nothing. */
  lemma NoSecondRequestInFlight(st: Panel, department: string, username: string)
    requires HandleSubmit(st, department, username).form.Some?
    ensures HandleSubmit(HandleSubmit(st, department, username).panel, department, username).form.None?
  {
  }

  /** The request settled: success clears the draft, failure sets the banner; either way a new click is possible. */
  function SubmitSettled(st: Panel, succeeded: bool): (r: Panel)
    ensures !r.isSubmitting && r.weekNumber == st.weekNumber
    ensures succeeded ==> r.links == "" && r.notes == "" && r.files == [] && r.error == st.error
    ensures !succeeded ==> r == st.(isSubmitting := false, error := SubmitFailedMessage)
  {
    if succeeded then st.(links := "", notes := "", files := [], isSubmitting := false)
    else st.(isSubmitting := false, error := SubmitFailedMessage)
  }

  // ---------------------------------------------------------------------
  // What the server's upload middleware makes of the form

  /** The multipart file parts of a form, as the upload library sees them. */
  function FormParts(form: seq<FormEntry>): (r: seq<UploadRules.FilePart>)
    ensures |r| <= |form|
  {
    if |form| == 0 then []
    else
      var head := match form[0]
        case Attachment(name, f) => [UploadRules.FilePart(name, f.name, f.fileType, f.size)]
        case Field(_, _) => [];
      head + FormParts(form[1..])
  }

  /** Each selected file becomes one part named `files`; the text fields are not file parts. */
  lemma {:induction false} SubmitFormParts(st: Panel, department: string, username: string)
    ensures FormParts(SubmitForm(st, department, username)) ==
      seq(|st.files|, i requires 0 <= i < |st.files| => UploadRules.FilePart("files", st.files[i].name, st.files[i].fileType, st.files[i].size))
  {
    var form := SubmitForm(st, department, username);
    FormPartsConcat(form[..5], FileEntries(st.files));
    assert form == form[..5] + FileEntries(st.files);
    FieldsHaveNoParts(form[..5]);
    AttachmentParts(st.files);
  }

  lemma {:induction false} FieldsHaveNoParts(a: seq<FormEntry>)
    requires forall i :: 0 <= i < |a| ==> a[i].Field?
    ensures FormParts(a) == []
  {
    if |a| > 0 {
      FieldsHaveNoParts(a[1..]);
    }
  }

  lemma {:induction false} FormPartsConcat(a: seq<FormEntry>, b: seq<FormEntry>)
    ensures FormParts(a + b) == FormParts(a) + FormParts(b)
  {
    if |a| > 0 {
      assert (a + b)[0] == a[0];
      assert (a + b)[1..] == a[1..] + b;
      FormPartsConcat(a[1..], b);
    } else {
      assert a + b == b;
    }
  }

  lemma {:induction false} AttachmentParts(files: seq<ClientFile>)
    ensures FormParts(FileEntries(files)) ==
      seq(|files|, i requires 0 <= i < |files| => UploadRules.FilePart("files", files[i].name, files[i].fileType, files[i].size))
  {
    if |files| > 0 {
      assert FileEntries(files)[1..] == FileEntries(files[1..]);
      AttachmentParts(files[1..]);
    }
  }

  /**
   * As written: any accepted selection of two or more files is refused by the
   * server, because all of them arrive under `files`, which allows one file.
   */
  lemma TwoFilesAreRefused(st: Panel, department: string, username: string)
    requires AcceptableSelection(st.files) && |st.files| >= 2
    requires HandleSubmit(st, department, username).form.Some?
    ensures UploadRules.HandleMulterUpload(FormParts(HandleSubmit(st, department, username).form.value))
      == Errors.Err(Errors.CustomError("Unexpected field name in upload", 400))
  {
    SubmitFormParts(st, department, username);
    var parts := FormParts(SubmitForm(st, department, username));
    assert FileOk(st.files[0]);
    assert parts[0] == UploadRules.FilePart("files", st.files[0].name, st.files[0].fileType, st.files[0].size);
    assert parts[1].field == "files";
    SecondFilesPartIsRefused(parts);
  }

  /** A second part under `files` exhausts that field's allowance of one, whatever follows. */
  lemma SecondFilesPartIsRefused(parts: seq<UploadRules.FilePart>)
    requires |parts| >= 2 && parts[0].field == "files" && parts[1].field == "files"
    requires UploadRules.IsAllowedMime(parts[0].mimetype) && parts[0].size <= UploadRules.MaxFileSize
    ensures UploadRules.HandleMulterUpload(parts) == Errors.Err(Errors.CustomError("Unexpected field name in upload", 400))
  {
    var stop := UploadRules.Stop(UploadRules.Library(UploadRules.MulterError("LIMIT_UNEXPECTED_FILE", "Unexpected field", "files")));
    assert UploadRules.AdmitFrom(parts[1..], 1, 0, UploadRules.ImagesFieldMax) == stop;
    assert UploadRules.Admit(parts) == stop;
  }

  /** The part for one file when PDFs are sent under `files` and images under `images`. */
  function RoutedPart(f: ClientFile): UploadRules.FilePart {
    UploadRules.FilePart(if IsPdfFile(f) then "files" else "images", f.name, f.fileType, f.size)
  }

  /** The corrected file parts: each file under the field the server expects for its type. */
  function RoutedParts(files: seq<ClientFile>): (r: seq<UploadRules.FilePart>)
    ensures |r| == |files|
    ensures forall i :: 0 <= i < |r| ==> r[i] == RoutedPart(files[i])
  {
    if |files| == 0 then [] else [RoutedPart(files[0])] + RoutedParts(files[1..])
  }

  /** With every file acceptable, the parts in `files` are the PDFs and those in `images` are the images. */
  lemma {:induction false} RoutedCounts(files: seq<ClientFile>)
    requires forall i :: 0 <= i < |files| ==> FileOk(files[i])
    ensures Seqs.Count(RoutedParts(files), UploadRules.InField("files")) == Seqs.Count(files, IsPdfFile)
    ensures Seqs.Count(RoutedParts(files), UploadRules.InField("images")) == Seqs.Count(files, IsImageFile)
  {
    if |files| > 0 {
      RoutedCounts(files[1..]);
      CountUnfold(files, IsPdfFile);
      CountUnfold(files, IsImageFile);
      UploadRules.CountCons(RoutedPart(files[0]), RoutedParts(files[1..]), "files");
      UploadRules.CountCons(RoutedPart(files[0]), RoutedParts(files[1..]), "images");
      assert RoutedParts(files) == [RoutedPart(files[0])] + RoutedParts(files[1..]);
    }
  }

  /** Corrected: every selection the panel accepts is admitted by the server's upload middleware. */
  lemma RoutedSelectionIsAdmitted(files: seq<ClientFile>)
    requires ValidateFiles(files).Accepted?
    ensures UploadRules.HandleMulterUpload(RoutedParts(files)).Ok?
  {
    ValidateFilesCharacterised(files);
    RoutedCounts(files);
    var parts := RoutedParts(files);
    forall i | 0 <= i < |parts| ensures UploadRules.PartOk(parts[i]) {
      assert FileOk(files[i]);
    }
  }

  // ---------------------------------------------------------------------
  // Download file names

  const FilenameKey := "filename="

  /**
   * The name a download is saved under: the text after the first `filename=`
   * of the Content-Disposition header with every `"` removed, or the fallback
   * when the header, that text or the cleaned name is missing or empty.
   */
  function DownloadName(header: Option<string>, fallback: string): (r: string)
    ensures header.None? ==> r == fallback
    ensures header.Some? && !Text.Contains(header.value, FilenameKey) ==> r == fallback
    ensures r != fallback ==> r != "" && forall i :: 0 <= i < |r| ==> r[i] != '"'
  {
    match header
    case None => fallback
    case Some(h) =>
      Text.SplitSingleIffAbsent(h, FilenameKey);
      match Text.SplitPart(h, FilenameKey, 1)
      case None => fallback
      case Some(part) =>
        var name := Text.RemoveAll(part, '"');
        if name == "" then fallback else name
  }

  function OfferLetterFallback(name: string): string {
    name + "_offerletter.pdf"
  }

  function CompletionFallback(name: string): string {
    name + "_IntershipCompletionCertificate.pdf"
  }

  /** The header the server sends for an attachment. */
  function AttachmentHeader(filename: string): string {
    "attachment; filename=" + filename
  }

  /** A server-sent name without quotes and without `filename=` in it is read back unchanged. */
  lemma DownloadNameReadsAttachment(filename: string, fallback: string)
    requires filename != ""
    requires forall i :: 0 <= i < |filename| ==> filename[i] != '"'
    requires !Text.Contains(filename, FilenameKey)
    ensures DownloadName(Some(AttachmentHeader(filename)), fallback) == filename
  {
    var h := AttachmentHeader(filename);
    assert Text.OccursAt(h, FilenameKey, 12);
    assert h[..12] == "attachment; ";
    forall j | 0 <= j < 12 ensures !Text.OccursAt(h, FilenameKey, j) {
      assert h[j] == h[..12][j] != 'f';
      assert h[j..j + |FilenameKey|][0] == h[j];
    }
    assert Text.IndexOf(h, FilenameKey) == Some(12);
    Text.SplitUnfold(h, FilenameKey, 12);
    assert h[12 + |FilenameKey|..] == filename;
  }
}

=== FILE: js.dfy ===
/**
 * The JavaScript values that request bodies and stored documents carry, and
 * the truthiness test (`!!v`) the controllers use to decide whether a field
 * was supplied.
 */
module Js {

  datatype JsValue =
    | Undefined
    | Null
    | Bool(b: bool)
    | Num(n: int)          // integers only; NaN and fractions are not modelled
    | Str(s: string)
    | Date(ms: int)        // milliseconds since the epoch
    | Obj(fields: map<string, JsValue>)
    | Arr(items: seq<JsValue>)

  /** `!!v`: false exactly for undefined, null, false, 0 and the empty string. */
  predicate Truthy(v: JsValue) {
    match v
    case Undefined => false
    case Null => false
    case Bool(b) => b
    case Num(n) => n != 0
    case Str(s) => s != ""
    case Date(_) => true
    case Obj(_) => true
    case Arr(_) => true
  }

  /** A plain object, as a request body or a stored document is. */
  type Object = map<string, JsValue>

  /** `o[k]`, which is `undefined` for a missing key. */
  function Get(o: Object, k: string): JsValue {
    if k in o then o[k] else Undefined
  }
}

=== FILE: js_number.dfy ===
/**
 * `Number(s)` for a string, the StringToNumber conversion of section 7.1.4.1.1
 * of ECMAScript 2024: white space around the literal is ignored, a blank
 * string is 0, and the literal is a signed decimal with optional fraction and
 * exponent, `Infinity`, or an unsigned `0x`, `0o` or `0b` integer; anything
 * else is NaN. Decimal values are kept exact, as `mantissa × 10^exponent`,
 * instead of being rounded to a double.
 */
module JsNumber {
  import opened Wrappers
  import Text
  import Seqs

  datatype NumberValue = Finite(mantissa: int, exponent: int) | Infinity(negative: bool) | NaN

  function Pow10(e: nat): (r: nat)
    ensures r >= 1
  {
    if e == 0 then 1 else 10 * Pow10(e - 1)
  }

  predicate AllDigits(s: string) {
    forall i :: 0 <= i < |s| ==> Text.IsDigit(s[i])
  }

  predicate IsDot(c: char) {
    c == '.'
  }

  predicate IsExponentMark(c: char) {
    c == 'e' || c == 'E'
  }

  /** The value of a hexadecimal, octal or binary digit, or -1. */
  function DigitValue(c: char): (r: int)
    ensures -1 <= r < 16
  {
    if '0' <= c <= '9' then c as int - '0' as int
    else if 'a' <= c <= 'f' then c as int - 'a' as int + 10
    else if 'A' <= c <= 'F' then c as int - 'A' as int + 10
    else -1
  }

  predicate RadixDigits(s: string, radix: nat) {
    forall i :: 0 <= i < |s| ==> 0 <= DigitValue(s[i]) < radix
  }

  function ParseRadix(s: string, radix: nat): nat
    requires RadixDigits(s, radix)
  {
    if |s| == 0 then 0 else ParseRadix(s[..|s| - 1], radix) * radix + DigitValue(s[|s| - 1])
  }

  /** Digits with at most one `.` and at least one digit: the value as (digits, minus the fraction's length). */
  function Mantissa(s: string): (r: Option<(nat, int)>)
    ensures r.Some? ==> r.value.1 <= 0
  {
    match Seqs.FindFirst(s, IsDot)
    case None => if |s| > 0 && AllDigits(s) then Some((Text.ParseNat(s), 0)) else None
    case Some(i) =>
      var whole, frac := s[..i], s[i + 1..];
      if (|whole| > 0 || |frac| > 0) && AllDigits(whole) && AllDigits(frac) then
        assert AllDigits(whole + frac) by {
          assert forall k :: 0 <= k < |whole + frac| ==> (whole + frac)[k] == if k < |whole| then whole[k] else frac[k - |whole|];
        }
        Some((Text.ParseNat(whole + frac), -|frac|))
      else None
  }

  /** The part after `e`: an optional sign and one or more digits. */
  function Exponent(s: string): Option<int> {
    if |s| > 0 && IsSign(s[0]) then
      var d := s[1..];
      var n: int := if |d| > 0 && AllDigits(d) then Text.ParseNat(d) else 0;
      if |d| > 0 && AllDigits(d) then Some(if s[0] == '-' then -n else n) else None
    else if |s| > 0 && AllDigits(s) then Some(Text.ParseNat(s))
    else None
  }

  /** A decimal literal without sign: a mantissa and an optional exponent. */
  function UnsignedDecimal(s: string): Option<(nat, int)> {
    match Seqs.FindFirst(s, IsExponentMark)
    case None => Mantissa(s)
    case Some(i) =>
      var m, e := Mantissa(s[..i]), Exponent(s[i + 1..]);
      if m.Some? && e.Some? then Some((m.value.0, m.value.1 + e.value)) else None
  }

  predicate IsSign(c: char) {
    c == '+' || c == '-'
  }

  /** The letter after a leading `0` that makes a hexadecimal, octal or binary literal. */
  predicate IsRadixMark(c: char) {
    c == 'x' || c == 'X' || c == 'o' || c == 'O' || c == 'b' || c == 'B'
  }

  function RadixOf(c: char): nat {
    if c == 'x' || c == 'X' then 16 else if c == 'o' || c == 'O' then 8 else 2
  }

  const InfinityText := "Infinity"

  /** `0x`, `0o` or `0b` followed by one or more digits of that radix; no sign is allowed. */
  function RadixLiteral(mark: char, digits: string): NumberValue {
    var radix := RadixOf(mark);
    if |digits| > 0 && RadixDigits(digits, radix) then Finite(ParseRadix(digits, radix), 0) else NaN
  }

  /** The value of an unsigned decimal, negated when a `-` preceded it. */
  function DecimalValue(v: Option<(nat, int)>, negative: bool): NumberValue {
    match v
    case None => NaN
    case Some(d) =>
      var m: int := d.0;
      Finite(if negative then -m else m, d.1)
  }

  /** What follows an optional sign: `Infinity` or an unsigned decimal. */
  function Unsigned(body: string, negative: bool): NumberValue {
    if body == InfinityText then Infinity(negative) else DecimalValue(UnsignedDecimal(body), negative)
  }

  /** A trimmed, non-empty numeric literal. */
  function Literal(t: string): NumberValue {
    if |t| >= 2 && t[0] == '0' && IsRadixMark(t[1]) then RadixLiteral(t[1], t[2..])
    else if |t| > 0 && IsSign(t[0]) then Unsigned(t[1..], t[0] == '-')
    else Unsigned(t, false)
  }

  /** `Number(s)`. */
  function StringToNumber(s: string): (r: NumberValue)
    ensures Text.Trim(s) == "" ==> r == Finite(0, 0)
  {
    var t := Text.Trim(s);
    if t == "" then Finite(0, 0) else Literal(t)
  }

  /** The integer a value denotes, when it denotes one. */
  function IntegerValue(v: NumberValue): (r: Option<int>)
    ensures r.Some? ==> v.Finite?
    ensures r.Some? && v.exponent >= 0 ==> r.value == v.mantissa * Pow10(v.exponent)
    ensures r.Some? && v.exponent < 0 ==> r.value * Pow10(-v.exponent) == v.mantissa
    ensures r.None? && v.Finite? ==> v.exponent < 0 && v.mantissa % Pow10(-v.exponent) != 0
  {
    match v
    case Finite(m, e) =>
      if e >= 0 then Some(m * Pow10(e))
      else if m % Pow10(-e) == 0 then Some(m / Pow10(-e))
      else None
    case _ => None
  }

  // ---------------------------------------------------------------------
  // What the conversion reads

  /** A body that starts with a digit is not `Infinity`. */
  lemma DigitFirstIsDecimal(body: string, negative: bool)
    requires |body| > 0 && Text.IsDigit(body[0])
    ensures Unsigned(body, negative) == DecimalValue(UnsignedDecimal(body), negative)
  {
    assert InfinityText[0] == 'I';
  }

  /** A literal that starts with a digit not followed by a radix letter is an unsigned decimal. */
  lemma DecimalLiteral(t: string)
    requires |t| > 0 && Text.IsDigit(t[0]) && (|t| >= 2 ==> !IsRadixMark(t[1]))
    ensures Literal(t) == DecimalValue(UnsignedDecimal(t), false)
  {
    DigitFirstIsDecimal(t, false);
  }

  /** A string of digits has no `e` and no `.`: its value is the digits read in base ten. */
  lemma DigitsDecimal(d: string)
    requires |d| > 0 && AllDigits(d)
    ensures UnsignedDecimal(d) == Some((Text.ParseNat(d), 0))
  {
    assert Seqs.FindFirst(d, IsExponentMark).None?;
    assert Seqs.FindFirst(d, IsDot).None?;
  }

  /** A string that trims to a string of digits reads as their decimal value. */
  lemma ReadsAsDigits(s: string, d: string)
    requires Text.Trim(s) == d && |d| > 0 && AllDigits(d)
    ensures StringToNumber(s) == Finite(Text.ParseNat(d), 0)
  {
    DecimalLiteral(d);
    DigitsDecimal(d);
  }

  /** A string of digits is read as its decimal value. */
  lemma DigitsReadAsDecimal(d: string)
    requires |d| > 0 && AllDigits(d)
    ensures StringToNumber(d) == Finite(Text.ParseNat(d), 0)
  {
    Text.TrimSurrounded("", d, "");
    assert "" + d + "" == d;
    ReadsAsDigits(d, d);
  }

  /** `Number(String(n))` is `n` for every natural number. */
  lemma DecimalReadsBack(n: nat)
    ensures IntegerValue(StringToNumber(Text.NatToString(n))) == Some(n)
  {
    DigitsReadAsDecimal(Text.NatToString(n));
    Text.ParseNatToString(n);
  }

  /** A string whose trimmed form is a non-empty literal reads as that literal. */
  lemma ReadsTrimmed(s: string, t: string)
    requires Text.Trim(s) == t && t != ""
    ensures StringToNumber(s) == Literal(t)
  {
  }

  /** White space around a literal does not change what it reads as. */
  lemma SpaceIgnored(ws1: string, d: string, ws2: string)
    requires forall i :: 0 <= i < |ws1| ==> Text.IsWhitespace(ws1[i])
    requires forall i :: 0 <= i < |ws2| ==> Text.IsWhitespace(ws2[i])
    requires |d| > 0 && AllDigits(d)
    ensures StringToNumber(ws1 + d + ws2) == StringToNumber(d)
  {
    Text.TrimSurrounded(ws1, d, ws2);
    ReadsAsDigits(ws1 + d + ws2, d);
    DigitsReadAsDecimal(d);
  }

  /** A string that trims to `+` and digits reads as the digits' decimal value. */
  lemma ReadsAsPlusDigits(s: string, d: string)
    requires Text.Trim(s) == "+" + d && |d| > 0 && AllDigits(d)
    ensures StringToNumber(s) == Finite(Text.ParseNat(d), 0)
  {
    var p := "+" + d;
    assert p[0] == '+' && p[1..] == d;
    DigitFirstIsDecimal(d, false);
    DigitsDecimal(d);
  }

  /** A leading `+` does not change what a string of digits reads as, with or without white space around. */
  lemma PlusIgnored(ws1: string, d: string, ws2: string)
    requires forall i :: 0 <= i < |ws1| ==> Text.IsWhitespace(ws1[i])
    requires forall i :: 0 <= i < |ws2| ==> Text.IsWhitespace(ws2[i])
    requires |d| > 0 && AllDigits(d)
    ensures StringToNumber(ws1 + "+" + d + ws2) == StringToNumber(d)
  {
    var p := "+" + d;
    Text.Regroup(ws1, "+", d, ws2);
    assert p[0] == '+' && p[|p| - 1] == d[|d| - 1];
    Text.TrimSurrounded(ws1, p, ws2);
    ReadsAsPlusDigits(ws1 + p + ws2, d);
    DigitsReadAsDecimal(d);
  }

  /** Appending zeros to a digit string multiplies its value by the matching power of ten. */
  lemma {:induction false} ParseZeros(d: string, z: string)
    requires AllDigits(d) && forall i :: 0 <= i < |z| ==> z[i] == '0'
    ensures AllDigits(d + z)
    ensures Text.ParseNat(d + z) == Text.ParseNat(d) * Pow10(|z|)
    decreases |z|
  {
    assert forall k :: 0 <= k < |d + z| ==> (d + z)[k] == if k < |d| then d[k] else z[k - |d|];
    if |z| == 0 {
      assert d + z == d;
    } else {
      var y := z[..|z| - 1];
      ParseZeros(d, y);
      assert (d + z)[..|d + z| - 1] == d + y;
    }
  }

  /** A string that trims to digits, a dot and zeros reads as the scaled mantissa. */
  lemma ReadsAsZeroFraction(s: string, d: string, z: string)
    requires |d| > 0 && AllDigits(d) && forall i :: 0 <= i < |z| ==> z[i] == '0'
    requires Text.Trim(s) == d + "." + z
    ensures StringToNumber(s) == Finite(Text.ParseNat(d) * Pow10(|z|), -|z|)
  {
    var t := d + "." + z;
    assert t[0] == d[0] && (|t| >= 2 ==> t[1] == '.' || t[1] == d[1]);
    DecimalLiteral(t);
    FractionMantissa(d, z);
  }

  /** Only zero times a positive number lies below that number and at or above zero. */
  lemma SmallMultiple(x: int, p: int)
    requires p > 0 && 0 <= x * p < p
    ensures x == 0
  {
    assert x >= 1 ==> x * p >= p;
    assert x <= -1 ==> x * p <= -p;
  }

  /** Dividing an exact multiple leaves no remainder and gives back the factor. */
  lemma ExactQuotient(q: int, p: int)
    requires p > 0
    ensures (q * p) % p == 0 && (q * p) / p == q
  {
    var a := q * p;
    assert a == (a / p) * p + a % p;
    assert (q - a / p) * p == a % p;
    SmallMultiple(q - a / p, p);
  }

  /** A mantissa scaled by the power of ten its negative exponent undoes denotes the unscaled integer. */
  lemma ScaledIsWhole(m: nat, k: nat)
    ensures IntegerValue(Finite(m * Pow10(k), -(k as int))) == Some(m)
  {
    ExactQuotient(m, Pow10(k));
  }

  /** A literal with a fraction of zeros neither starts nor ends with white space: it starts with a digit and ends with the dot or a zero. */
  lemma FractionEnds(d: string, z: string)
    requires |d| > 0 && AllDigits(d) && forall i :: 0 <= i < |z| ==> z[i] == '0'
    ensures var t := d + "." + z; !Text.IsWhitespace(t[0]) && !Text.IsWhitespace(t[|t| - 1])
  {
    var t := d + "." + z;
    assert t[0] == d[0] && Text.IsDigit(d[0]);
    if |z| == 0 {
      assert t[|t| - 1] == '.';
    } else {
      assert t[|t| - 1] == z[|z| - 1];
    }
  }

  /** A fraction of zeros, `2.` or `2.00`, reads as the whole number, with or without white space around. */
  lemma ZeroFractionIgnored(ws1: string, d: string, z: string, ws2: string)
    requires forall i :: 0 <= i < |ws1| ==> Text.IsWhitespace(ws1[i])
    requires forall i :: 0 <= i < |ws2| ==> Text.IsWhitespace(ws2[i])
    requires |d| > 0 && AllDigits(d) && forall i :: 0 <= i < |z| ==> z[i] == '0'
    ensures IntegerValue(StringToNumber(ws1 + (d + "." + z) + ws2)) == Some(Text.ParseNat(d))
  {
    var t := d + "." + z;
    FractionEnds(d, z);
    Text.TrimSurrounded(ws1, t, ws2);
    ReadsAsZeroFraction(ws1 + t + ws2, d, z);
    ScaledIsWhole(Text.ParseNat(d), |z|);
  }

  lemma FractionMantissa(d: string, z: string)
    requires |d| > 0 && AllDigits(d) && forall i :: 0 <= i < |z| ==> z[i] == '0'
    ensures UnsignedDecimal(d + "." + z) == Some((Text.ParseNat(d) * Pow10(|z|), -|z|))
  {
    var s := d + "." + z;
    assert forall j :: 0 <= j < |s| ==> s[j] == if j < |d| then d[j] else if j == |d| then '.' else z[j - |d| - 1];
    assert forall j :: 0 <= j < |s| ==> !IsExponentMark(s[j]);
    assert Seqs.FindFirst(s, IsExponentMark).None?;
    assert IsDot(s[|d|]) && forall j :: 0 <= j < |d| ==> !IsDot(s[j]);
    assert Seqs.FindFirst(s, IsDot) == Some(|d|);
    assert s[..|d|] == d && s[|d| + 1..] == z;
    ParseZeros(d, z);
  }
}

=== FILE: letterhead.dfy ===
/**
 * What the two certificate generators share (utils/offerLetterGenerator.js and
 * utils/iccGenerator.js): the company details, which are the foundation's own
 * unless the caller overrides a key, the footer built from them, and the
 * rendering of a value into a template literal.
 */
module Letterhead {
  import opened Js
  import Text

  const DefaultName := "Renu Sharma Healthcare Education & Foundation"
  const DefaultAddress := "VPO Baspadmka, Teh Pataudi, Dist Gurugram (HR), Pin 122503"
  const DefaultContactNumber := "9671457366"
  const DefaultEmail := "Neha.rshefoundation@gmail.com"
  const DefaultWebsite := "www.rshefoundation.org"

  const Defaults: Object := map[
    "name" := Str(DefaultName),
    "address" := Str(DefaultAddress),
    "contactNumber" := Str(DefaultContactNumber),
    "email" := Str(DefaultEmail),
    "website" := Str(DefaultWebsite)]

  /**
   * `{...defaults, ...companyDetails}`: every key the caller gives wins, even
   * one whose value is `undefined`; the other defaults stay.
   */
  function CompanyDetails(overrides: Object): (r: Object)
    ensures r.Keys == Defaults.Keys + overrides.Keys
    ensures forall k :: k in overrides ==> r[k] == overrides[k]
    ensures forall k :: k in Defaults && k !in overrides ==> r[k] == Defaults[k]
  {
    Defaults + overrides
  }

  /**
   * `${v}` in a template literal. Dates print as `Date.prototype.toString`
   * does, which depends on the host's time zone; that rendering is the
   * `showDate` parameter.
   */
  function Render(v: JsValue, showDate: int -> string): string
    decreases v, 1
  {
    match v
    case Undefined => "undefined"
    case Null => "null"
    case Bool(b) => if b then "true" else "false"
    case Num(n) => Text.IntToString(n)
    case Str(s) => s
    case Date(ms) => showDate(ms)
    case Obj(_) => "[object Object]"
    case Arr(items) => Text.Join(seq(|items|, i requires 0 <= i < |items| => RenderElement(items[i], showDate)), ",")
  }

  /** An array element inside `String(array)`: `null` and `undefined` print as nothing. */
  function RenderElement(v: JsValue, showDate: int -> string): string
    decreases v, 2
  {
    if v.Null? || v.Undefined? then "" else Render(v, showDate)
  }

  /** `${o.k}`: a missing key prints as `undefined`. */
  function Field(o: Object, k: string, showDate: int -> string): string {
    Render(Get(o, k), showDate)
  }

  datatype Footer = Footer(companyName: JsValue, address: JsValue, contact: string, email: string, website: string)

  /** The footer: the company's name and address as given, and three labelled contact lines. */
  function FooterOf(company: Object, showDate: int -> string): (f: Footer)
    ensures f.companyName == Get(company, "name") && f.address == Get(company, "address")
    ensures Text.StartsWith(f.contact, "Contact: ") && f.contact[|"Contact: "|..] == Field(company, "contactNumber", showDate)
    ensures Text.StartsWith(f.email, "Email: ") && f.email[|"Email: "|..] == Field(company, "email", showDate)
    ensures Text.StartsWith(f.website, "Website: ") && f.website[|"Website: "|..] == Field(company, "website", showDate)
  {
    Footer(Get(company, "name"), Get(company, "address"),
           "Contact: " + Field(company, "contactNumber", showDate),
           "Email: " + Field(company, "email", showDate),
           "Website: " + Field(company, "website", showDate))
  }

  /** Without overrides the footer carries the foundation's own details. */
  lemma DefaultFooter(showDate: int -> string)
    ensures FooterOf(CompanyDetails(map[]), showDate) ==
      Footer(Str(DefaultName), Str(DefaultAddress), "Contact: " + DefaultContactNumber,
             "Email: " + DefaultEmail, "Website: " + DefaultWebsite)
  {
    var c := CompanyDetails(map[]);
    assert c == Defaults;
  }
}

=== FILE: media_store.dfy ===
/**
 * The media host, abstracted to the set of public ids it currently stores.
 * Uploading is supplied by the caller as a function (its success, URL and id
 * are decided by the host); deleting follows services/cloudinary.service.js:
 * `deleteFile` never throws and reports success exactly when the host answers
 * "ok", which it does for a stored id.
 */
module MediaStore {

  type PublicId = string

  /** What one upload call returns: `{success: true, data: {url, publicId}}` or `{success: false, error}`. */
  datatype UploadResult = Uploaded(url: string, publicId: PublicId) | UploadFailed(error: string)

  /** The host's answer to a destroy request. */
  function DestroyResult(live: set<PublicId>, id: PublicId): (r: string)
    ensures r == "ok" <==> id in live
  {
    if id in live then "ok" else "not found"
  }

  /** `deleteFile(publicId)`: the store afterwards and the reported `success`. */
  function DeleteFile(live: set<PublicId>, id: PublicId): (r: (set<PublicId>, bool))
    ensures r.0 == live - {id}
    ensures r.1 <==> DestroyResult(live, id) == "ok"
    ensures r.1 <==> id in live
  {
    (live - {id}, DestroyResult(live, id) == "ok")
  }

  /** The set of ids in a sequence. */
  function Ids(ids: seq<PublicId>): set<PublicId> {
    set x | x in ids
  }

  /** One `deleteFile` per id, in order; every caller ignores the reported results. */
  function DeleteAll(live: set<PublicId>, ids: seq<PublicId>): (r: set<PublicId>)
    ensures r == live - Ids(ids)
    decreases |ids|
  {
    if |ids| == 0 then live
    else
      assert Ids(ids) == {ids[0]} + Ids(ids[1..]) by {
        assert forall x :: x in ids <==> x == ids[0] || x in ids[1..];
      }
      DeleteAll(DeleteFile(live, ids[0]).0, ids[1..])
  }
}

=== FILE: offer_letter_generator.dfy ===
/**
 * The text of the internship offer letter (utils/offerLetterGenerator.js,
 * `_getInternshipOfferContent`): every section as the string the template
 * literal produces from the company details and the candidate's fields.
 * Laying the text out as a PDF is not part of this model.
 */
module OfferLetterGenerator {
  import opened Js
  import Text
  import Letterhead

  const Bullet := "\U{2022} "
  const Subject := "Online Internship Offer"
  const Congratulations := "Congratulations, "

  datatype OfferContent = OfferContent(
    subject: string,
    congratulatoryMessage: string,
    mainContent: string,
    learningObjectives: string,
    internshipExpectations: string,
    closingContent: string,
    legalDisclaimer: string,
    finalMessage: string,
    footer: Letterhead.Footer)

  /** The destructuring default `tenure = 1`, which applies only when the field is `undefined`. */
  function Tenure(candidate: Object): (r: JsValue)
    ensures Get(candidate, "tenure").Undefined? ==> r == Num(1)
    ensures !Get(candidate, "tenure").Undefined? ==> r == Get(candidate, "tenure")
  {
    if Get(candidate, "tenure").Undefined? then Num(1) else Get(candidate, "tenure")
  }

  const Welcome := "After a thorough review of your application and impressive qualifications, we are delighted to welcome you to our virtual internship program. Your exceptional academic background and demonstrated skills perfectly align with our organizational mission of healthcare education and innovation."

  const Opportunities := "Key Learning Opportunities:\n"
    + Bullet + "Comprehensive project-based learning\n"
    + Bullet + "Direct mentorship from industry experts\n"
    + Bullet + "Exposure to real-world healthcare education challenges\n"
    + Bullet + "Opportunity to contribute to meaningful research and initiatives\n"
    + Bullet + "Professional skill development workshops\n"
    + Bullet + "Certificate of completion upon successful internship"

  const Conditions := "This offer is contingent upon:\n"
    + "1. Submission of required academic and personal documents\n"
    + "2. Completion of a virtual orientation session\n"
    + "3. Adherence to our internship code of conduct\n"
    + "4. Maintaining satisfactory academic performance\n"
    + "5. Signing the internship agreement"

  const LearningObjectives := "During this internship, you will:\n"
    + Bullet + "Gain hands-on experience in your field of study\n"
    + Bullet + "Develop professional skills relevant to healthcare education\n"
    + Bullet + "Work on innovative projects\n"
    + Bullet + "Build a strong professional network\n"
    + Bullet + "Create a portfolio of impactful work\n"
    + Bullet + "Receive guidance from experienced mentors"

  const Expectations := "Internship Expectations:\n"
    + Bullet + "Commitment to 15-20 hours per week\n"
    + Bullet + "Participation in weekly virtual team meetings\n"
    + Bullet + "Timely completion of assigned projects\n"
    + Bullet + "Maintain professional communication\n"
    + Bullet + "Submit weekly progress reports\n"
    + Bullet + "Engage in continuous learning and skill development"

  const Closing := "To accept this internship offer, please:\n"
    + "1. Review the attached internship agreement\n"
    + "2. Complete the online onboarding form within 5 business days\n"
    + "3. Submit required documents electronically\n"
    + "4. Confirm your participation via email\n"
    + "5. Attend the mandatory virtual orientation\n"
    + "\n"
    + "Our internship coordination team is available to address any questions or concerns. We recommend scheduling a virtual information session to discuss your internship journey."

  const FinalMessage := "We are thrilled to support your professional growth and look forward to your contributions to healthcare education. This is the beginning of an exciting learning journey!"

  /** One bulleted line of the internship details. */
  function Line(caption: string, value: string): string {
    Bullet + caption + value
  }

  /** The five lines of internship details. */
  function Details(dept: string, start: string, end: string, tenure: string): string {
    Line("department: ", dept) + "\n"
    + Line("Start Date: ", start) + "\n"
    + Line("End Date: ", end) + "\n"
    + Line("Duration: ", tenure + " months") + "\n"
    + Line("Internship Type: ", "100% Remote/Online")
  }

  const OpeningText := "We are excited to extend an official online internship offer to you at "

  function Opening(company: string): string {
    OpeningText + company + ". "
  }

  function MainContent(company: string, dept: string, start: string, end: string, tenure: string): string {
    Opening(company) + "\n\n" + Welcome + "\n\nInternship Details:\n"
    + Details(dept, start, end, tenure) + "\n\n" + Opportunities + "\n\n" + Conditions
  }

  const DisclaimerOpening := "This internship offer is made in good faith and is subject to the terms outlined in the internship agreement. "
  const DisclaimerClosing := " reserves the right to modify or withdraw the offer if any information is found to be incorrect or misrepresented."

  /** The congratulatory line, addressed to the candidate by name. */
  function Greeting(name: string): string {
    Congratulations + name + "!"
  }

  function LegalDisclaimer(company: string): string {
    DisclaimerOpening + company + DisclaimerClosing
  }

  /**
   * `_getInternshipOfferContent` of a generator built with `overrides`: the
   * sections of the letter for one candidate.
   */
  function OfferContentFor(overrides: Object, candidate: Object, showDate: int -> string): (r: OfferContent)
    ensures r.subject == Subject
    ensures r.footer == Letterhead.FooterOf(Letterhead.CompanyDetails(overrides), showDate)
  {
    var company := Letterhead.CompanyDetails(overrides);
    var companyName := Letterhead.Field(company, "name", showDate);
    OfferContent(
      Subject,
      Greeting(Letterhead.Field(candidate, "name", showDate)),
      MainContent(companyName,
        Letterhead.Field(candidate, "departmentName", showDate),
        Letterhead.Field(candidate, "startDate", showDate),
        Letterhead.Field(candidate, "endDate", showDate),
        Letterhead.Render(Tenure(candidate), showDate)),
      LearningObjectives,
      Expectations,
      Closing,
      LegalDisclaimer(companyName),
      FinalMessage,
      Letterhead.FooterOf(company, showDate))
  }

  lemma DetailsMention(dept: string, start: string, end: string, tenure: string)
    ensures Text.Contains(Details(dept, start, end, tenure), Line("department: ", dept))
    ensures Text.Contains(Details(dept, start, end, tenure), Line("Start Date: ", start))
    ensures Text.Contains(Details(dept, start, end, tenure), Line("End Date: ", end))
    ensures Text.Contains(Details(dept, start, end, tenure), Line("Duration: ", tenure + " months"))
    ensures Text.Contains(Details(dept, start, end, tenure), Line("Internship Type: ", "100% Remote/Online"))
  {
    var a, b, c, d, e := Line("department: ", dept), Line("Start Date: ", start), Line("End Date: ", end),
      Line("Duration: ", tenure + " months"), Line("Internship Type: ", "100% Remote/Online");
    var nl := "\n";
    Text.ContainsPrefix(a, nl);
    Text.ContainsAppend(a + nl, b, a);
    Text.ContainsAppend(a + nl + b, nl, a);
    Text.ContainsAppend(a + nl + b + nl, c, a);
    Text.ContainsAppend(a + nl + b + nl + c, nl, a);
    Text.ContainsAppend(a + nl + b + nl + c + nl, d, a);
    Text.ContainsAppend(a + nl + b + nl + c + nl + d, nl, a);
    Text.ContainsAppend(a + nl + b + nl + c + nl + d + nl, e, a);
    Text.ContainsMiddle(a + nl, b, nl);
    Text.ContainsAppend(a + nl + b + nl, c, b);
    Text.ContainsAppend(a + nl + b + nl + c, nl, b);
    Text.ContainsAppend(a + nl + b + nl + c + nl, d, b);
    Text.ContainsAppend(a + nl + b + nl + c + nl + d, nl, b);
    Text.ContainsAppend(a + nl + b + nl + c + nl + d + nl, e, b);
    Text.ContainsMiddle(a + nl + b + nl, c, nl);
    Text.ContainsAppend(a + nl + b + nl + c + nl, d, c);
    Text.ContainsAppend(a + nl + b + nl + c + nl + d, nl, c);
    Text.ContainsAppend(a + nl + b + nl + c + nl + d + nl, e, c);
    Text.ContainsMiddle(a + nl + b + nl + c + nl, d, nl);
    Text.ContainsAppend(a + nl + b + nl + c + nl + d + nl, e, d);
    Text.ContainsSuffix(a + nl + b + nl + c + nl + d + nl, e);
  }

  /** Containment in the details carries over to the whole main paragraph. */
  lemma DetailsInMain(company: string, dept: string, start: string, end: string, tenure: string, sub: string)
    requires Text.Contains(Details(dept, start, end, tenure), sub)
    ensures Text.Contains(MainContent(company, dept, start, end, tenure), sub)
  {
    var pre := Opening(company) + "\n\n" + Welcome + "\n\nInternship Details:\n";
    var details := Details(dept, start, end, tenure);
    Text.ContainsExtend(pre, details, "\n\n", sub);
    Text.ContainsAppend(pre + details + "\n\n", Opportunities, sub);
    Text.ContainsAppend(pre + details + "\n\n" + Opportunities, "\n\n", sub);
    Text.ContainsAppend(pre + details + "\n\n" + Opportunities + "\n\n", Conditions, sub);
  }

  /** The main paragraph names the company. */
  lemma MainNamesCompany(company: string, dept: string, start: string, end: string, tenure: string)
    ensures Text.Contains(MainContent(company, dept, start, end, tenure), company)
  {
    var o := Opening(company);
    var details := Details(dept, start, end, tenure);
    Text.ContainsMiddle(OpeningText, company, ". ");
    Text.ContainsAppend(o, "\n\n", company);
    Text.ContainsAppend(o + "\n\n", Welcome, company);
    Text.ContainsAppend(o + "\n\n" + Welcome, "\n\nInternship Details:\n", company);
    Text.ContainsAppend(o + "\n\n" + Welcome + "\n\nInternship Details:\n", details, company);
    Text.ContainsAppend(o + "\n\n" + Welcome + "\n\nInternship Details:\n" + details, "\n\n", company);
    Text.ContainsAppend(o + "\n\n" + Welcome + "\n\nInternship Details:\n" + details + "\n\n", Opportunities, company);
    Text.ContainsAppend(o + "\n\n" + Welcome + "\n\nInternship Details:\n" + details + "\n\n" + Opportunities, "\n\n", company);
    Text.ContainsAppend(o + "\n\n" + Welcome + "\n\nInternship Details:\n" + details + "\n\n" + Opportunities + "\n\n", Conditions, company);
  }

  /**
   * The main paragraph names the company and lists the department, both
   * dates, the duration in months and the remote internship type.
   */
  lemma MainContentMentions(overrides: Object, candidate: Object, showDate: int -> string)
    ensures var main := OfferContentFor(overrides, candidate, showDate).mainContent;
            && Text.Contains(main, Letterhead.Field(Letterhead.CompanyDetails(overrides), "name", showDate))
            && Text.Contains(main, Line("department: ", Letterhead.Field(candidate, "departmentName", showDate)))
            && Text.Contains(main, Line("Start Date: ", Letterhead.Field(candidate, "startDate", showDate)))
            && Text.Contains(main, Line("End Date: ", Letterhead.Field(candidate, "endDate", showDate)))
            && Text.Contains(main, Line("Duration: ", Letterhead.Render(Tenure(candidate), showDate) + " months"))
            && Text.Contains(main, Line("Internship Type: ", "100% Remote/Online"))
  {
    var company := Letterhead.Field(Letterhead.CompanyDetails(overrides), "name", showDate);
    var dept := Letterhead.Field(candidate, "departmentName", showDate);
    var start := Letterhead.Field(candidate, "startDate", showDate);
    var end := Letterhead.Field(candidate, "endDate", showDate);
    var tenure := Letterhead.Render(Tenure(candidate), showDate);
    MainNamesCompany(company, dept, start, end, tenure);
    DetailsMention(dept, start, end, tenure);
    DetailsInMain(company, dept, start, end, tenure, Line("department: ", dept));
    DetailsInMain(company, dept, start, end, tenure, Line("Start Date: ", start));
    DetailsInMain(company, dept, start, end, tenure, Line("End Date: ", end));
    DetailsInMain(company, dept, start, end, tenure, Line("Duration: ", tenure + " months"));
    DetailsInMain(company, dept, start, end, tenure, Line("Internship Type: ", "100% Remote/Online"));
  }

  /** The greeting addresses the candidate by name. */
  lemma GreetingNamesCandidate(overrides: Object, candidate: Object, showDate: int -> string)
    ensures var g := OfferContentFor(overrides, candidate, showDate).congratulatoryMessage;
            Text.StartsWith(g, Congratulations) && Text.Contains(g, Letterhead.Field(candidate, "name", showDate))
  {
    var name := Letterhead.Field(candidate, "name", showDate);
    Text.ContainsMiddle(Congratulations, name, "!");
    Text.StartsWithAppend(Congratulations + name, "!", Congratulations);
  }

  /** A candidate without a tenure is offered a one-month internship. */
  lemma MissingTenureIsOneMonth(overrides: Object, candidate: Object, showDate: int -> string)
    requires "tenure" !in candidate
    ensures Text.Contains(OfferContentFor(overrides, candidate, showDate).mainContent, Line("Duration: ", "1 months"))
  {
    assert Tenure(candidate) == Num(1);
    assert Text.NatToString(1) == "1";
    assert Letterhead.Render(Num(1), showDate) == "1";
    assert "1" + " months" == "1 months";
    MainContentMentions(overrides, candidate, showDate);
  }

  /** The legal disclaimer names the company that makes the offer. */
  lemma DisclaimerNamesCompany(overrides: Object, candidate: Object, showDate: int -> string)
    ensures Text.Contains(OfferContentFor(overrides, candidate, showDate).legalDisclaimer,
                          Letterhead.Field(Letterhead.CompanyDetails(overrides), "name", showDate))
  {
    var company := Letterhead.Field(Letterhead.CompanyDetails(overrides), "name", showDate);
    Text.ContainsMiddle(DisclaimerOpening, company, DisclaimerClosing);
  }

  /** A generator built without overrides writes the foundation's name into the letter. */
  lemma DefaultCompanyIsFoundation(candidate: Object, showDate: int -> string)
    ensures Text.Contains(OfferContentFor(map[], candidate, showDate).mainContent, Letterhead.DefaultName)
  {
    assert Letterhead.CompanyDetails(map[])["name"] == Str(Letterhead.DefaultName);
    assert Letterhead.Field(Letterhead.CompanyDetails(map[]), "name", showDate) == Letterhead.DefaultName;
    MainContentMentions(map[], candidate, showDate);
  }
}

=== FILE: offer_letter_model.dfy ===
/**
 * The offer-letter schema (models/offerLetter.models.js): the shared
 * certificate rules without a `status` path. The pre-save hook and the
 * `isValid` and `canBeModified` predicates still read and write `status`,
 * which therefore lives only on the in-memory document.
 */
module OfferLetterModel {
  import opened Wrappers
  import opened Errors
  import Text
  import opened CertificateSchema

  /** The schema as declared. */
  const OfferLetter := Schema("OfferLetter", false)

  /** The schema with the `status` path the predicates rely on, declared as in the certificate schema. */
  const CorrectedOfferLetter := Schema("OfferLetter", true)

  /** `new offerletterModel(fields).save()` with the schema as declared. */
  function Create(fields: Document, emailOk: string -> bool, now: int): (r: Result<Document>)
    ensures r.Ok? <==> Acceptable(OfferLetter, Build(OfferLetter, fields), emailOk)
    ensures r.Err? ==> r.error.name == "ValidationError" && r.error.errors != []
    ensures r.Ok? ==> r.value.name == Some(Text.Trim(fields.name.value)) && 2 <= |r.value.name.value| <= 50
    ensures r.Ok? ==> r.value.startDate.Some? && r.value.endDate.Some? && r.value.startDate.value < r.value.endDate.value
    ensures r.Ok? && now > fields.endDate.value ==> r.value.status == Some("expired")
    ensures r.Ok? && now <= fields.endDate.value ==> r.value.status.None?
  {
    Save(OfferLetter, Build(OfferLetter, fields), emailOk, now)
  }

  /**
   * As declared, no offer letter is ever valid or modifiable: neither the
   * saved document nor the one read back has status "active".
   */
  lemma OfferLetterNeverValid(fields: Document, emailOk: string -> bool, now: int, later: int)
    requires Create(fields, emailOk, now).Ok?
    ensures var c := Create(fields, emailOk, now).value;
            && !IsValid(c, later) && !CanBeModified(c, later)
            && !IsValid(Persisted(OfferLetter, c), later) && !CanBeModified(Persisted(OfferLetter, c), later)
  {
  }

  /** `new offerletterModel(fields).save()` with the `status` path declared. */
  function CreateCorrected(fields: Document, emailOk: string -> bool, now: int): (r: Result<Document>)
    ensures r.Ok? <==> Acceptable(CorrectedOfferLetter, Build(CorrectedOfferLetter, fields), emailOk)
    ensures r.Ok? ==> r.value.status.Some? && r.value.status.value in StatusValues
    ensures r.Ok? ==> Persisted(CorrectedOfferLetter, r.value) == r.value
  {
    Save(CorrectedOfferLetter, Build(CorrectedOfferLetter, fields), emailOk, now)
  }

  /**
   * With the path declared, an offer letter saved without a status is valid,
   * when read back, at every instant of the internship up to its end, and
   * modifiable before it starts.
   */
  lemma CorrectedOfferLetterIsValid(fields: Document, emailOk: string -> bool, now: int, later: int)
    requires fields.status.None?
    requires CreateCorrected(fields, emailOk, now).Ok?
    requires now <= fields.endDate.value
    ensures var c := Persisted(CorrectedOfferLetter, CreateCorrected(fields, emailOk, now).value);
            && (fields.startDate.value <= later <= fields.endDate.value ==> IsValid(c, later))
            && (later < fields.startDate.value ==> CanBeModified(c, later))
  {
  }

  /** Declaring the path changes nothing else: both schemas accept the same documents when no status is given. */
  lemma CorrectionKeepsAcceptance(fields: Document, emailOk: string -> bool, now: int)
    requires fields.status.None?
    ensures Create(fields, emailOk, now).Ok? <==> CreateCorrected(fields, emailOk, now).Ok?
    ensures Create(fields, emailOk, now).Ok? ==>
      Create(fields, emailOk, now).value.(status := None) == CreateCorrected(fields, emailOk, now).value.(status := None)
  {
  }
}

=== FILE: project_controller.dfy ===
/**
 * Project overviews (controllers/projectoverview.controller.js): the
 * required-field gate, the duration default and the lookups by `overview`.
 * The overview schema cannot be loaded as written, so documents are plain
 * objects and whether a save succeeds is a parameter.
 */
module ProjectController {
  import opened Wrappers
  import opened Js
  import Seqs

  /** `requiredFields.every(field => !!body[field])`. */
  function ValidateFields(body: Object, fields: seq<string>): (r: bool)
    ensures r <==> forall i :: 0 <= i < |fields| ==> Truthy(Get(body, fields[i]))
  {
    if |fields| == 0 then true
    else Truthy(Get(body, fields[0])) && ValidateFields(body, fields[1..])
  }

  const AddFields := ["departmentName", "overview", "procedure"]
  const UpdateFields := ["overview", "internshipType", "startDate", "endDate", "projectDeadline", "procedure", "departmentName"]
  /** The paths `updateProject` sets: every required field but the `overview` it looks up by. */
  const SetFields := ["internshipType", "startDate", "endDate", "projectDeadline", "procedure", "departmentName"]

  const DefaultDuration := 3

  type Store = seq<Object>

  datatype Reply = Reply(status: int, error: Option<string>, message: Option<string>, project: Option<Object>)

  datatype Outcome = Outcome(store: Store, reply: Reply)

  function Refuse(store: Store, status: int, error: string): Outcome {
    Outcome(store, Reply(status, Some(error), None, None))
  }

  /** `findOne({ overview })`: the first document whose overview equals the given one. */
  function FindByOverview(store: Store, overview: JsValue): (r: Option<nat>)
    ensures r.Some? ==> r.value < |store| && Get(store[r.value], "overview") == overview
    ensures r.Some? ==> forall j :: 0 <= j < r.value ==> Get(store[j], "overview") != overview
    ensures r.None? <==> forall j :: 0 <= j < |store| ==> Get(store[j], "overview") != overview
  {
    Seqs.FindFirst(store, (d: Object) => Get(d, "overview") == overview)
  }

  /** The new project: the three required fields and `duration || 3`. */
  function NewProject(body: Object): (p: Object)
    ensures p.Keys == {"departmentName", "overview", "procedure", "duration"}
    ensures forall k :: k in AddFields ==> p[k] == Get(body, k)
    ensures Truthy(p["duration"])
    ensures Truthy(Get(body, "duration")) ==> p["duration"] == Get(body, "duration")
    ensures !Truthy(Get(body, "duration")) ==> p["duration"] == Num(DefaultDuration)
  {
    var duration := Get(body, "duration");
    map["departmentName" := Get(body, "departmentName"),
        "overview" := Get(body, "overview"),
        "procedure" := Get(body, "procedure"),
        "duration" := if Truthy(duration) then duration else Num(DefaultDuration)]
  }

  /** `addProject`: 400 unless the three required fields are given; 201 with the saved project. */
  function AddProject(store: Store, body: Object, saved: bool): (o: Outcome)
    ensures !ValidateFields(body, AddFields) ==> o == Refuse(store, 400, "Required fields missing")
    ensures o.reply.status in {201, 400, 500}
    ensures o.reply.status != 201 ==> o.store == store
    ensures o.reply.status == 201 <==> ValidateFields(body, AddFields) && saved
    ensures o.reply.status == 201 ==> o.store == store + [NewProject(body)] && o.reply.project == Some(NewProject(body))
  {
    if !ValidateFields(body, AddFields) then Refuse(store, 400, "Required fields missing")
    else if !saved then Refuse(store, 500, "Server error")
    else Outcome(store + [NewProject(body)], Reply(201, None, None, Some(NewProject(body))))
  }

  /** `getProject`: 400 without an overview, 404 when none matches, else the first match. */
  function GetProject(store: Store, body: Object): (r: Reply)
    ensures !Truthy(Get(body, "overview")) ==> r == Reply(400, Some("Overview is required"), None, None)
    ensures r.status in {200, 400, 404}
    ensures r.status == 404 <==> Truthy(Get(body, "overview")) && FindByOverview(store, Get(body, "overview")).None?
    ensures r.status == 200 ==> r.project == Some(store[FindByOverview(store, Get(body, "overview")).value])
  {
    var overview := Get(body, "overview");
    if !Truthy(overview) then Reply(400, Some("Overview is required"), None, None)
    else match FindByOverview(store, overview)
      case None => Reply(404, Some("Project not found"), None, None)
      case Some(i) => Reply(200, None, None, Some(store[i]))
  }

  /** The `$set` of `updateProject`: the six paths take the body's values, every other path stays. */
  function SetPaths(doc: Object, body: Object): (r: Object)
    ensures r.Keys == doc.Keys + set k | k in SetFields
    ensures forall k :: k in SetFields ==> r[k] == Get(body, k)
    ensures forall k :: k in doc && k !in SetFields ==> r[k] == doc[k]
    ensures Get(r, "overview") == Get(doc, "overview")
  {
    doc + map k | k in SetFields :: Get(body, k)
  }

  /** `updateProject`: 400 unless all seven fields are given, 404 when no overview matches. */
  function UpdateProject(store: Store, body: Object): (o: Outcome)
    ensures !ValidateFields(body, UpdateFields) ==> o == Refuse(store, 400, "Required fields missing")
    ensures o.reply.status in {200, 400, 404}
    ensures o.reply.status != 200 ==> o.store == store
    ensures o.reply.status == 404 <==> ValidateFields(body, UpdateFields) && FindByOverview(store, Get(body, "overview")).None?
    ensures o.reply.status == 200 ==>
      var i := FindByOverview(store, Get(body, "overview")).value;
      o.store == store[i := SetPaths(store[i], body)] && o.reply.project == Some(o.store[i])
  {
    if !ValidateFields(body, UpdateFields) then Refuse(store, 400, "Required fields missing")
    else match FindByOverview(store, Get(body, "overview"))
      case None => Refuse(store, 404, "Project not found")
      case Some(i) =>
        var updated := SetPaths(store[i], body);
        Outcome(store[i := updated], Reply(200, None, None, Some(updated)))
  }

  /** `deleteProject`: 400 without an overview, 404 when none matches, else the first match is removed. */
  function DeleteProject(store: Store, body: Object): (o: Outcome)
    ensures !Truthy(Get(body, "overview")) ==> o == Refuse(store, 400, "Overview is required")
    ensures o.reply.status in {200, 400, 404}
    ensures o.reply.status != 200 ==> o.store == store
    ensures o.reply.status == 404 <==> Truthy(Get(body, "overview")) && FindByOverview(store, Get(body, "overview")).None?
    ensures o.reply.status == 200 ==>
      var i := FindByOverview(store, Get(body, "overview")).value;
      o.store == store[..i] + store[i + 1..] && o.reply.message == Some("Project deleted successfully")
  {
    var overview := Get(body, "overview");
    if !Truthy(overview) then Refuse(store, 400, "Overview is required")
    else match FindByOverview(store, overview)
      case None => Refuse(store, 404, "Project not found")
      case Some(i) => Outcome(store[..i] + store[i + 1..], Reply(200, None, Some("Project deleted successfully"), None))
  }

  /**
   * Deleting removes exactly the project found: when no other document shares
   * its overview, reading that overview back afterwards answers 404.
   */
  lemma DeletedProjectIsGone(store: Store, body: Object)
    requires DeleteProject(store, body).reply.status == 200
    requires forall j :: 0 <= j < |store| && j != FindByOverview(store, Get(body, "overview")).value ==>
      Get(store[j], "overview") != Get(body, "overview")
    ensures |DeleteProject(store, body).store| == |store| - 1
    ensures GetProject(DeleteProject(store, body).store, map["overview" := Get(body, "overview")]).status == 404
  {
    var overview := Get(body, "overview");
    var i := FindByOverview(store, overview).value;
    var s := DeleteProject(store, body).store;
    forall j | 0 <= j < |s| ensures Get(s[j], "overview") != overview {
      if j < i {
        assert s[j] == store[j];
      } else {
        assert s[j] == store[j + 1];
      }
    }
    assert Get(map["overview" := overview], "overview") == overview;
  }

  /** An update passes the add gate's fields too: the seven required fields include the three. */
  lemma UpdateGateImpliesAddGate(body: Object)
    requires ValidateFields(body, UpdateFields)
    ensures ValidateFields(body, AddFields)
  {
    assert AddFields == [UpdateFields[6], UpdateFields[0], UpdateFields[5]];
  }

  /** An added project can be read back by its overview. */
  lemma AddedProjectIsFound(store: Store, body: Object)
    requires AddProject(store, body, true).reply.status == 201
    ensures GetProject(AddProject(store, body, true).store, map["overview" := Get(body, "overview")]).status == 200
  {
    var s := AddProject(store, body, true).store;
    assert Get(s[|store|], "overview") == Get(body, "overview");
    assert Truthy(Get(body, AddFields[1]));
  }

  /** A document with the overview, preceded by none, is the one the lookup finds. */
  lemma OverviewFoundAt(store: Store, overview: JsValue, k: nat)
    requires k < |store| && Get(store[k], "overview") == overview
    requires forall j :: 0 <= j < k ==> Get(store[j], "overview") != overview
    ensures FindByOverview(store, overview) == Some(k)
  {
    var r := FindByOverview(store, overview);
    assert !(r.value < k) && !(r.value > k);
  }

  /** An update is read back by a later lookup, since `overview` is not among the paths it sets. */
  lemma UpdatedProjectIsRead(store: Store, body: Object)
    requires UpdateProject(store, body).reply.status == 200
    ensures GetProject(UpdateProject(store, body).store, body) == Reply(200, None, None, UpdateProject(store, body).reply.project)
  {
    var overview := Get(body, "overview");
    var i := FindByOverview(store, overview).value;
    var s := UpdateProject(store, body).store;
    assert Truthy(Get(body, UpdateFields[0]));
    assert Get(s[i], "overview") == overview;
    assert forall j :: 0 <= j < i ==> s[j] == store[j];
    OverviewFoundAt(s, overview, i);
  }
}

=== FILE: seqs.dfy ===
/** Order-preserving filtering and first-match search, the `Array.prototype.filter` and `findOne` of the model. */
module Seqs {
  import opened Wrappers

  /** The elements of `s` satisfying `p`, in their original order. */
  function Filter<T>(s: seq<T>, p: T -> bool): (r: seq<T>)
    ensures |r| <= |s|
    ensures forall i :: 0 <= i < |r| ==> p(r[i]) && r[i] in s
    ensures forall x :: x in s && p(x) ==> x in r
  {
    if |s| == 0 then []
    else (if p(s[0]) then [s[0]] else []) + Filter(s[1..], p)
  }

  /** Filtering distributes over concatenation, so relative order is kept. */
  lemma {:induction false} FilterConcat<T>(a: seq<T>, b: seq<T>, p: T -> bool)
    ensures Filter(a + b, p) == Filter(a, p) + Filter(b, p)
  {
    if |a| == 0 {
      assert a + b == b;
    } else {
      assert (a + b)[1..] == a[1..] + b;
      FilterConcat(a[1..], b, p);
    }
  }

  /** Nothing is dropped when every element passes. */
  lemma {:induction false} FilterKeepsAll<T>(s: seq<T>, p: T -> bool)
    requires forall i :: 0 <= i < |s| ==> p(s[i])
    ensures Filter(s, p) == s
  {
    if |s| > 0 {
      FilterKeepsAll(s[1..], p);
    }
  }

  /** Filtering by a predicate and by its negation splits the sequence: no element is lost or duplicated. */
  lemma {:induction false} FilterPartition<T>(s: seq<T>, p: T -> bool, q: T -> bool)
    requires forall x :: q(x) == !p(x)
    ensures |Filter(s, p)| + |Filter(s, q)| == |s|
    ensures multiset(Filter(s, p)) + multiset(Filter(s, q)) == multiset(s)
  {
    if |s| > 0 {
      FilterPartition(s[1..], p, q);
      assert s == [s[0]] + s[1..];
    }
  }

  /** Count of elements satisfying `p`. */
  function Count<T>(s: seq<T>, p: T -> bool): nat {
    |Filter(s, p)|
  }

  /** The index of the first element satisfying `p`, as a `findOne` over a collection in insertion order. */
  function FindFirst<T>(s: seq<T>, p: T -> bool): (r: Option<nat>)
    ensures r.Some? ==> r.value < |s| && p(s[r.value])
    ensures r.Some? ==> forall j :: 0 <= j < r.value ==> !p(s[j])
    ensures r.None? <==> forall j :: 0 <= j < |s| ==> !p(s[j])
  {
    if |s| == 0 then None
    else if p(s[0]) then Some(0)
    else match FindFirst(s[1..], p)
      case None => None
      case Some(k) => Some(k + 1)
  }
}

=== FILE: submission_controller.dfy ===
/**
 * Weekly submission consolidation (controllers/submission.controller.js).
 *
 * The world is the list of stored submission records, in insertion order, and
 * the set of public ids the media host holds. Uploading is a function supplied
 * by the caller; the clock reading that names uploaded PDFs is a parameter, and
 * so is the `_id` a new record receives. The uploads of one call run
 * concurrently in the source; here they run in order as one atomic step.
 */
module SubmissionController {
  import opened Wrappers
  import opened Errors
  import opened SubmissionModel
  import UploadRules
  import MediaStore
  import Seqs
  import Text
  import ErrorHandler

  type FilePart = UploadRules.FilePart
  type PublicId = MediaStore.PublicId
  type UploadResult = MediaStore.UploadResult

  datatype World = World(records: seq<Submission>, live: set<PublicId>)

  /** The query fields and the grouped files of one `POST /submission`. */
  datatype SubmitRequest = SubmitRequest(
    userId: string,            // "" when absent
    departementId: string,
    weekNumber: Option<nat>,   // None when absent or empty
    notes: QueryList,
    links: QueryList,
    username: string,
    files: seq<FilePart>,      // `req.files.files`
    images: seq<FilePart>)     // `req.files.images`

  /**
   * A query field as the query-string parser delivers it: absent, given once
   * (a string), or repeated (an array of strings).
   */
  datatype QueryList = Absent | One(text: string) | Many(items: seq<string>)

  /**
   * `[...field]` on the update path. Spreading `undefined` throws, a lone string
   * spreads into its characters, and an array spreads into its elements.
   */
  function SpreadList(name: string, q: QueryList): (r: Result<seq<string>>)
    ensures r.Err? <==> q.Absent?
    ensures r.Err? ==> r.error == NotIterable(name)
    ensures q.One? ==> |r.value| == |q.text| && forall i :: 0 <= i < |q.text| ==> r.value[i] == [q.text[i]]
    ensures q.Many? ==> r.value == q.items
  {
    match q
    case Absent => Err(NotIterable(name))
    case One(text) => Ok(seq(|text|, i requires 0 <= i < |text| => [text[i]]))
    case Many(items) => Ok(items)
  }

  /**
   * The value a new record is constructed with, before the `[String]` cast:
   * an absent field is left out (so the schema default `[]` applies), a lone
   * string is cast to a one-element list, and an array is kept.
   */
  function InitList(q: QueryList): (r: Option<seq<string>>)
    ensures r.None? <==> q.Absent?
    ensures q.One? ==> r == Some([q.text])
    ensures q.Many? ==> r == Some(q.items)
  {
    match q
    case Absent => None
    case One(text) => Some([text])
    case Many(items) => Some(items)
  }

  /** One call to the media host: the target folder, the public id proposed for a PDF, the file. */
  datatype UploadCall = UploadCall(folder: string, publicIdHint: Option<string>, file: FilePart)

  /** One uploaded file: `{url, format, publicId}`, the format being the MIME subtype. */
  datatype Entry = Entry(url: string, format: Option<string>, publicId: PublicId)

  /** The world after the call, the host calls it issued, and the reply. */
  datatype SubmitOutcome = SubmitOutcome(world: World, uploads: seq<UploadCall>, deletes: seq<PublicId>, result: Result<Unit>)

  // ---------------------------------------------------------------------
  // Choosing and routing the files

  function IsKept(f: FilePart): bool {
    UploadRules.IsAllowedMime(f.mimetype)
  }

  /** The `files` field followed by the `images` field, keeping only PNG, JPEG and PDF. */
  function KeptFiles(req: SubmitRequest): (r: seq<FilePart>)
    ensures forall i :: 0 <= i < |r| ==> UploadRules.IsAllowedMime(r[i].mimetype)
  {
    Seqs.Filter(req.files + req.images, IsKept)
  }

  function ImagesFolder(userId: string): string {
    "submissions/" + userId + "/images"
  }

  function PdfsFolder(userId: string): string {
    "submissions/" + userId + "/pdfs"
  }

  predicate IsImageMime(m: string) {
    Text.StartsWith(m, "image/")
  }

  /** No character of `s` is `/` or `.`. */
  predicate PlainSuffix(s: string) {
    forall i :: 0 <= i < |s| ==> s[i] != '/' && s[i] != '.'
  }

  /** Index of the last `.` in `s`. */
  function LastDot(s: string): (r: Option<nat>)
    ensures r.Some? ==> r.value < |s| && s[r.value] == '.'
    ensures r.Some? ==> forall j :: r.value < j < |s| ==> s[j] != '.'
    ensures r.None? ==> forall j :: 0 <= j < |s| ==> s[j] != '.'
  {
    if |s| == 0 then None
    else if s[|s| - 1] == '.' then Some(|s| - 1)
    else LastDot(s[..|s| - 1])
  }

  /**
   * `name.replace(/\.[^/.]+$/, "")`: drops a final extension, a `.` followed by
   * one or more characters none of which is `/` or `.`.
   */
  function StripExtension(name: string): (r: string)
    ensures r <= name
    ensures r != name ==> |r| + 1 < |name| && name[|r|] == '.' && PlainSuffix(name[|r| + 1..])
    ensures r == name ==> forall i :: 0 <= i < |name| && name[i] == '.' ==> !(i + 1 < |name| && PlainSuffix(name[i + 1..]))
  {
    match LastDot(name)
    case None => name
    case Some(i) =>
      if i + 1 < |name| && PlainSuffix(name[i + 1..]) then name[..i]
      else
        forall k | 0 <= k < |name| && name[k] == '.' && k < i
          ensures !PlainSuffix(name[k + 1..])
        {
          assert name[k + 1..][i - k - 1] == '.';
        }
        name
  }

  /** The upload call for one kept file: images and PDFs go to separate per-user folders. */
  function CallFor(userId: string, now: nat, f: FilePart): (r: UploadCall)
    ensures r.file == f
    ensures r.folder == (if IsImageMime(f.mimetype) then ImagesFolder(userId) else PdfsFolder(userId))
    ensures r.publicIdHint.Some? <==> !IsImageMime(f.mimetype)
  {
    if IsImageMime(f.mimetype) then UploadCall(ImagesFolder(userId), None, f)
    else UploadCall(PdfsFolder(userId), Some(Text.NatToString(now) + "_" + StripExtension(f.originalName)), f)
  }

  function Calls(userId: string, now: nat, files: seq<FilePart>): (r: seq<UploadCall>)
    ensures |r| == |files|
    ensures forall i :: 0 <= i < |r| ==> r[i] == CallFor(userId, now, files[i])
    ensures forall i :: 0 <= i < |r| ==> r[i].file == files[i]
    ensures forall i :: 0 <= i < |r| ==>
      r[i].folder == (if IsImageMime(files[i].mimetype) then ImagesFolder(userId) else PdfsFolder(userId))
  {
    seq(|files|, i requires 0 <= i < |files| => CallFor(userId, now, files[i]))
  }

  function Results(calls: seq<UploadCall>, upload: UploadCall -> UploadResult): (r: seq<UploadResult>)
    ensures |r| == |calls|
    ensures forall i :: 0 <= i < |r| ==> r[i] == upload(calls[i])
  {
    seq(|calls|, i requires 0 <= i < |calls| => upload(calls[i]))
  }

  predicate AllUploaded(results: seq<UploadResult>) {
    forall i :: 0 <= i < |results| ==> results[i].Uploaded?
  }

  /** The public ids the host now holds because of this call. */
  function SuccessIds(results: seq<UploadResult>): set<PublicId> {
    set r | r in results && r.Uploaded? :: r.publicId
  }

  /** The error text of the first failed upload, in call order. */
  function FirstFailure(results: seq<UploadResult>): string
    requires !AllUploaded(results)
  {
    if results[0].UploadFailed? then results[0].error else FirstFailure(results[1..])
  }

  /** `file.mimetype.split("/")[1]`. */
  function Format(mimetype: string): Option<string> {
    Text.SplitPart(mimetype, "/", 1)
  }

  function Entries(calls: seq<UploadCall>, results: seq<UploadResult>): (r: seq<Entry>)
    requires |calls| == |results| && AllUploaded(results)
    ensures |r| == |calls|
    ensures forall i :: 0 <= i < |r| ==>
      r[i] == Entry(results[i].url, Format(calls[i].file.mimetype), results[i].publicId)
  {
    seq(|calls|, i requires 0 <= i < |calls| => Entry(results[i].url, Format(calls[i].file.mimetype), results[i].publicId))
  }

  /** Among the allowed types, the subtype is "pdf" exactly for `application/pdf`. */
  lemma FormatOfKept(m: string)
    requires UploadRules.IsAllowedMime(m)
    ensures Format(m) == Some("pdf") <==> m == "application/pdf"
  {
    if m == "image/png" {
      Text.SplitAroundChar("image", '/', "png");
      assert m == "image" + ['/'] + "png";
    } else if m == "image/jpeg" {
      Text.SplitAroundChar("image", '/', "jpeg");
      assert m == "image" + ['/'] + "jpeg";
    } else {
      Text.SplitAroundChar("application", '/', "pdf");
      assert m == "application" + ['/'] + "pdf";
    }
  }

  function IsPdfEntry(e: Entry): bool {
    e.format == Some("pdf")
  }

  function IsImageEntry(e: Entry): bool {
    e.format != Some("pdf")
  }

  /** `{url, publicId}` of each entry, in order. */
  function Refs(entries: seq<Entry>): (r: seq<FileRef>)
    ensures |r| == |entries|
    ensures forall i :: 0 <= i < |r| ==> r[i] == FileRef(entries[i].url, entries[i].publicId)
  {
    seq(|entries|, i requires 0 <= i < |entries| => FileRef(entries[i].url, entries[i].publicId))
  }

  /** `imageFiles`, as stored: the references of the entries whose format is not "pdf", in upload order. */
  function ImageRefs(entries: seq<Entry>): seq<FileRef> {
    Refs(Seqs.Filter(entries, IsImageEntry))
  }

  /** `pdfFiles`, as stored: the references of the entries whose format is "pdf", in upload order. */
  function PdfRefs(entries: seq<Entry>): seq<FileRef> {
    Refs(Seqs.Filter(entries, IsPdfEntry))
  }

  function EntryIds(entries: seq<Entry>): (r: seq<PublicId>)
    ensures |r| == |entries|
    ensures forall i :: 0 <= i < |r| ==> r[i] == entries[i].publicId
  {
    seq(|entries|, i requires 0 <= i < |entries| => entries[i].publicId)
  }

  /** `Submission.findOne({userId})`: the first record of the user. */
  function FindByUser(records: seq<Submission>, userId: string): (r: Option<nat>)
    ensures r.Some? ==> r.value < |records| && records[r.value].userId == userId
    ensures r.Some? ==> forall j :: 0 <= j < r.value ==> records[j].userId != userId
    ensures r.None? ==> forall j :: 0 <= j < |records| ==> records[j].userId != userId
  {
    Seqs.FindFirst(records, (s: Submission) => s.userId == userId)
  }

  // ---------------------------------------------------------------------
  // createSubmission

  const MissingFieldsMessage := "User ID and Week Number are required."
  const NoValidFileMessage := "No valid file types provided. Only PNG, JPEG, and PDF are allowed."
  const DuplicateWeekMessage := "Submission for this week already exists."

  /** Both required query fields are present. */
  predicate HasRequiredFields(req: SubmitRequest) {
    req.userId != "" && req.weekNumber.Some?
  }

  /** The record after a new week is merged into it: everything appended, nothing earlier touched. */
  function MergeWeek(rec: Submission, week: nat, images: seq<FileRef>, pdfs: seq<FileRef>, links: seq<string>, notes: seq<string>): (r: Submission)
    ensures r.id == rec.id && r.userId == rec.userId && r.username == rec.username && r.departementId == rec.departementId
    ensures |r.completedWeek| == |rec.completedWeek| + 1 && |r.images| == |rec.images| + |images| && |r.pdf| == |rec.pdf| + |pdfs|
    ensures |r.links| == |rec.links| + |links| && |r.notes| == |rec.notes| + |notes|
    ensures r.completedWeek[..|rec.completedWeek|] == rec.completedWeek && r.completedWeek[|rec.completedWeek|..] == [week]
    ensures r.images[..|rec.images|] == rec.images && r.images[|rec.images|..] == images
    ensures r.pdf[..|rec.pdf|] == rec.pdf && r.pdf[|rec.pdf|..] == pdfs
    ensures r.links[..|rec.links|] == rec.links && r.links[|rec.links|..] == links
    ensures r.notes[..|rec.notes|] == rec.notes && r.notes[|rec.notes|..] == notes
  {
    rec.(completedWeek := rec.completedWeek + [week], images := rec.images + images, pdf := rec.pdf + pdfs,
         links := rec.links + links, notes := rec.notes + notes)
  }

  /**
   * The update path of a stored record: the week and this call's files are
   * pushed, `links` and then `notes` are spread, and the record is validated
   * and saved in place.
   */
  function UpdateRecord(records: seq<Submission>, k: nat, week: nat, images: seq<FileRef>, pdfs: seq<FileRef>,
                        req: SubmitRequest): (r: Result<seq<Submission>>)
    requires k < |records|
    ensures req.links.Absent? ==> r == Err(NotIterable("links"))
    ensures !req.links.Absent? && req.notes.Absent? ==> r == Err(NotIterable("notes"))
    ensures !req.links.Absent? && !req.notes.Absent? ==>
      var merged := MergeWeek(records[k], week, images, pdfs, SpreadList("links", req.links).value,
                              SpreadList("notes", req.notes).value);
      && (r.Ok? <==> records[k].username != "")
      && (r.Ok? ==> r.value == records[k := merged])
      && (r.Err? ==> r.error.name == "ValidationError")
  {
    match SpreadList("links", req.links)
    case Err(e) => Err(e)
    case Ok(links) =>
      match SpreadList("notes", req.notes)
      case Err(e) => Err(e)
      case Ok(notes) =>
        var updated := MergeWeek(records[k], week, images, pdfs, links, notes);
        match Validate(updated)
        case Some(e) => Err(e)
        case None => Ok(records[k := updated])
  }

  /** After every upload succeeded: the duplicate-week check, then the merge or the new record, then the save. */
  function Consolidate(w: World, req: SubmitRequest, calls: seq<UploadCall>, results: seq<UploadResult>, newId: string): (o: SubmitOutcome)
    requires HasRequiredFields(req)
    requires |calls| == |results| && AllUploaded(results)
    ensures o.uploads == calls
    ensures o.result.Err? ==> o.world.records == w.records
    ensures o.deletes != [] ==> o.result.Err?
  {
    var live := w.live + SuccessIds(results);
    var entries := Entries(calls, results);
    var images := ImageRefs(entries);
    var pdfs := PdfRefs(entries);
    var week := req.weekNumber.value;
    match FindByUser(w.records, req.userId)
    case Some(k) =>
      var rec := w.records[k];
      if week in rec.completedWeek then
        var ids := EntryIds(entries);
        SubmitOutcome(World(w.records, MediaStore.DeleteAll(live, ids)), calls, ids,
          Err(CustomError(DuplicateWeekMessage, 400)))
      else
        (match UpdateRecord(w.records, k, week, images, pdfs, req)
         case Err(e) => SubmitOutcome(World(w.records, live), calls, [], Err(e))
         case Ok(records) => SubmitOutcome(World(records, live), calls, [], Ok(Unit)))
    case None =>
      var created := NewSubmission(newId, SubmissionInit(req.userId, req.username, req.departementId,
        Some([week]), Some(images), Some(pdfs), InitList(req.links), InitList(req.notes)));
      match Validate(created)
      case Some(e) => SubmitOutcome(World(w.records, live), calls, [], Err(e))
      case None => SubmitOutcome(World(w.records + [created], live), calls, [], Ok(Unit))
  }

  /**
   * `createSubmission`. Missing fields and the absence of any allowed file are
   * rejected with 400 before anything is uploaded; every kept file is then
   * uploaded, images and PDFs to their own folders.
   */
  function CreateSubmission(w: World, req: SubmitRequest, upload: UploadCall -> UploadResult, now: nat, newId: string): (o: SubmitOutcome)
    ensures !HasRequiredFields(req) ==>
      o == SubmitOutcome(w, [], [], Err(CustomError(MissingFieldsMessage, 400)))
    ensures HasRequiredFields(req) && |KeptFiles(req)| == 0 ==>
      o == SubmitOutcome(w, [], [], Err(CustomError(NoValidFileMessage, 400)))
    ensures HasRequiredFields(req) ==> |o.uploads| == |KeptFiles(req)|
    ensures forall i :: 0 <= i < |o.uploads| ==> o.uploads[i].file == KeptFiles(req)[i]
    ensures forall i :: 0 <= i < |o.uploads| ==>
      o.uploads[i].folder == (if IsImageMime(o.uploads[i].file.mimetype) then ImagesFolder(req.userId) else PdfsFolder(req.userId))
    ensures o.result.Err? ==> o.world.records == w.records
    ensures o.deletes != [] ==> o.result.Err?
  {
    if !HasRequiredFields(req) then SubmitOutcome(w, [], [], Err(CustomError(MissingFieldsMessage, 400)))
    else
      if |KeptFiles(req)| == 0 then SubmitOutcome(w, [], [], Err(CustomError(NoValidFileMessage, 400)))
      else UploadStage(w, req, upload, now, newId)
  }

  /** Past both 400 guards: one upload per kept file, then the failure reply or the consolidation. */
  function UploadStage(w: World, req: SubmitRequest, upload: UploadCall -> UploadResult, now: nat, newId: string): (o: SubmitOutcome)
    requires HasRequiredFields(req)
    ensures o.uploads == Calls(req.userId, now, KeptFiles(req))
    ensures o.result.Err? ==> o.world.records == w.records
    ensures o.deletes != [] ==> o.result.Err?
  {
    var calls := Calls(req.userId, now, KeptFiles(req));
    var results := Results(calls, upload);
    if !AllUploaded(results) then UploadFailure(w, calls, results)
    else Consolidate(w, req, calls, results, newId)
  }

  /** A failed upload answers 500; the uploads that succeeded stay on the host and no record changes. */
  function UploadFailure(w: World, calls: seq<UploadCall>, results: seq<UploadResult>): (o: SubmitOutcome)
    requires !AllUploaded(results)
    ensures o.uploads == calls && o.deletes == [] && o.world.records == w.records
    ensures o.world.live == w.live + SuccessIds(results)
    ensures o.result.Err? && o.result.error.statusCode == Some(500)
  {
    SubmitOutcome(World(w.records, w.live + SuccessIds(results)), calls, [],
      Err(CustomError("Failed to upload file: " + FirstFailure(results), 500)))
  }

  // ---------------------------------------------------------------------
  // What one createSubmission call does to the world

  /** The host's answers for the kept files of `req`, in call order. */
  function UploadsOf(req: SubmitRequest, upload: UploadCall -> UploadResult, now: nat): seq<UploadResult> {
    Results(Calls(req.userId, now, KeptFiles(req)), upload)
  }

  /** The entries of a call whose uploads all succeeded: one per kept file, in upload order. */
  function EntriesOf(req: SubmitRequest, upload: UploadCall -> UploadResult, now: nat): (r: seq<Entry>)
    requires AllUploaded(UploadsOf(req, upload, now))
    ensures |r| == |KeptFiles(req)|
    ensures forall i :: 0 <= i < |r| ==>
      var u := upload(CallFor(req.userId, now, KeptFiles(req)[i]));
      r[i] == Entry(u.url, Format(KeptFiles(req)[i].mimetype), u.publicId)
  {
    Entries(Calls(req.userId, now, KeptFiles(req)), UploadsOf(req, upload, now))
  }

  /** The entries routed to the PDFs are exactly the uploads of the kept PDF files. */
  lemma PdfEntriesArePdfFiles(req: SubmitRequest, upload: UploadCall -> UploadResult, now: nat)
    requires AllUploaded(UploadsOf(req, upload, now))
    ensures forall i :: 0 <= i < |KeptFiles(req)| ==>
      (IsPdfEntry(EntriesOf(req, upload, now)[i]) <==> KeptFiles(req)[i].mimetype == "application/pdf")
  {
    var es := EntriesOf(req, upload, now);
    forall i | 0 <= i < |KeptFiles(req)|
      ensures IsPdfEntry(es[i]) <==> KeptFiles(req)[i].mimetype == "application/pdf"
    {
      FormatOfKept(KeptFiles(req)[i].mimetype);
    }
  }

  /** The request passes both 400 guards and every upload succeeds. */
  predicate UploadsSucceed(req: SubmitRequest, upload: UploadCall -> UploadResult, now: nat) {
    HasRequiredFields(req) && |KeptFiles(req)| > 0 && AllUploaded(UploadsOf(req, upload, now))
  }

  /** The user's stored record already lists the requested week. */
  predicate WeekTaken(w: World, req: SubmitRequest)
    requires HasRequiredFields(req)
  {
    match FindByUser(w.records, req.userId)
    case Some(k) => req.weekNumber.value in w.records[k].completedWeek
    case None => false
  }

  /** The host handed out ids it did not hold before. */
  predicate FreshIds(w: World, results: seq<UploadResult>) {
    SuccessIds(results) !! w.live
  }

  function EntrySet(entries: seq<Entry>): set<PublicId> {
    set e | e in entries :: e.publicId
  }

  lemma EntriesCarrySuccessIds(calls: seq<UploadCall>, results: seq<UploadResult>)
    requires |calls| == |results| && AllUploaded(results)
    ensures EntrySet(Entries(calls, results)) == SuccessIds(results)
    ensures MediaStore.Ids(EntryIds(Entries(calls, results))) == SuccessIds(results)
  {
    var es := Entries(calls, results);
    forall x | x in SuccessIds(results) ensures x in EntrySet(es) && x in MediaStore.Ids(EntryIds(es)) {
      var r :| r in results && r.Uploaded? && r.publicId == x;
      var i :| 0 <= i < |results| && results[i] == r;
      assert es[i].publicId == x;
      assert EntryIds(es)[i] == x;
    }
  }

  lemma FilteredRefIds(entries: seq<Entry>, p: Entry -> bool)
    ensures RefIds(Refs(Seqs.Filter(entries, p))) <= EntrySet(entries)
  {
    var kept := Seqs.Filter(entries, p);
    forall x | x in RefIds(Refs(kept)) ensures x in EntrySet(entries) {
      var r :| r in Refs(kept) && r.publicId == x;
      var i :| 0 <= i < |kept| && Refs(kept)[i] == r;
      assert kept[i] in entries;
    }
  }

  /** Each entry is routed on its own: a "pdf" entry to the PDFs, any other to the images. */
  lemma RouteOne(e: Entry)
    ensures ImageRefs([e]) == (if e.format == Some("pdf") then [] else [FileRef(e.url, e.publicId)])
    ensures PdfRefs([e]) == (if e.format == Some("pdf") then [FileRef(e.url, e.publicId)] else [])
  {
    assert [e][1..] == [];
  }

  /** Routing keeps upload order: the references of a concatenation are those of its parts, concatenated. */
  lemma RouteConcat(a: seq<Entry>, b: seq<Entry>)
    ensures ImageRefs(a + b) == ImageRefs(a) + ImageRefs(b)
    ensures PdfRefs(a + b) == PdfRefs(a) + PdfRefs(b)
  {
    Seqs.FilterConcat(a, b, IsImageEntry);
    Seqs.FilterConcat(a, b, IsPdfEntry);
    RefsConcat(Seqs.Filter(a, IsImageEntry), Seqs.Filter(b, IsImageEntry));
    RefsConcat(Seqs.Filter(a, IsPdfEntry), Seqs.Filter(b, IsPdfEntry));
  }

  lemma RefsConcat(a: seq<Entry>, b: seq<Entry>)
    ensures Refs(a + b) == Refs(a) + Refs(b)
  {
    assert forall i :: 0 <= i < |a| + |b| ==> Refs(a + b)[i] == (Refs(a) + Refs(b))[i];
  }

  /**
   * Each uploaded file becomes exactly one image reference or one PDF
   * reference: no file is lost or stored twice.
   */
  lemma {:induction false} SplitCoversEntries(entries: seq<Entry>)
    ensures |ImageRefs(entries)| + |PdfRefs(entries)| == |entries|
    ensures multiset(ImageRefs(entries)) + multiset(PdfRefs(entries)) == multiset(Refs(entries))
  {
    if |entries| > 0 {
      var rest := entries[1..];
      assert entries == [entries[0]] + rest;
      SplitCoversEntries(rest);
      SplitStep(entries[0], rest);
    }
    assert |multiset(ImageRefs(entries))| + |multiset(PdfRefs(entries))| == |multiset(Refs(entries))|;
  }

  /** Putting one entry in front of the others keeps the two routed lists covering all references. */
  lemma SplitStep(e: Entry, rest: seq<Entry>)
    requires multiset(ImageRefs(rest)) + multiset(PdfRefs(rest)) == multiset(Refs(rest))
    ensures multiset(ImageRefs([e] + rest)) + multiset(PdfRefs([e] + rest)) == multiset(Refs([e] + rest))
  {
    var ref := FileRef(e.url, e.publicId);
    RouteConcat([e], rest);
    RouteOne(e);
    RefsConcat([e], rest);
    assert Refs([e]) == [ref];
    ConsStep(ref, e.format == Some("pdf"), ImageRefs(rest), PdfRefs(rest), Refs(rest));
  }

  /** One more reference, routed to one side, keeps the two sides covering the whole. */
  lemma ConsStep(ref: FileRef, toPdf: bool, images: seq<FileRef>, pdfs: seq<FileRef>, all: seq<FileRef>)
    requires multiset(images) + multiset(pdfs) == multiset(all)
    ensures var i := if toPdf then images else [ref] + images;
            var p := if toPdf then [ref] + pdfs else pdfs;
            multiset(i) + multiset(p) == multiset([ref] + all)
  {
  }

  /**
   * A second submission for a week the user already completed is refused with
   * 400, and the files uploaded for it are deleted again: the store ends as it
   * began and no record changes.
   */
  lemma DuplicateWeekLeavesNoTrace(w: World, req: SubmitRequest, upload: UploadCall -> UploadResult, now: nat, newId: string)
    requires UploadsSucceed(req, upload, now) && WeekTaken(w, req)
    requires FreshIds(w, UploadsOf(req, upload, now))
    ensures CreateSubmission(w, req, upload, now, newId).world == w
    ensures CreateSubmission(w, req, upload, now, newId).result == Err(CustomError(DuplicateWeekMessage, 400))
    ensures MediaStore.Ids(CreateSubmission(w, req, upload, now, newId).deletes) == SuccessIds(UploadsOf(req, upload, now))
  {
    var calls := Calls(req.userId, now, KeptFiles(req));
    var results := UploadsOf(req, upload, now);
    EntriesCarrySuccessIds(calls, results);
    assert (w.live + SuccessIds(results)) - SuccessIds(results) == w.live;
  }

  /**
   * A new week for a user who already has a record, with both list fields
   * given, extends that record: the week is appended, the images and the PDFs
   * of this call are appended, in upload order, after the stored ones, so are
   * the spread links and notes, and no other record changes.
   */
  lemma NewWeekExtendsRecord(w: World, req: SubmitRequest, upload: UploadCall -> UploadResult, now: nat, newId: string, k: nat)
    requires UploadsSucceed(req, upload, now) && !WeekTaken(w, req)
    requires FindByUser(w.records, req.userId) == Some(k) && w.records[k].username != ""
    ensures var o := CreateSubmission(w, req, upload, now, newId);
            o.result == Ok(Unit) <==> !req.links.Absent? && !req.notes.Absent?
    ensures var o := CreateSubmission(w, req, upload, now, newId);
            var es := EntriesOf(req, upload, now);
            o.result == Ok(Unit) ==>
            && o.world.live == w.live + SuccessIds(UploadsOf(req, upload, now))
            && o.world.records == w.records[k := o.world.records[k]]
            && o.world.records[k] == w.records[k].(
                 completedWeek := w.records[k].completedWeek + [req.weekNumber.value],
                 images := w.records[k].images + ImageRefs(es),
                 pdf := w.records[k].pdf + PdfRefs(es),
                 links := w.records[k].links + SpreadList("links", req.links).value,
                 notes := w.records[k].notes + SpreadList("notes", req.notes).value)
  {
  }

  /**
   * On the update path an absent `links` or `notes` field makes the spread
   * throw after every upload has succeeded: the reply is 500, no record
   * changes, and this call's uploads stay on the host, deleted by no one.
   */
  lemma MissingListFailsUpdate(w: World, req: SubmitRequest, upload: UploadCall -> UploadResult, now: nat, newId: string,
                               development: bool, stack: string)
    requires UploadsSucceed(req, upload, now) && !WeekTaken(w, req)
    requires FindByUser(w.records, req.userId).Some?
    requires req.links.Absent? || req.notes.Absent?
    ensures var o := CreateSubmission(w, req, upload, now, newId);
            && o.world == World(w.records, w.live + SuccessIds(UploadsOf(req, upload, now)))
            && o.deletes == []
            && o.result == Err(NotIterable(if req.links.Absent? then "links" else "notes"))
            && ErrorHandler.GlobalErrorHandler(o.result.error, development, stack).status == 500
  {
  }

  /**
   * The first submission of a user appends one record: the new `_id`, the
   * user's identity fields, this week alone, this call's images and PDFs in
   * upload order, and the links and notes as the `[String]` cast stores them
   * (an absent field as the empty list, a lone string as a one-element list).
   */
  lemma FirstSubmissionCreatesRecord(w: World, req: SubmitRequest, upload: UploadCall -> UploadResult, now: nat, newId: string)
    requires UploadsSucceed(req, upload, now) && FindByUser(w.records, req.userId).None?
    requires req.username != ""
    ensures var o := CreateSubmission(w, req, upload, now, newId);
            var es := EntriesOf(req, upload, now);
            && o.result == Ok(Unit)
            && o.world.live == w.live + SuccessIds(UploadsOf(req, upload, now))
            && o.world.records == w.records + [Submission(newId, req.userId, req.username, req.departementId,
                 [req.weekNumber.value], ImageRefs(es), PdfRefs(es),
                 InitList(req.links).GetOr([]), InitList(req.notes).GetOr([]))]
  {
  }

  /**
   * One lone `links` value is stored differently on the two paths: a new
   * record keeps the string whole, an update appends its characters one by one.
   */
  lemma LoneValueSplitsOnUpdate(text: string)
    requires |text| > 1
    ensures InitList(One(text)) == Some([text])
    ensures SpreadList("links", One(text)).value != [text]
    ensures |SpreadList("links", One(text)).value| == |text|
  {
  }

  /**
   * A failed upload is reported with 500 and nothing is rolled back: the files
   * of the same call that did upload stay on the host, referenced by no record.
   */
  lemma FailedUploadKeepsTheOthers(w: World, req: SubmitRequest, upload: UploadCall -> UploadResult, now: nat, newId: string)
    requires HasRequiredFields(req) && |KeptFiles(req)| > 0 && !AllUploaded(UploadsOf(req, upload, now))
    ensures CreateSubmission(w, req, upload, now, newId).world == World(w.records, w.live + SuccessIds(UploadsOf(req, upload, now)))
    ensures CreateSubmission(w, req, upload, now, newId).result.Err?
    ensures CreateSubmission(w, req, upload, now, newId).result.error.statusCode == Some(500)
    ensures CreateSubmission(w, req, upload, now, newId).deletes == []
  {
  }

  /**
   * A record that fails validation (no username) is not stored, but its files
   * were uploaded before the save and stay on the host.
   */
  lemma InvalidRecordKeepsUploads(w: World, req: SubmitRequest, upload: UploadCall -> UploadResult, now: nat, newId: string)
    requires UploadsSucceed(req, upload, now) && FindByUser(w.records, req.userId).None? && req.username == ""
    ensures CreateSubmission(w, req, upload, now, newId).world == World(w.records, w.live + SuccessIds(UploadsOf(req, upload, now)))
    ensures CreateSubmission(w, req, upload, now, newId).result.Err?
    ensures CreateSubmission(w, req, upload, now, newId).result.error.name == "ValidationError"
  {
  }

  // ---------------------------------------------------------------------
  // The store invariant

  /**
   * Every stored record references only live files, no two records share a
   * user, an `_id` or a file, and every stored record has a username.
   */
  predicate Consistent(w: World) {
    && (forall i :: 0 <= i < |w.records| ==> Referenced(w.records[i]) <= w.live)
    && (forall i :: 0 <= i < |w.records| ==> w.records[i].username != "")
    && (forall i, j :: 0 <= i < j < |w.records| ==>
          && w.records[i].userId != w.records[j].userId
          && w.records[i].id != w.records[j].id
          && Referenced(w.records[i]) !! Referenced(w.records[j]))
  }

  predicate NewRecordId(w: World, newId: string) {
    forall i :: 0 <= i < |w.records| ==> w.records[i].id != newId
  }

  lemma MergeReferences(rec: Submission, week: nat, images: seq<FileRef>, pdfs: seq<FileRef>, links: seq<string>, notes: seq<string>)
    ensures Referenced(MergeWeek(rec, week, images, pdfs, links, notes)) == Referenced(rec) + RefIds(images) + RefIds(pdfs)
  {
    var m := MergeWeek(rec, week, images, pdfs, links, notes);
    assert m.images == rec.images + images;
    assert m.pdf == rec.pdf + pdfs;
  }

  /** Replacing one record by a version that keeps its user, `_id` and username and adds only new files. */
  lemma ReplacePreserves(w: World, k: nat, updated: Submission, added: set<PublicId>)
    requires Consistent(w) && k < |w.records| && added !! w.live
    requires Referenced(updated) <= Referenced(w.records[k]) + added
    requires updated.userId == w.records[k].userId && updated.id == w.records[k].id && updated.username == w.records[k].username
    ensures Consistent(World(w.records[k := updated], w.live + added))
  {
    var rs := w.records[k := updated];
    forall i, j | 0 <= i < j < |rs| ensures Referenced(rs[i]) !! Referenced(rs[j]) {
      if i == k {
        assert Referenced(rs[j]) <= w.live;
      } else if j == k {
        assert Referenced(rs[i]) <= w.live;
      }
    }
  }

  /** Appending a record of a new user, with a new `_id`, a username and only new files. */
  lemma AppendPreserves(w: World, created: Submission, added: set<PublicId>)
    requires Consistent(w) && added !! w.live && Referenced(created) <= added && created.username != ""
    requires forall i :: 0 <= i < |w.records| ==> w.records[i].userId != created.userId && w.records[i].id != created.id
    ensures Consistent(World(w.records + [created], w.live + added))
  {
    var rs := w.records + [created];
    forall i, j | 0 <= i < j < |rs| ensures Referenced(rs[i]) !! Referenced(rs[j]) {
      if j == |w.records| {
        assert Referenced(rs[i]) <= w.live;
      }
    }
  }

  lemma ConsolidatePreserves(w: World, req: SubmitRequest, calls: seq<UploadCall>, results: seq<UploadResult>, newId: string)
    requires HasRequiredFields(req) && |calls| == |results| && AllUploaded(results)
    requires Consistent(w) && FreshIds(w, results) && NewRecordId(w, newId)
    ensures Consistent(Consolidate(w, req, calls, results, newId).world)
  {
    var o := Consolidate(w, req, calls, results, newId);
    var S := SuccessIds(results);
    var entries := Entries(calls, results);
    var images := ImageRefs(entries);
    var pdfs := PdfRefs(entries);
    EntriesCarrySuccessIds(calls, results);
    FilteredRefIds(entries, IsImageEntry);
    FilteredRefIds(entries, IsPdfEntry);
    assert RefIds(images) + RefIds(pdfs) <= S;
    match FindByUser(w.records, req.userId)
    case Some(k) =>
      var rec := w.records[k];
      if req.weekNumber.value in rec.completedWeek {
        assert (w.live + S) - MediaStore.Ids(EntryIds(entries)) == w.live;
        assert o.world == w;
      } else if req.links.Absent? || req.notes.Absent? {
        assert o.world == World(w.records, w.live + S);
      } else {
        var links := SpreadList("links", req.links).value;
        var notes := SpreadList("notes", req.notes).value;
        var updated := MergeWeek(rec, req.weekNumber.value, images, pdfs, links, notes);
        MergeReferences(rec, req.weekNumber.value, images, pdfs, links, notes);
        ReplacePreserves(w, k, updated, S);
        assert o.world == World(w.records[k := updated], w.live + S);
      }
    case None =>
      var created := NewSubmission(newId, SubmissionInit(req.userId, req.username, req.departementId,
        Some([req.weekNumber.value]), Some(images), Some(pdfs), InitList(req.links), InitList(req.notes)));
      if created.username != "" {
        AppendPreserves(w, created, S);
        assert o.world == World(w.records + [created], w.live + S);
      } else {
        assert o.world == World(w.records, w.live + S);
      }
  }

  /** With fresh ids from the host and a fresh `_id`, every createSubmission outcome keeps the store consistent. */
  lemma CreatePreservesConsistency(w: World, req: SubmitRequest, upload: UploadCall -> UploadResult, now: nat, newId: string)
    requires Consistent(w) && FreshIds(w, UploadsOf(req, upload, now)) && NewRecordId(w, newId)
    ensures Consistent(CreateSubmission(w, req, upload, now, newId).world)
  {
    if HasRequiredFields(req) && |KeptFiles(req)| > 0 {
      var calls := Calls(req.userId, now, KeptFiles(req));
      var results := Results(calls, upload);
      if AllUploaded(results) {
        ConsolidatePreserves(w, req, calls, results, newId);
      }
    }
  }

  // ---------------------------------------------------------------------
  // deleteSubmission

  datatype DeleteOutcome = DeleteOutcome(world: World, deletes: seq<PublicId>, result: Result<Unit>)

  /** `Submission.findById`: the first record with the given `_id`. */
  function FindById(records: seq<Submission>, id: string): (r: Option<nat>)
    ensures r.Some? ==> r.value < |records| && records[r.value].id == id
    ensures r.Some? ==> forall j :: 0 <= j < r.value ==> records[j].id != id
    ensures r.None? ==> forall j :: 0 <= j < |records| ==> records[j].id != id
  {
    Seqs.FindFirst(records, (s: Submission) => s.id == id)
  }

  function RemoveAt<T>(s: seq<T>, k: nat): (r: seq<T>)
    requires k < |s|
    ensures |r| == |s| - 1
    ensures forall j :: 0 <= j < k ==> r[j] == s[j]
    ensures forall j :: k <= j < |r| ==> r[j] == s[j + 1]
  {
    s[..k] + s[k + 1..]
  }

  /**
   * `deleteSubmission`: 400 without an id, 404 for an unknown one; otherwise the
   * record's images and then its PDFs are deleted from the host and the record
   * is removed.
   */
  function DeleteSubmission(w: World, submissionId: string): (o: DeleteOutcome)
    ensures submissionId == "" ==> o == DeleteOutcome(w, [], Err(CustomError("Submission ID is required.", 400)))
    ensures submissionId != "" && FindById(w.records, submissionId).None? ==>
      o == DeleteOutcome(w, [], Err(CustomError("Submission not found.", 404)))
    ensures o.result.Ok? <==> submissionId != "" && FindById(w.records, submissionId).Some?
    ensures o.result.Ok? ==> |o.world.records| + 1 == |w.records|
    ensures o.result.Ok? ==> o.deletes == PublicIds(w.records[FindById(w.records, submissionId).value].images)
                                       + PublicIds(w.records[FindById(w.records, submissionId).value].pdf)
  {
    if submissionId == "" then DeleteOutcome(w, [], Err(CustomError("Submission ID is required.", 400)))
    else match FindById(w.records, submissionId)
      case None => DeleteOutcome(w, [], Err(CustomError("Submission not found.", 404)))
      case Some(k) =>
        var rec := w.records[k];
        var ids := PublicIds(rec.images) + PublicIds(rec.pdf);
        DeleteOutcome(World(RemoveAt(w.records, k), MediaStore.DeleteAll(w.live, ids)), ids, Ok(Unit))
  }

  lemma PublicIdsAreRefIds(refs: seq<FileRef>)
    ensures MediaStore.Ids(PublicIds(refs)) == RefIds(refs)
  {
    forall x | x in RefIds(refs) ensures x in MediaStore.Ids(PublicIds(refs)) {
      var r :| r in refs && r.publicId == x;
      var i :| 0 <= i < |refs| && refs[i] == r;
      assert PublicIds(refs)[i] == x;
    }
  }

  /**
   * Deleting a stored submission removes exactly its files from the host and
   * exactly its record from the list, leaves the other records in order, and
   * keeps the store consistent: no remaining record points at a deleted file.
   */
  lemma DeleteRemovesRecordAndFiles(w: World, submissionId: string)
    requires Consistent(w) && submissionId != "" && FindById(w.records, submissionId).Some?
    ensures DeleteSubmission(w, submissionId).world.live == w.live - Referenced(w.records[FindById(w.records, submissionId).value])
    ensures forall j :: 0 <= j < |DeleteSubmission(w, submissionId).world.records| ==>
      DeleteSubmission(w, submissionId).world.records[j].id != submissionId
    ensures DeleteSubmission(w, submissionId).world.records == RemoveAt(w.records, FindById(w.records, submissionId).value)
    ensures Consistent(DeleteSubmission(w, submissionId).world)
  {
    var k := FindById(w.records, submissionId).value;
    var rec := w.records[k];
    PublicIdsAreRefIds(rec.images);
    PublicIdsAreRefIds(rec.pdf);
    assert MediaStore.Ids(PublicIds(rec.images) + PublicIds(rec.pdf)) == Referenced(rec);
    var o := DeleteSubmission(w, submissionId);
    assert o.world.live == w.live - Referenced(rec);
    RemovePreservesConsistency(w, k);
  }

  /** Removing one record together with its files keeps the store consistent and drops that record's id. */
  lemma RemovePreservesConsistency(w: World, k: nat)
    requires Consistent(w) && k < |w.records|
    ensures Consistent(World(RemoveAt(w.records, k), w.live - Referenced(w.records[k])))
    ensures forall j :: 0 <= j < |w.records| - 1 ==> RemoveAt(w.records, k)[j].id != w.records[k].id
  {
    var rs := RemoveAt(w.records, k);
    var live := w.live - Referenced(w.records[k]);
    forall j | 0 <= j < |rs| ensures Referenced(rs[j]) <= live && rs[j].id != w.records[k].id {
      if j < k {
        assert rs[j] == w.records[j];
      } else {
        assert rs[j] == w.records[j + 1];
      }
    }
    forall i, j | 0 <= i < j < |rs|
      ensures rs[i].userId != rs[j].userId && rs[i].id != rs[j].id && Referenced(rs[i]) !! Referenced(rs[j])
    {
      var i' := if i < k then i else i + 1;
      var j' := if j < k then j else j + 1;
      assert rs[i] == w.records[i'] && rs[j] == w.records[j'] && i' < j';
    }
  }

  // ---------------------------------------------------------------------
  // getSubmissionsByWeek

  function OfUserAndWeek(userId: string, week: nat): Submission -> bool {
    (s: Submission) => s.userId == userId && week in s.completedWeek
  }

  /** `getSubmissionsByWeek`: 400 without both fields, otherwise every record of the user listing the week, in store order. */
  function GetSubmissionsByWeek(w: World, userId: string, weekNumber: Option<nat>): (r: Result<seq<Submission>>)
    ensures userId == "" || weekNumber.None? ==> r == Err(CustomError(MissingFieldsMessage, 400))
    ensures r.Ok? ==> forall s :: s in r.value <==>
      s in w.records && s.userId == userId && weekNumber.value in s.completedWeek
    ensures r.Ok? ==> |r.value| <= |w.records|
  {
    if userId == "" || weekNumber.None? then Err(CustomError(MissingFieldsMessage, 400))
    else Ok(Seqs.Filter(w.records, OfUserAndWeek(userId, weekNumber.value)))
  }

  /** In a consistent store the weekly lookup returns at most the user's one record, and finds it after a successful submission of that week. */
  lemma WeekLookupFindsSubmission(w: World, req: SubmitRequest, upload: UploadCall -> UploadResult, now: nat, newId: string)
    requires Consistent(w) && FreshIds(w, UploadsOf(req, upload, now)) && NewRecordId(w, newId)
    requires CreateSubmission(w, req, upload, now, newId).result.Ok?
    ensures GetSubmissionsByWeek(CreateSubmission(w, req, upload, now, newId).world, req.userId, req.weekNumber).Ok?
    ensures |GetSubmissionsByWeek(CreateSubmission(w, req, upload, now, newId).world, req.userId, req.weekNumber).value| == 1
  {
    var rs := CreateSubmission(w, req, upload, now, newId).world.records;
    CreatePreservesConsistency(w, req, upload, now, newId);
    var k := SubmittedWeekIsListed(w, req, upload, now, newId);
    UniqueUserHits(rs, req.userId, req.weekNumber.value, k);
  }

  /** After a successful submission some stored record of the user lists the week. */
  lemma SubmittedWeekIsListed(w: World, req: SubmitRequest, upload: UploadCall -> UploadResult, now: nat, newId: string) returns (k: nat)
    requires CreateSubmission(w, req, upload, now, newId).result.Ok?
    ensures HasRequiredFields(req)
    ensures var rs := CreateSubmission(w, req, upload, now, newId).world.records;
            k < |rs| && rs[k].userId == req.userId && req.weekNumber.value in rs[k].completedWeek
  {
    var rs := CreateSubmission(w, req, upload, now, newId).world.records;
    match FindByUser(w.records, req.userId)
    case Some(k0) =>
      NewWeekExtendsRecord(w, req, upload, now, newId, k0);
      assert rs[k0].completedWeek == w.records[k0].completedWeek + [req.weekNumber.value];
      k := k0;
    case None =>
      FirstSubmissionCreatesRecord(w, req, upload, now, newId);
      k := |w.records|;
  }

  lemma {:induction false} UniqueUserHits(rs: seq<Submission>, userId: string, week: nat, k: nat)
    requires k < |rs| && rs[k].userId == userId && week in rs[k].completedWeek
    requires forall i, j :: 0 <= i < j < |rs| ==> rs[i].userId != rs[j].userId
    ensures Seqs.Filter(rs, OfUserAndWeek(userId, week)) == [rs[k]]
  {
    // Every other index belongs to another user, so only `rs[k]` survives.
    assert rs == rs[..k] + [rs[k]] + rs[k + 1..];
    Seqs.FilterConcat(rs[..k] + [rs[k]], rs[k + 1..], OfUserAndWeek(userId, week));
    Seqs.FilterConcat(rs[..k], [rs[k]], OfUserAndWeek(userId, week));
    NoneOfUser(rs[..k], userId, week);
    NoneOfUser(rs[k + 1..], userId, week);
  }

  lemma NoneOfUser(rs: seq<Submission>, userId: string, week: nat)
    requires forall i :: 0 <= i < |rs| ==> rs[i].userId != userId
    ensures Seqs.Filter(rs, OfUserAndWeek(userId, week)) == []
  {
  }
}

=== FILE: submission_model.dfy ===
/**
 * The weekly submission record (models/submission.models.js): one per user,
 * with the weeks already submitted and append-only lists of stored images,
 * PDFs, links and notes.
 */
module SubmissionModel {
  import opened Wrappers
  import opened Errors
  import MediaStore

  /** A stored file: `{url, publicId}`. */
  datatype FileRef = FileRef(url: string, publicId: MediaStore.PublicId)

  datatype Submission = Submission(
    id: string,               // the record's own `_id`
    userId: string,
    username: string,
    departementId: string,
    completedWeek: seq<nat>,
    images: seq<FileRef>,
    pdf: seq<FileRef>,
    links: seq<string>,
    notes: seq<string>)

  /** The fields a new record is constructed from; an absent list takes the schema default. */
  datatype SubmissionInit = SubmissionInit(
    userId: string,
    username: string,
    departementId: string,
    completedWeek: Option<seq<nat>>,
    images: Option<seq<FileRef>>,
    pdf: Option<seq<FileRef>>,
    links: Option<seq<string>>,
    notes: Option<seq<string>>)

  /** `new Submission(init)`: each list field is the given value or, when absent, empty. */
  function NewSubmission(id: string, init: SubmissionInit): (s: Submission)
    ensures s.id == id && s.userId == init.userId && s.username == init.username
    ensures s.departementId == init.departementId
    ensures init.completedWeek.None? ==> s.completedWeek == []
    ensures init.images.None? ==> s.images == []
    ensures init.pdf.None? ==> s.pdf == []
    ensures init.links.None? ==> s.links == []
    ensures init.notes.None? ==> s.notes == []
    ensures init.completedWeek.Some? ==> s.completedWeek == init.completedWeek.value
    ensures init.images.Some? ==> s.images == init.images.value
    ensures init.pdf.Some? ==> s.pdf == init.pdf.value
    ensures init.links.Some? ==> s.links == init.links.value
    ensures init.notes.Some? ==> s.notes == init.notes.value
  {
    Submission(id, init.userId, init.username, init.departementId,
      init.completedWeek.GetOr([]), init.images.GetOr([]), init.pdf.GetOr([]),
      init.links.GetOr([]), init.notes.GetOr([]))
  }

  /** The URLs of a list of stored files, in the same order. */
  function Urls(refs: seq<FileRef>): (r: seq<string>)
    ensures |r| == |refs|
    ensures forall i :: 0 <= i < |refs| ==> r[i] == refs[i].url
  {
    if |refs| == 0 then [] else [refs[0].url] + Urls(refs[1..])
  }

  /** The `imageUrls` virtual. */
  function ImageUrls(s: Submission): (r: seq<string>)
    ensures |r| == |s.images| && forall i :: 0 <= i < |r| ==> r[i] == s.images[i].url
  {
    Urls(s.images)
  }

  /** The `pdfUrls` virtual. */
  function PdfUrls(s: Submission): (r: seq<string>)
    ensures |r| == |s.pdf| && forall i :: 0 <= i < |r| ==> r[i] == s.pdf[i].url
  {
    Urls(s.pdf)
  }

  /** The public ids of a list of stored files, in the same order. */
  function PublicIds(refs: seq<FileRef>): (r: seq<MediaStore.PublicId>)
    ensures |r| == |refs|
    ensures forall i :: 0 <= i < |refs| ==> r[i] == refs[i].publicId
  {
    if |refs| == 0 then [] else [refs[0].publicId] + PublicIds(refs[1..])
  }

  /** The public ids of a list of stored files, as a set. */
  function RefIds(refs: seq<FileRef>): set<MediaStore.PublicId> {
    set r | r in refs :: r.publicId
  }

  /** Every public id a record references, images and PDFs alike. */
  function Referenced(s: Submission): set<MediaStore.PublicId> {
    RefIds(s.images) + RefIds(s.pdf)
  }

  /**
   * Schema validation on save. `username` is the only required path, and a
   * required string fails when empty.
   */
  function Validate(s: Submission): (r: Option<ErrorValue>)
    ensures r.None? <==> s.username != ""
    ensures r.Some? ==> r.value.name == "ValidationError"
  {
    if s.username != "" then None
    else Some(ValidationError("Submission", [PathError("username", "Path `username` is required.")]))
  }
}

=== FILE: task_controller.dfy ===
/**
 * Week-indexed task plans (controllers/task.controllers.js over
 * models/task.models.js). A department's document holds a list of weeks, each
 * week a list of plans; week `n` is the element at index `n - 1`.
 *
 * The collection is a sequence of documents in insertion order. `mainTitle` is
 * stored, and matched in queries, after the schema's lowercase and trim
 * setters.
 */
module TaskController {
  import opened Wrappers
  import opened Js
  import Text
  import JsNumber
  import Seqs

  /** One plan of a week: a plain object of fields. */
  type Plan = Object

  datatype TaskDoc = TaskDoc(mainTitle: string, departmentName: Option<string>, weeklyPlans: seq<seq<Plan>>)

  /** One element of the body of `addingTaskToAllWeeks`, before the schema's setters and validators. */
  datatype TaskInput = TaskInput(mainTitle: Option<string>, departmentName: Option<string>, weeklyPlans: seq<seq<Plan>>)

  /** The request body of `addingTaskToAllWeeks`: an array of documents, or anything else. */
  datatype AddBody = NotAnArray | Items(items: seq<TaskInput>)

  /** The JSON reply: status, `success` flag and message. */
  datatype Reply = Reply(status: nat, success: bool, message: string)

  datatype TaskOutcome = TaskOutcome(store: seq<TaskDoc>, reply: Reply)

  /** The schema's setters on `mainTitle`: lowercase, then trim. */
  function NormalTitle(t: string): string {
    Text.Trim(Text.Lower(t))
  }

  lemma LowerIdempotent(t: string)
    ensures Text.Lower(Text.Lower(t)) == Text.Lower(t)
  {
  }

  /** `Task.findOne({mainTitle: title.toLowerCase()})`: the first document whose stored title matches. */
  function FindByTitle(store: seq<TaskDoc>, title: string): (r: Option<nat>)
    ensures r.Some? ==> r.value < |store| && store[r.value].mainTitle == NormalTitle(Text.Lower(title))
    ensures r.Some? ==> forall j :: 0 <= j < r.value ==> store[j].mainTitle != NormalTitle(Text.Lower(title))
    ensures r.None? ==> forall j :: 0 <= j < |store| ==> store[j].mainTitle != NormalTitle(Text.Lower(title))
  {
    var key := NormalTitle(Text.Lower(title));
    Seqs.FindFirst(store, (d: TaskDoc) => d.mainTitle == key)
  }

  /** The lookup ignores ASCII case and surrounding white space in the title it is given. */
  lemma LookupIgnoresCase(store: seq<TaskDoc>, title: string)
    ensures FindByTitle(store, Text.Lower(title)) == FindByTitle(store, title)
    ensures FindByTitle(store, Text.Trim(title)) == FindByTitle(store, title)
  {
    LowerIdempotent(title);
    var t := Text.Trim(title);
    LowerIdempotent(t);
    Text.LowerTrim(title);
    Text.TrimIdempotent(Text.Lower(title));
    assert NormalTitle(Text.Lower(t)) == NormalTitle(Text.Lower(title));
  }

  // ---------------------------------------------------------------------
  // addingTaskToAllWeeks

  /** The required validator on `mainTitle`, after the setters. */
  predicate ValidInput(t: TaskInput) {
    t.mainTitle.Some? && NormalTitle(t.mainTitle.value) != ""
  }

  /** Every plan of every week cast into weeklyPlanSchema. */
  function CastWeeks(weeks: seq<seq<Plan>>): (r: seq<seq<Plan>>)
    ensures |r| == |weeks|
    ensures forall w :: 0 <= w < |r| ==> |r[w]| == |weeks[w]|
    ensures forall w, i :: 0 <= w < |r| && 0 <= i < |r[w]| ==> r[w][i] == CastPlan(weeks[w][i])
  {
    seq(|weeks|, w requires 0 <= w < |weeks| => seq(|weeks[w]|, i requires 0 <= i < |weeks[w]| => CastPlan(weeks[w][i])))
  }

  /** The document `insertMany` stores: the title after its setters, and the weeks cast. */
  function ToDoc(t: TaskInput): (d: TaskDoc)
    requires ValidInput(t)
    ensures d.mainTitle == NormalTitle(t.mainTitle.value) && d.departmentName == t.departmentName
    ensures d.weeklyPlans == CastWeeks(t.weeklyPlans)
  {
    TaskDoc(NormalTitle(t.mainTitle.value), t.departmentName, CastWeeks(t.weeklyPlans))
  }

  predicate AllValid(items: seq<TaskInput>) {
    forall i :: 0 <= i < |items| ==> ValidInput(items[i])
  }

  function ToDocs(items: seq<TaskInput>): (r: seq<TaskDoc>)
    requires AllValid(items)
    ensures |r| == |items|
    ensures forall i :: 0 <= i < |r| ==> r[i] == ToDoc(items[i])
  {
    seq(|items|, i requires 0 <= i < |items| => ToDoc(items[i]))
  }

  /**
   * `addingTaskToAllWeeks`: a body that is not an array is refused with 400;
   * `insertMany` then validates every document first and inserts none of them
   * if one fails, which the handler reports as 500.
   */
  function AddTasks(store: seq<TaskDoc>, body: AddBody): (o: TaskOutcome)
    ensures body.NotAnArray? ==> o == TaskOutcome(store, Reply(400, false, "Request body must be an array of tasks"))
    ensures o.reply.success <==> body.Items? && AllValid(body.items)
    ensures !o.reply.success ==> o.store == store
    ensures o.reply.success ==> o.reply.status == 201 && |o.store| == |store| + |body.items|
    ensures o.reply.success ==> o.store[..|store|] == store
    ensures o.reply.success ==> forall i :: 0 <= i < |body.items| ==>
      o.store[|store| + i] == ToDoc(body.items[i])
  {
    match body
    case NotAnArray => TaskOutcome(store, Reply(400, false, "Request body must be an array of tasks"))
    case Items(items) =>
      if AllValid(items) then
        var docs := ToDocs(items);
        assert (store + docs)[..|store|] == store;
        TaskOutcome(store + docs, Reply(201, true, "Successfully added all tasks"))
      else TaskOutcome(store, Reply(500, false, "Error adding tasks"))
  }

  /** After a successful insert every added department can be looked up by the title it was given. */
  lemma AddedTitlesCanBeFound(store: seq<TaskDoc>, body: AddBody, i: nat)
    requires AddTasks(store, body).reply.success && i < |body.items|
    ensures FindByTitle(AddTasks(store, body).store, body.items[i].mainTitle.value).Some?
  {
    var s := AddTasks(store, body).store;
    var t := body.items[i].mainTitle.value;
    LowerIdempotent(t);
    assert s[|store| + i].mainTitle == NormalTitle(Text.Lower(t));
  }

  // ---------------------------------------------------------------------
  // The week bounds

  /** `weekNumber` names an existing week: between 1 and the number of weeks. */
  predicate WeekInRange(weekNumber: int, doc: TaskDoc) {
    1 <= weekNumber <= |doc.weeklyPlans|
  }

  function RangeMessage(doc: TaskDoc): string {
    "Invalid week number. Must be between 1 and " + Text.NatToString(|doc.weeklyPlans|)
  }

  // ---------------------------------------------------------------------
  // updateParticularWeekTasks

  /** `{...plan, ...updatedTask, updatedAt: new Date()}`: later keys win. */
  function Overlay(plan: Plan, updatedTask: Object, now: int): (r: Plan)
    ensures forall k :: k in updatedTask && k != "updatedAt" ==> k in r && r[k] == updatedTask[k]
    ensures "updatedAt" in r && r["updatedAt"] == Date(now)
    ensures forall k :: k in plan && k !in updatedTask && k != "updatedAt" ==> k in r && r[k] == plan[k]
    ensures r.Keys == plan.Keys + updatedTask.Keys + {"updatedAt"}
  {
    plan + updatedTask + map["updatedAt" := Date(now)]
  }

  /** The paths of weeklyPlanSchema, with the `_id` every subdocument schema declares. */
  const PlanPaths: set<string> := {"_id", "weekNumber", "weekTitle", "taskList"}

  /**
   * Casting an object into weeklyPlanSchema, as `save` and `insertMany` do:
   * the schema is strict and has no timestamps, so every key it does not
   * declare is dropped.
   */
  function CastPlan(p: Plan): (r: Plan)
    ensures r.Keys == p.Keys * PlanPaths
    ensures forall k :: k in r ==> r[k] == p[k]
  {
    map k | k in p.Keys * PlanPaths :: p[k]
  }

  /** The plan the update saves: its declared paths take the update's values or keep the old ones, and the stamp is dropped. */
  lemma StoredPlanFields(plan: Plan, updatedTask: Object, now: int)
    ensures var r := CastPlan(Overlay(plan, updatedTask, now));
            && "updatedAt" !in r
            && (forall k :: k in PlanPaths && k in updatedTask ==> k in r && r[k] == updatedTask[k])
            && (forall k :: k in PlanPaths && k !in updatedTask && k in plan ==> k in r && r[k] == plan[k])
            && (forall k :: k in r ==> k in PlanPaths && (k in updatedTask || k in plan))
  {
    assert "updatedAt" !in PlanPaths;
  }

  /** Overlaying a saved plan again with the same update saves the same plan. */
  lemma StoredPlanIsStable(plan: Plan, updatedTask: Object, now: int)
    ensures var r := CastPlan(Overlay(plan, updatedTask, now));
            CastPlan(Overlay(r, updatedTask, now)) == r
  {
    var r := CastPlan(Overlay(plan, updatedTask, now));
    var r2 := CastPlan(Overlay(r, updatedTask, now));
    StoredPlanFields(plan, updatedTask, now);
    StoredPlanFields(r, updatedTask, now);
    assert r2.Keys == r.Keys;
  }

  /** The week as the update saves it: every plan overlaid, then cast. */
  function OverlayWeek(plans: seq<Plan>, updatedTask: Object, now: int): (r: seq<Plan>)
    ensures |r| == |plans|
    ensures forall i :: 0 <= i < |r| ==> r[i] == CastPlan(Overlay(plans[i], updatedTask, now))
  {
    seq(|plans|, i requires 0 <= i < |plans| => CastPlan(Overlay(plans[i], updatedTask, now)))
  }

  /** The document with the week at index `w` replaced and nothing else changed. */
  function ReplaceWeek(doc: TaskDoc, w: nat, week: seq<Plan>): (d: TaskDoc)
    requires w < |doc.weeklyPlans|
    ensures d.mainTitle == doc.mainTitle && d.departmentName == doc.departmentName
    ensures |d.weeklyPlans| == |doc.weeklyPlans| && d.weeklyPlans[w] == week
    ensures forall v :: 0 <= v < |doc.weeklyPlans| && v != w ==> d.weeklyPlans[v] == doc.weeklyPlans[v]
  {
    doc.(weeklyPlans := doc.weeklyPlans[w := week])
  }

  /**
   * `updateParticularWeekTasks`: without a title, a week number or an update
   * the request is refused with 400 before any lookup; an unknown title gives
   * 404 and a week outside the document's range 400; otherwise every plan of
   * that week is overlaid with the update and stamped with the time, and the
   * save casts the result back into the plan schema.
   */
  function UpdateWeek(store: seq<TaskDoc>, title: string, weekNumber: Option<int>, updatedTask: Option<Object>, now: int): (o: TaskOutcome)
    ensures title == "" || weekNumber.None? || weekNumber == Some(0) || updatedTask.None? ==>
      o == TaskOutcome(store, Reply(400, false, "Missing required fields: title, weekNumber, or updatedTask"))
    ensures !o.reply.success ==> o.store == store
    ensures o.reply.success <==>
      && title != "" && weekNumber.Some? && updatedTask.Some?
      && FindByTitle(store, title).Some? && WeekInRange(weekNumber.value, store[FindByTitle(store, title).value])
    ensures o.reply.status == 404 <==>
      title != "" && weekNumber.Some? && weekNumber != Some(0) && updatedTask.Some? && FindByTitle(store, title).None?
    ensures |o.store| == |store|
  {
    if title == "" || weekNumber.None? || weekNumber == Some(0) || updatedTask.None? then
      TaskOutcome(store, Reply(400, false, "Missing required fields: title, weekNumber, or updatedTask"))
    else match FindByTitle(store, title)
      case None => TaskOutcome(store, Reply(404, false, "Task not found"))
      case Some(k) =>
        var doc := store[k];
        var n := weekNumber.value;
        if !WeekInRange(n, doc) then TaskOutcome(store, Reply(400, false, RangeMessage(doc)))
        else
          var week := OverlayWeek(doc.weeklyPlans[n - 1], updatedTask.value, now);
          TaskOutcome(store[k := ReplaceWeek(doc, n - 1, week)], Reply(200, true, "Task successfully updated"))
  }

  /** A successful update changes no document other than the matched one, and keeps its title. */
  lemma UpdateLeavesOtherDocuments(store: seq<TaskDoc>, title: string, weekNumber: Option<int>, updatedTask: Option<Object>, now: int, k: nat)
    requires title != "" && weekNumber.Some? && updatedTask.Some?
    requires FindByTitle(store, title) == Some(k) && WeekInRange(weekNumber.value, store[k])
    ensures |UpdateWeek(store, title, weekNumber, updatedTask, now).store| == |store|
    ensures forall j :: 0 <= j < |store| && j != k ==> UpdateWeek(store, title, weekNumber, updatedTask, now).store[j] == store[j]
    ensures UpdateWeek(store, title, weekNumber, updatedTask, now).store[k].mainTitle == store[k].mainTitle
  {
    var n := weekNumber.value;
    var week := OverlayWeek(store[k].weeklyPlans[n - 1], updatedTask.value, now);
    var s := UpdateWeek(store, title, weekNumber, updatedTask, now).store;
    assert s == store[k := ReplaceWeek(store[k], n - 1, week)];
    assert |s| == |store|;
    forall j | 0 <= j < |store| && j != k ensures s[j] == store[j] { }
  }

  /**
   * Within the matched document a successful update changes only the
   * addressed week: the number of weeks is kept, every other week is
   * untouched, and each plan of the addressed week is saved with its declared
   * paths taken from the update where it gives them and kept otherwise,
   * without the stamp.
   */
  lemma UpdateTouchesOnlyThatWeek(store: seq<TaskDoc>, title: string, weekNumber: Option<int>, updatedTask: Option<Object>, now: int, k: nat, n: nat)
    requires title != "" && weekNumber == Some(n) && updatedTask.Some?
    requires FindByTitle(store, title) == Some(k) && WeekInRange(n, store[k])
    ensures |UpdateWeek(store, title, weekNumber, updatedTask, now).store[k].weeklyPlans| == |store[k].weeklyPlans|
    ensures forall w :: 0 <= w < |store[k].weeklyPlans| && w != n - 1 ==>
      UpdateWeek(store, title, weekNumber, updatedTask, now).store[k].weeklyPlans[w] == store[k].weeklyPlans[w]
    ensures var before := store[k].weeklyPlans[n - 1];
            var after := UpdateWeek(store, title, weekNumber, updatedTask, now).store[k].weeklyPlans[n - 1];
            && |after| == |before|
            && forall i :: 0 <= i < |after| ==>
                 && after[i] == CastPlan(Overlay(before[i], updatedTask.value, now))
                 && after[i].Keys <= PlanPaths && "updatedAt" !in after[i]
  {
    var week := OverlayWeek(store[k].weeklyPlans[n - 1], updatedTask.value, now);
    assert UpdateWeek(store, title, weekNumber, updatedTask, now).store[k] == ReplaceWeek(store[k], n - 1, week);
    assert "updatedAt" !in PlanPaths;
  }

  /** A document with the title, preceded by none, is the one the lookup finds. */
  lemma FoundAt(store: seq<TaskDoc>, title: string, k: nat)
    requires k < |store| && store[k].mainTitle == NormalTitle(Text.Lower(title))
    requires forall j :: 0 <= j < k ==> store[j].mainTitle != NormalTitle(Text.Lower(title))
    ensures FindByTitle(store, title) == Some(k)
  {
    var r := FindByTitle(store, title);
    assert r.Some?;
    assert !(r.value < k) && !(r.value > k);
  }

  /** Repeating the same update at the same time changes nothing more. */
  lemma UpdateIsIdempotent(store: seq<TaskDoc>, title: string, weekNumber: Option<int>, updatedTask: Option<Object>, now: int)
    requires UpdateWeek(store, title, weekNumber, updatedTask, now).reply.success
    ensures var s := UpdateWeek(store, title, weekNumber, updatedTask, now).store;
            UpdateWeek(s, title, weekNumber, updatedTask, now).store == s
  {
    var k := FindByTitle(store, title).value;
    var n := weekNumber.value;
    var s := UpdateWeek(store, title, weekNumber, updatedTask, now).store;
    assert s[k].mainTitle == store[k].mainTitle;
    forall j | 0 <= j < k ensures s[j].mainTitle != NormalTitle(Text.Lower(title)) {
      assert s[j] == store[j];
    }
    FoundAt(s, title, k);
    var week := s[k].weeklyPlans[n - 1];
    forall i | 0 <= i < |week|
      ensures CastPlan(Overlay(week[i], updatedTask.value, now)) == week[i]
    {
      StoredPlanIsStable(store[k].weeklyPlans[n - 1][i], updatedTask.value, now);
    }
    assert OverlayWeek(week, updatedTask.value, now) == week;
    assert ReplaceWeek(s[k], n - 1, week) == s[k];
  }

  // ---------------------------------------------------------------------
  // deleteTaskAtParticularWeek

  /**
   * `deleteTaskAtParticularWeek`: the same 400 and 404 guards as the update,
   * then the week at index `weekNumber - 1` is spliced out.
   */
  function DeleteWeek(store: seq<TaskDoc>, title: string, weekNumber: Option<int>): (o: TaskOutcome)
    ensures title == "" || weekNumber.None? || weekNumber == Some(0) ==>
      o == TaskOutcome(store, Reply(400, false, "Missing required fields: title or weekNumber"))
    ensures !o.reply.success ==> o.store == store
    ensures o.reply.success <==>
      && title != "" && weekNumber.Some?
      && FindByTitle(store, title).Some? && WeekInRange(weekNumber.value, store[FindByTitle(store, title).value])
    ensures o.reply.status == 404 <==>
      title != "" && weekNumber.Some? && weekNumber != Some(0) && FindByTitle(store, title).None?
    ensures |o.store| == |store|
  {
    if title == "" || weekNumber.None? || weekNumber == Some(0) then
      TaskOutcome(store, Reply(400, false, "Missing required fields: title or weekNumber"))
    else match FindByTitle(store, title)
      case None => TaskOutcome(store, Reply(404, false, "Task not found"))
      case Some(k) =>
        var doc := store[k];
        var n := weekNumber.value;
        if !WeekInRange(n, doc) then TaskOutcome(store, Reply(400, false, RangeMessage(doc)))
        else
          var plans := doc.weeklyPlans[..n - 1] + doc.weeklyPlans[n..];
          TaskOutcome(store[k := doc.(weeklyPlans := plans)], Reply(200, true, "Successfully deleted week's tasks"))
  }

  /**
   * A successful delete removes exactly the addressed week: one week fewer,
   * the earlier weeks in place, the later ones shifted down by one, and no
   * other document changed.
   */
  lemma DeleteRemovesExactlyThatWeek(store: seq<TaskDoc>, title: string, weekNumber: Option<int>)
    requires DeleteWeek(store, title, weekNumber).reply.success
    ensures var k := FindByTitle(store, title).value;
            var n := weekNumber.value;
            var before := store[k].weeklyPlans;
            var after := DeleteWeek(store, title, weekNumber).store[k].weeklyPlans;
            && (forall j :: 0 <= j < |store| && j != k ==> DeleteWeek(store, title, weekNumber).store[j] == store[j])
            && |after| == |before| - 1
            && (forall w :: 0 <= w < n - 1 ==> after[w] == before[w])
            && (forall w :: n - 1 <= w < |after| ==> after[w] == before[w + 1])
  {
  }

  // ---------------------------------------------------------------------
  // getAllTasksOfParticularDepartment and getTaskofParticularDepartmentofOneWeek

  datatype DocReply = DocReply(reply: Reply, data: Option<TaskDoc>)

  function GetAllTasks(store: seq<TaskDoc>, title: string): (r: DocReply)
    ensures title == "" ==> r == DocReply(Reply(400, false, "Title is required"), None)
    ensures r.data.Some? <==> title != "" && FindByTitle(store, title).Some?
    ensures r.data.Some? ==> r.data.value == store[FindByTitle(store, title).value] && r.reply.status == 200
    ensures title != "" && r.data.None? ==> r.reply == Reply(404, false, "No tasks found for this department")
  {
    if title == "" then DocReply(Reply(400, false, "Title is required"), None)
    else match FindByTitle(store, title)
      case None => DocReply(Reply(404, false, "No tasks found for this department"), None)
      case Some(k) => DocReply(Reply(200, true, ""), Some(store[k]))
  }

  /** `Task.findOne({departmentName: title})`: exact match, no setters on this path. */
  function FindByDepartment(store: seq<TaskDoc>, name: string): (r: Option<nat>)
    ensures r.Some? ==> r.value < |store| && store[r.value].departmentName == Some(name)
    ensures r.Some? ==> forall j :: 0 <= j < r.value ==> store[j].departmentName != Some(name)
    ensures r.None? ==> forall j :: 0 <= j < |store| ==> store[j].departmentName != Some(name)
  {
    Seqs.FindFirst(store, (d: TaskDoc) => d.departmentName == Some(name))
  }

  /**
   * The whole number a week-number query field converts to, when it converts
   * to one: `weekNumber - 1` converts the string with `Number`, and an array
   * is indexed by a number only when that number is an integer.
   */
  function WeekOrdinal(weekNumber: string): Option<int> {
    JsNumber.IntegerValue(JsNumber.StringToNumber(weekNumber))
  }

  /** Week `n` of the plans is the element at index `n - 1`; any other ordinal, or none, selects nothing. */
  function WeekAt(plans: seq<seq<Plan>>, n: Option<int>): (r: Option<seq<Plan>>)
    ensures r.Some? <==> n.Some? && 1 <= n.value <= |plans|
    ensures r.Some? ==> r.value == plans[n.value - 1]
  {
    if n.Some? && 1 <= n.value <= |plans| then Some(plans[n.value - 1]) else None
  }

  /** The single-week reply: 200 with the week (absent when out of range), or 400. */
  datatype WeekReply = WeekOk(weektask: Option<seq<Plan>>) | WeekError(message: string)

  const NullReadMessage := "Cannot read properties of null (reading 'weeklyPlans')"

  /**
   * `getTaskofParticularDepartmentofOneWeek`: both query fields are required;
   * the document is matched by `departmentName`, and week `n` is the element at
   * index `n - 1`, absent outside the list. With no document, reading its
   * weeks throws and the handler answers 400.
   */
  function GetOneWeek(store: seq<TaskDoc>, title: string, weekNumber: string): (r: WeekReply)
    ensures title == "" || weekNumber == "" ==> r == WeekError("Both title and weekNumber is required")
    ensures title != "" && weekNumber != "" && FindByDepartment(store, title).None? ==> r == WeekError(NullReadMessage)
    ensures r.WeekOk? ==>
      && title != "" && weekNumber != "" && FindByDepartment(store, title).Some?
      && r.weektask == WeekAt(store[FindByDepartment(store, title).value].weeklyPlans, WeekOrdinal(weekNumber))
  {
    if title == "" || weekNumber == "" then WeekError("Both title and weekNumber is required")
    else match FindByDepartment(store, title)
      case None => WeekError(NullReadMessage)
      case Some(k) => WeekOk(WeekAt(store[k].weeklyPlans, WeekOrdinal(weekNumber)))
  }

  /** Week `n` written in decimal reads back the week at index `n - 1`. */
  lemma OneWeekReadsTheWeek(store: seq<TaskDoc>, title: string, n: nat)
    requires title != "" && FindByDepartment(store, title).Some?
    requires 1 <= n <= |store[FindByDepartment(store, title).value].weeklyPlans|
    ensures GetOneWeek(store, title, Text.NatToString(n)) ==
      WeekOk(Some(store[FindByDepartment(store, title).value].weeklyPlans[n - 1]))
  {
    JsNumber.DecimalReadsBack(n);
  }

  /** Two non-empty week-number fields that convert to the same ordinal select the same week. */
  lemma SameOrdinalSameWeek(store: seq<TaskDoc>, title: string, a: string, b: string)
    requires a != "" && b != "" && WeekOrdinal(a) == WeekOrdinal(b)
    ensures GetOneWeek(store, title, a) == GetOneWeek(store, title, b)
  {
  }

  /** White space around a week number is ignored: ` 2 ` selects the same week as `2`. */
  lemma SpacedWeekNumber(store: seq<TaskDoc>, title: string, n: nat, ws1: string, ws2: string)
    requires forall i :: 0 <= i < |ws1| ==> Text.IsWhitespace(ws1[i])
    requires forall i :: 0 <= i < |ws2| ==> Text.IsWhitespace(ws2[i])
    ensures var d := Text.NatToString(n); GetOneWeek(store, title, ws1 + d + ws2) == GetOneWeek(store, title, d)
  {
    var d := Text.NatToString(n);
    JsNumber.SpaceIgnored(ws1, d, ws2);
    SameOrdinalSameWeek(store, title, ws1 + d + ws2, d);
  }

  /** A leading `+` is ignored: `+2` selects the same week as `2`. */
  lemma SignedWeekNumber(store: seq<TaskDoc>, title: string, n: nat, ws1: string, ws2: string)
    requires forall i :: 0 <= i < |ws1| ==> Text.IsWhitespace(ws1[i])
    requires forall i :: 0 <= i < |ws2| ==> Text.IsWhitespace(ws2[i])
    ensures var d := Text.NatToString(n); GetOneWeek(store, title, ws1 + "+" + d + ws2) == GetOneWeek(store, title, d)
  {
    var d := Text.NatToString(n);
    JsNumber.PlusIgnored(ws1, d, ws2);
    SameOrdinalSameWeek(store, title, ws1 + "+" + d + ws2, d);
  }

  /** A fraction of zeros is ignored: `2.0` and `2.` select the same week as `2`. */
  lemma FractionalWeekNumber(store: seq<TaskDoc>, title: string, n: nat, ws1: string, z: string, ws2: string)
    requires forall i :: 0 <= i < |ws1| ==> Text.IsWhitespace(ws1[i])
    requires forall i :: 0 <= i < |ws2| ==> Text.IsWhitespace(ws2[i])
    requires forall i :: 0 <= i < |z| ==> z[i] == '0'
    ensures var d := Text.NatToString(n); GetOneWeek(store, title, ws1 + (d + "." + z) + ws2) == GetOneWeek(store, title, d)
  {
    var d := Text.NatToString(n);
    JsNumber.ZeroFractionIgnored(ws1, d, z, ws2);
    JsNumber.DecimalReadsBack(n);
    Text.ParseNatToString(n);
    SameOrdinalSameWeek(store, title, ws1 + (d + "." + z) + ws2, d);
  }
}

=== FILE: text.dfy ===
/**
 * String helpers with the semantics of the JavaScript built-ins the
 * application calls: `trim`, `toLowerCase`, `startsWith`, `split`, `join`,
 * `includes` on strings, and decimal rendering of integers.
 */
module Text {
  import opened Wrappers

  /** `sub` occurs in `s` starting at index `i`. */
  predicate OccursAt(s: string, sub: string, i: int) {
    0 <= i && i + |sub| <= |s| && s[i..i + |sub|] == sub
  }

  /** `s.includes(sub)`. */
  predicate Contains(s: string, sub: string) {
    exists i | 0 <= i <= |s| :: OccursAt(s, sub, i)
  }

  /** `s.startsWith(p)`. */
  predicate StartsWith(s: string, p: string) {
    p <= s
  }

  lemma ContainsMiddle(a: string, b: string, c: string)
    ensures Contains(a + b + c, b)
  {
    assert (a + b + c)[|a|..|a| + |b|] == b;
    assert OccursAt(a + b + c, b, |a|);
  }

  lemma ContainsPrefix(b: string, c: string)
    ensures Contains(b + c, b)
  {
    ContainsMiddle([], b, c);
    assert [] + b + c == b + c;
  }

  lemma ContainsSuffix(a: string, b: string)
    ensures Contains(a + b, b)
  {
    ContainsMiddle(a, b, []);
    assert a + b + [] == a + b;
  }

  /** Containment is inherited by any extension on either side. */
  lemma ContainsExtend(a: string, s: string, c: string, sub: string)
    requires Contains(s, sub)
    ensures Contains(a + s + c, sub)
  {
    var i :| 0 <= i <= |s| && OccursAt(s, sub, i);
    var t := a + s + c;
    assert t[|a| + i..|a| + i + |sub|] == s[i..i + |sub|];
    assert OccursAt(t, sub, |a| + i);
  }

  lemma StartsWithAppend(s: string, c: string, p: string)
    requires StartsWith(s, p)
    ensures StartsWith(s + c, p)
  {
    assert (s + c)[..|p|] == s[..|p|];
  }

  lemma ContainsAppend(s: string, c: string, sub: string)
    requires Contains(s, sub)
    ensures Contains(s + c, sub)
  {
    ContainsExtend([], s, c, sub);
    assert [] + s + c == s + c;
  }

  // ---------------------------------------------------------------------
  // Searching and splitting

  /** Index of the first occurrence of `sub` at or after `from`. */
  function IndexOfFrom(s: string, sub: string, from: nat): (r: Option<nat>)
    requires |sub| > 0
    ensures r.Some? ==> from <= r.value && OccursAt(s, sub, r.value)
    ensures r.Some? ==> forall j :: from <= j < r.value ==> !OccursAt(s, sub, j)
    ensures r.None? ==> forall j :: from <= j ==> !OccursAt(s, sub, j)
    decreases |s| - from
  {
    if from + |sub| > |s| then None
    else if s[from..from + |sub|] == sub then Some(from)
    else IndexOfFrom(s, sub, from + 1)
  }

  /** `s.indexOf(sub)`, with `None` for JavaScript's -1. */
  function IndexOf(s: string, sub: string): (r: Option<nat>)
    requires |sub| > 0
    ensures r.Some? ==> OccursAt(s, sub, r.value)
    ensures r.Some? ==> forall j :: 0 <= j < r.value ==> !OccursAt(s, sub, j)
    ensures r.None? ==> forall j :: 0 <= j ==> !OccursAt(s, sub, j)
  {
    IndexOfFrom(s, sub, 0)
  }

  /** `indexOf` reports -1 exactly when `includes` is false. */
  lemma IndexOfNoneIffAbsent(s: string, sub: string)
    requires |sub| > 0
    ensures IndexOf(s, sub).None? <==> !Contains(s, sub)
  {
    if IndexOf(s, sub).Some? {
      assert OccursAt(s, sub, IndexOf(s, sub).value);
    }
  }

  /** `s.split(sep)` for a non-empty separator. */
  function Split(s: string, sep: string): (parts: seq<string>)
    requires |sep| > 0
    ensures |parts| >= 1
    decreases |s|
  {
    match IndexOf(s, sep)
    case None => [s]
    case Some(i) => [s[..i]] + Split(s[i + |sep|..], sep)
  }

  lemma NoEarlierOccurrence(s: string, sep: string, i: nat)
    requires |sep| > 0
    requires OccursAt(s, sep, i)
    requires forall j :: 0 <= j < i ==> !OccursAt(s, sep, j)
    ensures !Contains(s[..i], sep)
  {
    if Contains(s[..i], sep) {
      var p := s[..i];
      var j :| 0 <= j <= |p| && OccursAt(p, sep, j);
      assert p[j..j + |sep|] == s[j..j + |sep|];
      assert j < i;
      assert OccursAt(s, sep, j);
      assert false;
    }
  }

  /** `parts.join(sep)`. */
  function Join(parts: seq<string>, sep: string): (r: string)
    ensures |parts| == 0 ==> r == []
    ensures |parts| == 1 ==> r == parts[0]
    decreases |parts|
  {
    if |parts| == 0 then []
    else if |parts| == 1 then parts[0]
    else parts[0] + sep + Join(parts[1..], sep)
  }

  lemma JoinCons(x: string, tail: seq<string>, sep: string)
    requires |tail| >= 1
    ensures Join([x] + tail, sep) == x + sep + Join(tail, sep)
  {
    assert ([x] + tail)[1..] == tail;
  }

  /** Splitting and re-joining on the same separator gives the string back. */
  lemma {:induction false} JoinSplit(s: string, sep: string)
    requires |sep| > 0
    ensures Join(Split(s, sep), sep) == s
    decreases |s|
  {
    var found := IndexOf(s, sep);
    if found.Some? {
      var i := found.value;
      var rest := s[i + |sep|..];
      JoinSplit(rest, sep);
      SplitUnfold(s, sep, i);
      JoinCons(s[..i], Split(rest, sep), sep);
      Recompose(s, sep, i);
    }
  }

  lemma SplitUnfold(s: string, sep: string, i: nat)
    requires |sep| > 0
    requires IndexOf(s, sep) == Some(i)
    ensures Split(s, sep) == [s[..i]] + Split(s[i + |sep|..], sep)
  {
  }

  /** `split` gives one part exactly when the separator does not occur. */
  lemma SplitSingleIffAbsent(s: string, sep: string)
    requires |sep| > 0
    ensures |Split(s, sep)| == 1 <==> !Contains(s, sep)
  {
    IndexOfNoneIffAbsent(s, sep);
    match IndexOf(s, sep)
    case None =>
    case Some(i) => SplitUnfold(s, sep, i);
  }

  /** No part of a split contains the separator. */
  lemma {:induction false} SplitPartsAvoidSeparator(s: string, sep: string)
    requires |sep| > 0
    ensures forall k :: 0 <= k < |Split(s, sep)| ==> !Contains(Split(s, sep)[k], sep)
    decreases |s|
  {
    IndexOfNoneIffAbsent(s, sep);
    match IndexOf(s, sep)
    case None =>
      assert Split(s, sep) == [s];
    case Some(i) =>
      var rest := s[i + |sep|..];
      SplitUnfold(s, sep, i);
      NoEarlierOccurrence(s, sep, i);
      SplitPartsAvoidSeparator(rest, sep);
      forall k | 0 <= k < |Split(s, sep)| ensures !Contains(Split(s, sep)[k], sep) {
        if k > 0 {
          assert Split(s, sep)[k] == Split(rest, sep)[k - 1];
        }
      }
  }

  /** A one-character string occurs exactly where that character is. */
  lemma CharOccurs(s: string, c: char, j: int)
    requires 0 <= j < |s|
    ensures OccursAt(s, [c], j) <==> s[j] == c
  {
    assert s[j..j + 1] == [s[j]];
  }

  /** The first occurrence of a character is after the text that lacks it. */
  lemma FirstCharAfter(a: string, c: char, b: string)
    requires forall i :: 0 <= i < |a| ==> a[i] != c
    ensures IndexOf(a + [c] + b, [c]) == Some(|a|)
  {
    var s := a + [c] + b;
    CharOccurs(s, c, |a|);
    forall j | 0 <= j < |a| ensures !OccursAt(s, [c], j) {
      CharOccurs(s, c, j);
      assert s[j] == a[j];
    }
  }

  /** A character that does not occur is not found. */
  lemma CharAbsent(b: string, c: char)
    requires forall i :: 0 <= i < |b| ==> b[i] != c
    ensures IndexOf(b, [c]).None?
  {
    forall j | 0 <= j < |b| ensures !OccursAt(b, [c], j) {
      CharOccurs(b, c, j);
    }
  }

  /** A string with one separator character splits into the text before it and the text after it. */
  lemma SplitAroundChar(a: string, c: char, b: string)
    requires forall i :: 0 <= i < |a| ==> a[i] != c
    requires forall i :: 0 <= i < |b| ==> b[i] != c
    ensures Split(a + [c] + b, [c]) == [a, b]
  {
    var s := a + [c] + b;
    FirstCharAfter(a, c, b);
    SplitUnfold(s, [c], |a|);
    assert s[..|a|] == a && s[|a| + 1..] == b;
    CharAbsent(b, c);
  }

  lemma Recompose(s: string, sep: string, i: nat)
    requires OccursAt(s, sep, i)
    ensures s == s[..i] + sep + s[i + |sep|..]
  {
    assert s == s[..i] + s[i..i + |sep|] + s[i + |sep|..];
  }

  /** `s.split(sep)[k]`, with `None` for JavaScript's `undefined`. */
  function SplitPart(s: string, sep: string, k: nat): (r: Option<string>)
    requires |sep| > 0
    ensures r.Some? <==> k < |Split(s, sep)|
  {
    var parts := Split(s, sep);
    if k < |parts| then Some(parts[k]) else None
  }

  /** `s.replace(/c/g, "")`: every occurrence of one character removed. */
  function RemoveAll(s: string, c: char): (r: string)
    ensures forall i :: 0 <= i < |r| ==> r[i] != c
    ensures |r| <= |s|
    ensures (forall i :: 0 <= i < |s| ==> s[i] != c) ==> r == s
  {
    if |s| == 0 then []
    else (if s[0] == c then [] else [s[0]]) + RemoveAll(s[1..], c)
  }

  // ---------------------------------------------------------------------
  // Case and whitespace

  /** `toLowerCase` on one character; only the ASCII letters are mapped. */
  function LowerChar(c: char): char {
    if 'A' <= c <= 'Z' then (c as int + 32) as char else c
  }

  function Lower(s: string): (r: string)
    ensures |r| == |s|
    ensures forall i :: 0 <= i < |s| ==> r[i] == LowerChar(s[i])
  {
    seq(|s|, i requires 0 <= i < |s| => LowerChar(s[i]))
  }

  /** The characters `String.prototype.trim` removes: ECMAScript WhiteSpace and LineTerminator. */
  predicate IsWhitespace(c: char) {
    c == '\t' || c == '\n' || c == '\U{000B}' || c == '\U{000C}' || c == '\r' || c == ' '
    || c == '\U{00A0}' || c == '\U{1680}' || ('\U{2000}' <= c <= '\U{200A}')
    || c == '\U{2028}' || c == '\U{2029}' || c == '\U{202F}' || c == '\U{205F}'
    || c == '\U{3000}' || c == '\U{FEFF}'
  }

  /** Drops leading whitespace: the result is the suffix after the whitespace run. */
  function TrimStart(s: string): (r: string)
    ensures |r| <= |s| && r == s[|s| - |r|..]
    ensures forall i :: 0 <= i < |s| - |r| ==> IsWhitespace(s[i])
    ensures |r| > 0 ==> !IsWhitespace(r[0])
  {
    if |s| > 0 && IsWhitespace(s[0]) then
      var r := TrimStart(s[1..]);
      assert forall i :: 1 <= i < |s| ==> s[i] == s[1..][i - 1];
      r
    else s
  }

  /** Drops trailing whitespace: the result is the prefix before the whitespace run. */
  function TrimEnd(s: string): (r: string)
    ensures |r| <= |s| && r == s[..|r|]
    ensures forall i :: |r| <= i < |s| ==> IsWhitespace(s[i])
    ensures |r| > 0 ==> !IsWhitespace(r[|r| - 1])
  {
    if |s| > 0 && IsWhitespace(s[|s| - 1]) then TrimEnd(s[..|s| - 1]) else s
  }

  /** `s.trim()`. */
  function Trim(s: string): string {
    TrimEnd(TrimStart(s))
  }

  lemma {:induction false} TrimStartSkips(ws: string, t: string)
    requires forall i :: 0 <= i < |ws| ==> IsWhitespace(ws[i])
    requires |t| > 0 && !IsWhitespace(t[0])
    ensures TrimStart(ws + t) == t
    decreases |ws|
  {
    if |ws| == 0 {
      assert ws + t == t;
    } else {
      assert (ws + t)[0] == ws[0];
      assert (ws + t)[1..] == ws[1..] + t;
      TrimStartSkips(ws[1..], t);
    }
  }

  lemma {:induction false} TrimEndSkips(t: string, ws: string)
    requires forall i :: 0 <= i < |ws| ==> IsWhitespace(ws[i])
    requires |t| > 0 && !IsWhitespace(t[|t| - 1])
    ensures TrimEnd(t + ws) == t
    decreases |ws|
  {
    if |ws| == 0 {
      assert t + ws == t;
    } else {
      var u := t + ws;
      assert u[|u| - 1] == ws[|ws| - 1];
      assert u[..|u| - 1] == t + ws[..|ws| - 1];
      TrimEndSkips(t, ws[..|ws| - 1]);
    }
  }

  /** Regrouping the middle of a four-part concatenation. */
  lemma Regroup(a: string, b: string, c: string, e: string)
    ensures a + b + c + e == a + (b + c) + e
  {
    assert a + b + c == a + (b + c);
  }

  /** Trimming removes exactly the white space around a string that neither starts nor ends with white space. */
  lemma TrimSurrounded(ws1: string, s: string, ws2: string)
    requires forall i :: 0 <= i < |ws1| ==> IsWhitespace(ws1[i])
    requires forall i :: 0 <= i < |ws2| ==> IsWhitespace(ws2[i])
    requires |s| > 0 && !IsWhitespace(s[0]) && !IsWhitespace(s[|s| - 1])
    ensures Trim(ws1 + s + ws2) == s
  {
    var t := s + ws2;
    assert ws1 + s + ws2 == ws1 + t;
    TrimStartSkips(ws1, t);
    TrimEndSkips(s, ws2);
  }

  /** `!s.trim()` holds exactly when every character of `s` is whitespace. */
  lemma TrimEmptyIffBlank(s: string)
    ensures |Trim(s)| == 0 <==> forall i :: 0 <= i < |s| ==> IsWhitespace(s[i])
  {
    var t := TrimStart(s);
    if |Trim(s)| == 0 {
      assert |t| == 0;
    } else {
      var r := Trim(s);
      assert !IsWhitespace(r[0]);
      assert r[0] == t[0] == s[|s| - |t|];
    }
  }

  /** Trimming a trimmed string changes nothing. */
  lemma TrimIdempotent(s: string)
    ensures Trim(Trim(s)) == Trim(s)
  {
    var r := Trim(s);
    if |r| > 0 {
      assert !IsWhitespace(r[0]);
      assert TrimStart(r) == r;
      assert !IsWhitespace(r[|r| - 1]);
    }
  }

  /** Lowercasing neither creates nor removes whitespace. */
  lemma LowerKeepsWhitespace(c: char)
    ensures IsWhitespace(LowerChar(c)) <==> IsWhitespace(c)
  {
  }

  lemma {:induction false} LowerTrimStart(s: string)
    ensures TrimStart(Lower(s)) == Lower(TrimStart(s))
    decreases |s|
  {
    if |s| == 0 {
      assert Lower(s) == [];
    } else {
      LowerKeepsWhitespace(s[0]);
      if IsWhitespace(s[0]) {
        assert Lower(s)[1..] == Lower(s[1..]);
        LowerTrimStart(s[1..]);
      }
    }
  }

  lemma {:induction false} LowerTrimEnd(s: string)
    ensures TrimEnd(Lower(s)) == Lower(TrimEnd(s))
    decreases |s|
  {
    if |s| == 0 {
      assert Lower(s) == [];
    } else {
      LowerKeepsWhitespace(s[|s| - 1]);
      if IsWhitespace(s[|s| - 1]) {
        assert Lower(s)[..|s| - 1] == Lower(s[..|s| - 1]);
        LowerTrimEnd(s[..|s| - 1]);
      }
    }
  }

  /** Lowercasing and trimming commute. */
  lemma LowerTrim(s: string)
    ensures Lower(Trim(s)) == Trim(Lower(s))
  {
    LowerTrimStart(s);
    LowerTrimEnd(TrimStart(s));
  }

  // ---------------------------------------------------------------------
  // Decimal numbers

  function DigitChar(d: nat): char
    requires d < 10
  {
    ('0' as int + d) as char
  }

  predicate IsDigit(c: char) {
    '0' <= c <= '9'
  }

  /** Decimal rendering of a natural number, as `${n}` does. */
  function NatToString(n: nat): (r: string)
    ensures |r| > 0
    ensures forall i :: 0 <= i < |r| ==> IsDigit(r[i])
  {
    if n < 10 then [DigitChar(n)] else NatToString(n / 10) + [DigitChar(n % 10)]
  }

  /** Value of a non-empty string of decimal digits. */
  function ParseNat(s: string): nat
    requires forall i :: 0 <= i < |s| ==> IsDigit(s[i])
  {
    if |s| == 0 then 0
    else
      assert IsDigit(s[|s| - 1]);
      ParseNat(s[..|s| - 1]) * 10 + (s[|s| - 1] as int - '0' as int)
  }

  /** Rendering then parsing a natural number gives it back. */
  lemma {:induction false} ParseNatToString(n: nat)
    ensures ParseNat(NatToString(n)) == n
  {
    var r := NatToString(n);
    if n >= 10 {
      ParseNatToString(n / 10);
      assert r[..|r| - 1] == NatToString(n / 10);
    }
  }

  /** Decimal rendering of an integer, with a leading minus for negatives. */
  function IntToString(n: int): (r: string)
    ensures |r| > 0
  {
    if n < 0 then "-" + NatToString(-n) else NatToString(n)
  }
}

=== FILE: upload_rules.dfy ===
/**
 * Upload admission on the server (routes/submission.routes.js): the MIME
 * filter, the per-file size limit, the total and per-field file counts, and
 * the mapping of upload-library errors to `CustomError`s.
 *
 * The upload library handles the parts of a multipart body one at a time and
 * aborts on the first violation. For each part, in arrival order, it checks:
 * the total file limit, then the remaining allowance of the part's field, then
 * the MIME filter, and then (while streaming the content) the size limit.
 */
module UploadRules {
  import opened Wrappers
  import opened Errors
  import Seqs

  const AllowedMimeTypes: seq<string> := ["image/png", "image/jpeg", "application/pdf"]
  const MaxFileSize: nat := 3 * 1024 * 1024
  const MaxFiles: nat := 4
  const FilesFieldMax: nat := 1
  const ImagesFieldMax: nat := 3

  /** One file part of a multipart request, as the upload library describes it. */
  datatype FilePart = FilePart(field: string, originalName: string, mimetype: string, size: nat)

  predicate IsAllowedMime(m: string) {
    m in AllowedMimeTypes
  }

  /** An error raised by the upload library itself, with its code and default message. */
  datatype MulterError = MulterError(code: string, message: string, field: string)

  /** Why admission stopped: a library error, or the error the file filter handed back. */
  datatype UploadFailure = Library(e: MulterError) | Other(err: ErrorValue)

  /** The files the library attaches to the request, grouped by field as `req.files`. */
  datatype Admitted = Admitted(files: seq<FilePart>, images: seq<FilePart>)

  /** `fileFilter`: accept exactly the allowed MIME types, otherwise hand back a 400 error. */
  function FileFilter(f: FilePart): (r: Result<bool>)
    ensures r.Ok? <==> IsAllowedMime(f.mimetype)
    ensures r.Ok? ==> r.value
    ensures r.Err? ==> r.error.statusCode == Some(400)
  {
    if IsAllowedMime(f.mimetype) then Ok(true)
    else Err(CustomError("File type " + f.mimetype + " is not allowed. Only PNG, JPEG, and PDF are accepted.", 400))
  }

  /** The configured allowance of a field; fields other than `files` and `images` have none. */
  function FieldMax(field: string): nat {
    if field == "files" then FilesFieldMax else if field == "images" then ImagesFieldMax else 0
  }

  function InField(field: string): FilePart -> bool {
    (p: FilePart) => p.field == field
  }

  /** Outcome of the library pass: the grouped files, or the first failure. */
  datatype Admission = Pass(admitted: Admitted) | Stop(failure: UploadFailure)

  /**
   * The library's pass over the parts. `seen` counts files already accepted,
   * `filesLeft` and `imagesLeft` are the fields' remaining allowances.
   */
  function AdmitFrom(parts: seq<FilePart>, seen: nat, filesLeft: nat, imagesLeft: nat): (r: Admission)
    ensures r.Pass? && |parts| > 0 ==> seen + |parts| <= MaxFiles
    ensures r.Pass? ==> forall i :: 0 <= i < |parts| ==> PartOk(parts[i])
    ensures r.Pass? ==> |r.admitted.files| + |r.admitted.images| == |parts|
    decreases |parts|
  {
    if |parts| == 0 then Pass(Admitted([], []))
    else
      var p := parts[0];
      var left := LeftFor(p.field, filesLeft, imagesLeft);
      if seen >= MaxFiles then Stop(Library(MulterError("LIMIT_FILE_COUNT", "Too many files", "")))
      else if left == 0 then Stop(Library(MulterError("LIMIT_UNEXPECTED_FILE", "Unexpected field", p.field)))
      else if FileFilter(p).Err? then Stop(Other(FileFilter(p).error))
      else if p.size > MaxFileSize then Stop(Library(MulterError("LIMIT_FILE_SIZE", "File too large", p.field)))
      else
        var rest := AdmitFrom(parts[1..], seen + 1,
          if p.field == "files" then filesLeft - 1 else filesLeft,
          if p.field == "images" then imagesLeft - 1 else imagesLeft);
        match rest
        case Stop(e) => Stop(e)
        case Pass(a) =>
          assert PartOk(p) && forall i :: 1 <= i < |parts| ==> parts[i] == parts[1..][i - 1];
          if p.field == "files" then Pass(Admitted([p] + a.files, a.images))
          else Pass(Admitted(a.files, [p] + a.images))
  }

    /** `multer(...).fields([{files, 1}, {images, 3}])` applied to the parts of one request. */
  function Admit(parts: seq<FilePart>): (r: Admission)
    ensures r.Pass? <==> Admissible(parts)
    ensures r.Pass? ==> r.admitted == Admitted(Seqs.Filter(parts, InField("files")), Seqs.Filter(parts, InField("images")))
  {
    AdmitFromCharacterised(parts, 0, FilesFieldMax, ImagesFieldMax);
    var r := AdmitFrom(parts, 0, FilesFieldMax, ImagesFieldMax);
    if r.Pass? then AdmitFromContents(parts, 0, FilesFieldMax, ImagesFieldMax); r else r
  }

  /** A part every per-file rule accepts. */
  predicate PartOk(p: FilePart) {
    (p.field == "files" || p.field == "images") && IsAllowedMime(p.mimetype) && p.size <= MaxFileSize
  }

  /** The declarative admission rule for a pass that starts with the given allowances. */
  predicate AdmissibleFrom(parts: seq<FilePart>, seen: nat, filesLeft: nat, imagesLeft: nat) {
    && seen + |parts| <= MaxFiles
    && Seqs.Count(parts, InField("files")) <= filesLeft
    && Seqs.Count(parts, InField("images")) <= imagesLeft
    && forall i :: 0 <= i < |parts| ==> PartOk(parts[i])
  }

  /** A request the library admits: at most 4 files, at most 1 in `files` and 3 in `images`, each allowed and at most 3 MiB. */
  predicate Admissible(parts: seq<FilePart>) {
    AdmissibleFrom(parts, 0, FilesFieldMax, ImagesFieldMax)
  }

  lemma CountCons(p: FilePart, rest: seq<FilePart>, field: string)
    ensures Seqs.Count([p] + rest, InField(field)) == (if p.field == field then 1 else 0) + Seqs.Count(rest, InField(field))
  {
    assert ([p] + rest)[1..] == rest;
  }

  /** The field allowance left for a part. */
  function LeftFor(field: string, filesLeft: nat, imagesLeft: nat): nat {
    if field == "files" then filesLeft else if field == "images" then imagesLeft else 0
  }

  /** The declarative rule, peeled one part at a time as the pass consumes them. */
  lemma AdmissibleCons(p: FilePart, rest: seq<FilePart>, seen: nat, filesLeft: nat, imagesLeft: nat)
    ensures AdmissibleFrom([p] + rest, seen, filesLeft, imagesLeft) <==>
      && seen < MaxFiles && LeftFor(p.field, filesLeft, imagesLeft) > 0 && PartOk(p)
      && AdmissibleFrom(rest, seen + 1,
           if p.field == "files" then filesLeft - 1 else filesLeft,
           if p.field == "images" then imagesLeft - 1 else imagesLeft)
  {
    var parts := [p] + rest;
    CountCons(p, rest, "files");
    CountCons(p, rest, "images");
    assert parts[0] == p;
    assert forall i :: 0 <= i < |rest| ==> rest[i] == parts[i + 1];
    if (forall i :: 0 <= i < |parts| ==> PartOk(parts[i])) {
      assert PartOk(p);
    }
    if PartOk(p) && (forall i :: 0 <= i < |rest| ==> PartOk(rest[i])) {
      forall i | 0 <= i < |parts|
        ensures PartOk(parts[i])
      {
        if i > 0 { assert parts[i] == rest[i - 1]; }
      }
    }
  }

  lemma FilterCons(p: FilePart, rest: seq<FilePart>, field: string)
    ensures Seqs.Filter([p] + rest, InField(field)) ==
      (if p.field == field then [p] else []) + Seqs.Filter(rest, InField(field))
  {
    assert ([p] + rest)[1..] == rest;
  }

  /** The first part decides whether the pass stops at once. */
  predicate HeadPasses(p: FilePart, seen: nat, filesLeft: nat, imagesLeft: nat) {
    seen < MaxFiles && LeftFor(p.field, filesLeft, imagesLeft) > 0 && PartOk(p)
  }

  lemma AdmitStopsAtBadHead(parts: seq<FilePart>, seen: nat, filesLeft: nat, imagesLeft: nat)
    requires |parts| > 0 && !HeadPasses(parts[0], seen, filesLeft, imagesLeft)
    ensures AdmitFrom(parts, seen, filesLeft, imagesLeft).Stop?
  {
  }

  lemma AdmitGoesOn(parts: seq<FilePart>, seen: nat, filesLeft: nat, imagesLeft: nat)
    requires |parts| > 0 && HeadPasses(parts[0], seen, filesLeft, imagesLeft)
    ensures var p := parts[0];
      var rest := AdmitFrom(parts[1..], seen + 1,
        if p.field == "files" then filesLeft - 1 else filesLeft,
        if p.field == "images" then imagesLeft - 1 else imagesLeft);
      && (AdmitFrom(parts, seen, filesLeft, imagesLeft).Pass? <==> rest.Pass?)
      && (rest.Pass? ==>
            AdmitFrom(parts, seen, filesLeft, imagesLeft).admitted ==
              if p.field == "files" then Admitted([p] + rest.admitted.files, rest.admitted.images)
              else Admitted(rest.admitted.files, [p] + rest.admitted.images))
  {
  }

  /**
   * The pass admits exactly the admissible requests, and then hands on each
   * field's parts in arrival order.
   */
  lemma {:induction false} AdmitFromCharacterised(parts: seq<FilePart>, seen: nat, filesLeft: nat, imagesLeft: nat)
    requires seen <= MaxFiles
    ensures AdmitFrom(parts, seen, filesLeft, imagesLeft).Pass? <==> AdmissibleFrom(parts, seen, filesLeft, imagesLeft)
    decreases |parts|
  {
    if |parts| > 0 {
      var p := parts[0];
      var rest := parts[1..];
      assert parts == [p] + rest;
      AdmissibleCons(p, rest, seen, filesLeft, imagesLeft);
      if HeadPasses(p, seen, filesLeft, imagesLeft) {
        var fl := if p.field == "files" then filesLeft - 1 else filesLeft;
        var il := if p.field == "images" then imagesLeft - 1 else imagesLeft;
        AdmitGoesOn(parts, seen, filesLeft, imagesLeft);
        AdmitFromCharacterised(rest, seen + 1, fl, il);
      } else {
        AdmitStopsAtBadHead(parts, seen, filesLeft, imagesLeft);
      }
    }
  }

  /** An admitted request hands on each field's parts in arrival order. */
  lemma {:induction false} AdmitFromContents(parts: seq<FilePart>, seen: nat, filesLeft: nat, imagesLeft: nat)
    requires AdmitFrom(parts, seen, filesLeft, imagesLeft).Pass?
    ensures AdmitFrom(parts, seen, filesLeft, imagesLeft).admitted ==
      Admitted(Seqs.Filter(parts, InField("files")), Seqs.Filter(parts, InField("images")))
    decreases |parts|
  {
    if |parts| > 0 {
      var p := parts[0];
      var rest := parts[1..];
      assert parts == [p] + rest;
      if !HeadPasses(p, seen, filesLeft, imagesLeft) {
        AdmitStopsAtBadHead(parts, seen, filesLeft, imagesLeft);
      } else {
        var fl := if p.field == "files" then filesLeft - 1 else filesLeft;
        var il := if p.field == "images" then imagesLeft - 1 else imagesLeft;
        AdmitGoesOn(parts, seen, filesLeft, imagesLeft);
        AdmitFromContents(rest, seen + 1, fl, il);
        FilterCons(p, rest, "files");
        FilterCons(p, rest, "images");
      }
    }
  }

  /** The fixed message for each library error code; other codes keep the library's own message. */
  function LibraryMessage(e: MulterError): (m: string)
    ensures e.code == "LIMIT_FILE_SIZE" ==> m == "File size exceeds the 3MB limit"
    ensures e.code == "LIMIT_FILE_COUNT" ==> m == "Too many files uploaded. Maximum is 4 files (1 PDF and 3 images)"
    ensures e.code == "LIMIT_UNEXPECTED_FILE" ==> m == "Unexpected field name in upload"
    ensures e.code !in {"LIMIT_FILE_SIZE", "LIMIT_FILE_COUNT", "LIMIT_UNEXPECTED_FILE"} ==> m == e.message
  {
    match e.code
    case "LIMIT_FILE_SIZE" => "File size exceeds the 3MB limit"
    case "LIMIT_FILE_COUNT" => "Too many files uploaded. Maximum is 4 files (1 PDF and 3 images)"
    case "LIMIT_UNEXPECTED_FILE" => "Unexpected field name in upload"
    case _ => e.message
  }

  /**
   * `handleMulterUpload`'s callback: the argument `next` is called with. A
   * library error becomes a 400 `CustomError`, any other error is forwarded
   * unchanged, and no error means `next()` with no argument.
   */
  function HandleUploadError(err: Option<UploadFailure>): (next: Option<ErrorValue>)
    ensures err.None? <==> next.None?
    ensures err.Some? && err.value.Library? ==>
      next == Some(CustomError(LibraryMessage(err.value.e), 400))
    ensures err.Some? && err.value.Other? ==> next == Some(err.value.err)
  {
    match err
    case None => None
    case Some(Library(e)) => Some(CustomError(LibraryMessage(e), 400))
    case Some(Other(e)) => Some(e)
  }

  /** The middleware end to end: the request's grouped files, or the error handed to `next`. */
  function HandleMulterUpload(parts: seq<FilePart>): (r: Result<Admitted>)
    ensures r.Ok? <==> Admissible(parts)
    ensures r.Err? ==> r.error.statusCode == Some(400)
  {
    match Admit(parts)
    case Pass(a) => Ok(a)
    case Stop(f) =>
      StopOtherIsFilterError(parts, 0, FilesFieldMax, ImagesFieldMax);
      Err(HandleUploadError(Some(f)).value)
  }

  /** A failure that is not the library's own comes from the file filter, so it carries status 400. */
  lemma StopOtherIsFilterError(parts: seq<FilePart>, seen: nat, fl: nat, il: nat)
    ensures AdmitFrom(parts, seen, fl, il).Stop? && AdmitFrom(parts, seen, fl, il).failure.Other? ==>
      AdmitFrom(parts, seen, fl, il).failure.err.statusCode == Some(400)
  {
  }
}

=== FILE: user_controller.dfy ===
/**
 * Accounts (controllers/user.controllers.js): registration with its
 * duplicate-email guard, login, and the password-reset and password-change
 * flows. Hashing, comparing against a hash, signing and verifying tokens and
 * sending mail are parameters. The user schema (models/user.models.js) does
 * not declare the reset-token paths; the model keeps them on the user, as
 * the reset flow intends.
 */
module UserController {
  import opened Wrappers
  import CertificateController
  import Seqs

  /** A stored user; `passwordHash` is what the `password` path holds. */
  datatype User = User(
    id: string,
    name: Option<string>,
    email: Option<string>,
    passwordHash: Option<string>,
    phoneNumber: Option<string>,
    college: Option<string>,
    city: Option<string>,
    state: Option<string>,
    departmentName: Option<string>,
    startDate: Option<int>,
    endDate: Option<int>,
    resetToken: Option<string>,
    resetTokenExpiry: Option<int>)

  type Users = seq<User>

  /** The registration form; fields other than these are not in the schema and are dropped. */
  datatype Registration = Registration(
    name: Option<string>,
    email: string,
    startDate: Option<int>,
    endDate: Option<int>,
    departmentName: Option<string>,
    password: Option<string>,
    phoneNumber: Option<string>,
    college: Option<string>,
    city: Option<string>,
    state: Option<string>)

  datatype Profile = Profile(department: Option<string>, email: Option<string>, name: Option<string>,
                             startDate: Option<int>, endDate: Option<int>)

  /** The JSON answer, with the `authToken` cookie when one is set. */
  datatype Reply = Reply(status: int, outcome: string, message: Option<string>, user: Option<Profile>, cookie: Option<string>)

  function Failure(status: int, message: string): Reply {
    Reply(status, "failed", Some(message), None, None)
  }

  function Success(message: string): Reply {
    Reply(200, "success", Some(message), None, None)
  }

  function ProfileOf(u: User): Profile {
    Profile(u.departmentName, u.email, u.name, u.startDate, u.endDate)
  }

  /** The milliseconds a reset token stays usable: one hour. */
  const ResetWindow := 3600000

  const ResetLifetime := "1h"

  // ---------------------------------------------------------------------
  // Lookups and saving

  /** A required string path fails on a missing or empty value. */
  predicate Present(v: Option<string>) {
    v.Some? && v.value != ""
  }

  /** The user schema's required paths; `save` rejects a user missing any of them. */
  predicate Complete(u: User) {
    && Present(u.name) && Present(u.email) && Present(u.passwordHash)
    && Present(u.phoneNumber) && Present(u.college) && Present(u.city) && Present(u.state)
    && Present(u.departmentName) && u.startDate.Some? && u.endDate.Some?
  }

  /** `findOne({ email })`: the user schema has no setters, so the match is exact. */
  function FindByEmail(users: Users, email: string): (r: Option<nat>)
    ensures r.Some? ==> r.value < |users| && users[r.value].email == Some(email)
    ensures r.None? <==> forall j :: 0 <= j < |users| ==> users[j].email != Some(email)
  {
    Seqs.FindFirst(users, (u: User) => u.email == Some(email))
  }

  function FindById(users: Users, id: string): (r: Option<nat>)
    ensures r.Some? ==> r.value < |users| && users[r.value].id == id
    ensures r.None? <==> forall j :: 0 <= j < |users| ==> users[j].id != id
  {
    Seqs.FindFirst(users, (u: User) => u.id == id)
  }

  // ---------------------------------------------------------------------
  // addUser

  datatype Registered = Registered(users: Users, offers: CertificateController.Store, reply: Reply)

  /**
   * `addUser`: refuse a known email; otherwise store the user with the hash
   * of the password, ask for an offer letter (whose outcome does not change
   * the answer) and answer 201 with the profile and a session cookie.
   */
  function AddUser(users: Users, offers: CertificateController.Store, body: Registration, newId: string,
                   hash: string -> string, sign: string -> string,
                   rendering: CertificateController.Rendering, emailOk: string -> bool, now: int): (r: Registered)
    ensures FindByEmail(users, body.email).Some? ==>
      r == Registered(users, offers, Failure(400, "Email already exists"))
    ensures r.reply.status == 201 || r.reply.status == 400 || r.reply.status == 500
    ensures r.reply.status != 201 ==> r.users == users && r.offers == offers
    ensures r.reply.status == 201 ==>
      && |r.users| == |users| + 1 && r.users[..|users|] == users
      && body.password.Some? && r.users[|users|].passwordHash == Some(hash(body.password.value))
      && r.users[|users|].email == Some(body.email)
      && r.reply.user == Some(ProfileOf(r.users[|users|]))
      && r.reply.cookie == Some(sign(newId))
  {
    if FindByEmail(users, body.email).Some? then Registered(users, offers, Failure(400, "Email already exists"))
    else if body.password.None? then Registered(users, offers, Failure(500, "Registration failed"))
    else
      var u := User(newId, body.name, Some(body.email), Some(hash(body.password.value)), body.phoneNumber,
                    body.college, body.city, body.state, body.departmentName, body.startDate, body.endDate, None, None);
      if !Complete(u) then Registered(users, offers, Failure(500, "Registration failed"))
      else
        var letter := CertificateController.GenerateOfferLetter(offers,
          CertificateController.OfferRequest(body.name, body.email, body.startDate, body.endDate, body.departmentName),
          rendering, emailOk, now);
        assert (users + [u])[..|users|] == users;
        Registered(users + [u], letter.store, Reply(201, "success", None, Some(ProfileOf(u)), Some(sign(newId))))
  }

  /**
   * A successful registration answers 201 whatever became of the offer
   * letter, and leaves the letter store as `GenerateOfferLetter` left it.
   */
  lemma RegistrationIgnoresLetterOutcome(users: Users, offers: CertificateController.Store, body: Registration, newId: string,
                                          hash: string -> string, sign: string -> string,
                                          rendering: CertificateController.Rendering, emailOk: string -> bool, now: int)
    requires AddUser(users, offers, body, newId, hash, sign, rendering, emailOk, now).reply.status == 201
    ensures AddUser(users, offers, body, newId, hash, sign, rendering, emailOk, now).offers ==
      CertificateController.GenerateOfferLetter(offers,
        CertificateController.OfferRequest(body.name, body.email, body.startDate, body.endDate, body.departmentName),
        rendering, emailOk, now).store
  {
  }

  /** After a registration the email is taken: registering it again is refused and changes nothing. */
  lemma SecondRegistrationRefused(users: Users, offers: CertificateController.Store, body: Registration, newId: string,
                                   hash: string -> string, sign: string -> string,
                                   rendering: CertificateController.Rendering, emailOk: string -> bool, now: int,
                                   again: Registration, otherId: string)
    requires AddUser(users, offers, body, newId, hash, sign, rendering, emailOk, now).reply.status == 201
    requires again.email == body.email
    ensures var r := AddUser(users, offers, body, newId, hash, sign, rendering, emailOk, now);
            AddUser(r.users, r.offers, again, otherId, hash, sign, rendering, emailOk, now)
              == Registered(r.users, r.offers, Failure(400, "Email already exists"))
  {
    var r := AddUser(users, offers, body, newId, hash, sign, rendering, emailOk, now);
    assert r.users[|users|].email == Some(again.email);
  }

  // ---------------------------------------------------------------------
  // login

  const BadCredentials := "Invalid credentials"
  const LoginFailed := "Login failed"

  /**
   * `login`: an unknown email and a wrong password get the same 401. Comparing
   * rejects when the password or the stored hash is missing, and that answers 500.
   */
  function Login(users: Users, email: string, password: Option<string>, matches: (string, string) -> bool,
                 sign: string -> string): (r: Reply)
    ensures r.status == 200 || r == Failure(401, BadCredentials) || r == Failure(500, LoginFailed)
    ensures r.status == 200 <==>
      FindByEmail(users, email).Some? && password.Some? && users[FindByEmail(users, email).value].passwordHash.Some?
      && matches(password.value, users[FindByEmail(users, email).value].passwordHash.value)
    ensures r.status == 500 <==>
      FindByEmail(users, email).Some? && (password.None? || users[FindByEmail(users, email).value].passwordHash.None?)
    ensures r.status == 200 ==>
      var u := users[FindByEmail(users, email).value];
      r.user == Some(ProfileOf(u)) && r.cookie == Some(sign(u.id))
  {
    match FindByEmail(users, email)
    case None => Failure(401, BadCredentials)
    case Some(i) =>
      if password.None? || users[i].passwordHash.None? then Failure(500, LoginFailed)
      else if !matches(password.value, users[i].passwordHash.value) then Failure(401, BadCredentials)
      else Reply(200, "success", None, Some(ProfileOf(users[i])), Some(sign(users[i].id)))
  }

  // ---------------------------------------------------------------------
  // The reset token

  datatype Step = Step(users: Users, reply: Reply)

  /**
   * `sendEmailResetPassword`: store a fresh token for the user with an
   * expiry one hour from now, then mail the link. A mail failure is a 500,
   * but the token is already stored.
   */
  function RequestReset(users: Users, email: string, sign: (string, string) -> string, mailSent: bool, now: int): (r: Step)
    ensures FindByEmail(users, email).None? ==> r == Step(users, Failure(404, "User not found"))
    ensures r.users != users ==>
      var i := FindByEmail(users, email).value;
      && |r.users| == |users|
      && r.users == users[i := users[i].(resetToken := Some(sign(users[i].id, ResetLifetime)),
                                        resetTokenExpiry := Some(now + ResetWindow))]
    ensures r.reply.status == 200 <==> FindByEmail(users, email).Some? && Complete(users[FindByEmail(users, email).value]) && mailSent
  {
    match FindByEmail(users, email)
    case None => Step(users, Failure(404, "User not found"))
    case Some(i) =>
      var u := users[i].(resetToken := Some(sign(users[i].id, ResetLifetime)), resetTokenExpiry := Some(now + ResetWindow));
      if !Complete(u) then Step(users, Failure(500, "Failed to send password reset email"))
      else if !mailSent then Step(users[i := u], Failure(500, "Failed to send password reset email"))
      else Step(users[i := u], Success("Password reset email sent"))
  }

  /** The user a reset link is for: the id matches, the token is the stored one and has not expired. */
  predicate Redeemable(u: User, id: string, token: string, now: int) {
    u.id == id && u.resetToken == Some(token) && u.resetTokenExpiry.Some? && u.resetTokenExpiry.value > now
  }

  function FindRedeemable(users: Users, id: string, token: string, now: int): (r: Option<nat>)
    ensures r.Some? ==> r.value < |users| && Redeemable(users[r.value], id, token, now)
    ensures r.None? <==> forall j :: 0 <= j < |users| ==> !Redeemable(users[j], id, token, now)
  {
    Seqs.FindFirst(users, (u: User) => Redeemable(u, id, token, now))
  }

  const ResetFailed := "Failed to reset password"

  /**
   * `userPasswordReset`: the token must verify and be the unexpired token
   * stored for that user; then the password is replaced and the token and
   * its expiry are cleared. Hashing a missing `newPassword` rejects, which
   * answers 500 before anything is saved.
   */
  function ResetPassword(users: Users, id: string, token: string, newPassword: Option<string>,
                         verifies: string -> bool, hash: string -> string, now: int): (r: Step)
    ensures !verifies(token) ==> r == Step(users, Failure(401, "Invalid or expired token"))
    ensures verifies(token) && FindRedeemable(users, id, token, now).None? ==>
      r == Step(users, Failure(401, "Invalid or expired reset link"))
    ensures verifies(token) && FindRedeemable(users, id, token, now).Some? && newPassword.None? ==>
      r == Step(users, Failure(500, ResetFailed))
    ensures r.reply.status == 200 <==>
      verifies(token) && FindRedeemable(users, id, token, now).Some? && newPassword.Some?
      && Complete(users[FindRedeemable(users, id, token, now).value].(passwordHash := Some(hash(newPassword.value))))
    ensures r.reply.status != 200 ==> r.users == users
    ensures r.reply.status == 200 ==>
      var i := FindRedeemable(users, id, token, now).value;
      r.users == users[i := users[i].(passwordHash := Some(hash(newPassword.value)), resetToken := None, resetTokenExpiry := None)]
  {
    if !verifies(token) then Step(users, Failure(401, "Invalid or expired token"))
    else match FindRedeemable(users, id, token, now)
      case None => Step(users, Failure(401, "Invalid or expired reset link"))
      case Some(i) =>
        if newPassword.None? then Step(users, Failure(500, ResetFailed))
        else
          var u := users[i].(passwordHash := Some(hash(newPassword.value)), resetToken := None, resetTokenExpiry := None);
          if !Complete(u) then Step(users, Failure(500, ResetFailed))
          else Step(users[i := u], Success("Password reset successful"))
  }

  predicate DistinctIds(users: Users) {
    forall j, k :: 0 <= j < k < |users| ==> users[j].id != users[k].id
  }

  /** A token is good for one reset: the same link fails afterwards, at any later time. */
  lemma TokenIsSingleUse(users: Users, id: string, token: string, p1: Option<string>, p2: Option<string>,
                         verifies: string -> bool, hash: string -> string, now: int, later: int)
    requires DistinctIds(users)
    requires ResetPassword(users, id, token, p1, verifies, hash, now).reply.status == 200
    ensures var s := ResetPassword(users, id, token, p1, verifies, hash, now).users;
            ResetPassword(s, id, token, p2, verifies, hash, later) == Step(s, Failure(401, "Invalid or expired reset link"))
  {
    var i := FindRedeemable(users, id, token, now).value;
    var s := ResetPassword(users, id, token, p1, verifies, hash, now).users;
    forall j | 0 <= j < |s| ensures !Redeemable(s[j], id, token, later) {
      if j != i {
        assert s[j] == users[j];
        assert users[j].id != users[i].id;
      }
    }
  }

  /** A freshly requested token redeems within the hour and not after it. */
  lemma TokenExpiresAfterAnHour(users: Users, email: string, sign: (string, string) -> string, now: int, at: int)
    requires DistinctIds(users)
    requires RequestReset(users, email, sign, true, now).reply.status == 200
    ensures var i := FindByEmail(users, email).value;
            var s := RequestReset(users, email, sign, true, now).users;
            var token := sign(users[i].id, ResetLifetime);
            (FindRedeemable(s, users[i].id, token, at).Some? <==> at < now + ResetWindow)
  {
    var i := FindByEmail(users, email).value;
    var s := RequestReset(users, email, sign, true, now).users;
    var token := sign(users[i].id, ResetLifetime);
    assert Redeemable(s[i], users[i].id, token, at) <==> at < now + ResetWindow;
    if at >= now + ResetWindow {
      forall j | 0 <= j < |s| ensures !Redeemable(s[j], users[i].id, token, at) {
        if j != i {
          assert s[j] == users[j];
          assert j < i || i < j;
          assert users[j].id != users[i].id;
        }
      }
    }
  }

  // ---------------------------------------------------------------------
  // The reset token under the schema as declared

  /**
   * A user as the collection holds it under the user schema as declared:
   * `resetToken` and `resetTokenExpiry` are not schema paths, so `save`
   * writes neither and no stored user has them.
   */
  function AsDeclared(users: Users): (r: Users)
    ensures |r| == |users|
    ensures forall j :: 0 <= j < |r| ==>
      r[j] == users[j].(resetToken := None, resetTokenExpiry := None)
  {
    seq(|users|, j requires 0 <= j < |users| => users[j].(resetToken := None, resetTokenExpiry := None))
  }

  /** As written, a reset request leaves nothing in the collection: the token it mails is never stored. */
  lemma ResetTokenIsNotStored(users: Users, email: string, sign: (string, string) -> string, mailSent: bool, now: int)
    ensures AsDeclared(RequestReset(users, email, sign, mailSent, now).users) == AsDeclared(users)
  {
    var s := RequestReset(users, email, sign, mailSent, now).users;
    assert |s| == |users|;
    forall j | 0 <= j < |s| ensures AsDeclared(s)[j] == AsDeclared(users)[j] {
      if s != users {
        var i := FindByEmail(users, email).value;
        if j == i {
          assert s[j] == users[j].(resetToken := s[j].resetToken, resetTokenExpiry := s[j].resetTokenExpiry);
        } else {
          assert s[j] == users[j];
        }
      }
    }
  }

  /**
   * As written, a reset link never works: the lookup filters on the token,
   * which no stored user holds, so every link that verifies is refused.
   */
  lemma ResetLinkNeverRedeems(users: Users, id: string, token: string, newPassword: Option<string>,
                              verifies: string -> bool, hash: string -> string, now: int)
    requires verifies(token)
    ensures ResetPassword(AsDeclared(users), id, token, newPassword, verifies, hash, now)
            == Step(AsDeclared(users), Failure(401, "Invalid or expired reset link"))
  {
    var s := AsDeclared(users);
    forall j | 0 <= j < |s| ensures !Redeemable(s[j], id, token, now) {
      assert s[j].resetToken.None?;
    }
  }

  // ---------------------------------------------------------------------
  // changeUserPassword

  const ChangeFailed := "Failed to change password"

  /**
   * `changeUserPassword`: only the holder of the current password may set a
   * new one. Comparing a missing `currentPassword` (or against a missing
   * hash) and hashing a missing `newPassword` reject, which answers 500.
   */
  function ChangePassword(users: Users, userId: string, current: Option<string>, newPassword: Option<string>,
                          matches: (string, string) -> bool, hash: string -> string): (r: Step)
    ensures FindById(users, userId).None? ==> r == Step(users, Failure(404, "User not found"))
    ensures r.reply.status != 200 ==> r.users == users
    ensures r.reply.status == 401 ==> r.reply == Failure(401, "Current password is incorrect")
    ensures FindById(users, userId).Some? ==>
      var u := users[FindById(users, userId).value];
      && (r.reply.status == 401 <==> current.Some? && u.passwordHash.Some? && !matches(current.value, u.passwordHash.value))
      && (current.None? || u.passwordHash.None? ==> r == Step(users, Failure(500, ChangeFailed)))
      && (current.Some? && u.passwordHash.Some? && matches(current.value, u.passwordHash.value) && newPassword.None? ==>
            r == Step(users, Failure(500, ChangeFailed)))
    ensures r.reply.status == 200 ==>
      var i := FindById(users, userId).value;
      newPassword.Some? && r.users == users[i := users[i].(passwordHash := Some(hash(newPassword.value)))]
  {
    match FindById(users, userId)
    case None => Step(users, Failure(404, "User not found"))
    case Some(i) =>
      if current.None? || users[i].passwordHash.None? then Step(users, Failure(500, ChangeFailed))
      else if !matches(current.value, users[i].passwordHash.value) then
        Step(users, Failure(401, "Current password is incorrect"))
      else if newPassword.None? then Step(users, Failure(500, ChangeFailed))
      else
        var u := users[i].(passwordHash := Some(hash(newPassword.value)));
        if !Complete(u) then Step(users, Failure(500, ChangeFailed))
        else Step(users[i := u], Success("Password changed successfully"))
  }

  /** After a password change the new password logs in and, where the check tells them apart, the old one does not. */
  lemma ChangedPasswordLogsIn(users: Users, userId: string, current: Option<string>, newPassword: Option<string>,
                              matches: (string, string) -> bool, hash: string -> string, sign: string -> string)
    requires ChangePassword(users, userId, current, newPassword, matches, hash).reply.status == 200
    requires forall p, q :: matches(p, hash(q)) <==> p == q
    ensures var s := ChangePassword(users, userId, current, newPassword, matches, hash).users;
            var u := users[FindById(users, userId).value];
            u.email.Some? && FindByEmail(s, u.email.value) == FindById(users, userId) ==>
              && Login(s, u.email.value, newPassword, matches, sign).status == 200
              && (current != newPassword ==> Login(s, u.email.value, current, matches, sign).status == 401)
  {
  }
}

=== FILE: wrappers.dfy ===
/** Failure-compatible helper types shared by every module of the model. */
module Wrappers {

  /** A value that may be absent: JavaScript's `undefined` for an optional field. */
  datatype Option<+T> = None | Some(value: T) {

    /** The carried value, or `default` when absent. */
    function GetOr(default: T): T {
      match this
      case Some(v) => v
      case None => default
    }
  }

  /** The unit value, returned by operations whose success carries no data. */
  datatype Unit = Unit
}
